=== FILE: README.md ===
# dwarfindex in Dafny

A model of drgn's DWARF indexer, `drgn/internal/dwarfindex.c`. The indexer
takes ELF64 object files and does the following:

- It validates each file's ELF header and section header table.
- It picks out `.debug_abbrev`, `.debug_info`, `.debug_line`, `.debug_str` and
  `.symtab`, and applies the `SHT_RELA` relocations that target the debug
  sections.
- It walks the compilation units of `.debug_info`. For each unit it compiles
  the abbreviation table into a small byte code and interprets that byte code
  over every DIE.
- It records each named, defined type, variable and enumerator DIE in a
  fixed-size open-addressing hash table. The table is keyed by name, tag and
  the hash of the declaring file's canonical path.
- `DwarfIndex_find` looks names up in that table.

Everything is modelled as pure functions over byte sequences (`seq<byte>`)
with integer offsets as cursors. Each `return -1` path becomes an `Err` of the
`Result` datatype, carrying the same exception kind and message. The little
endian reads of the host are written out.

The modules follow the parts of the source:

| module | file | part of `dwarfindex.c` |
|---|---|---|
| `Base` | base.dfy | result and error types, little-endian numbers, the DWARF and ELF constants |
| `Cursor` | cursor.dfy | `in_bounds`, `read_uN`, `read_string`, `skip_string`, `read_uleb128`, `skip_leb128` |
| `CuHeader` | cu_header.dfy | `read_compilation_unit_header`, `read_cus` |
| `Abbrev` | abbrev.dfy | `append_cmd`, `read_abbrev_decl`, `read_abbrev_table` |
| `Die` | die.dfy | `read_die` |
| `LineProgram` | line_program.dfy | `skip_lnp_header`, `hash_directory`, `read_file_name_table` |
| `DieHash` | die_hash.dfy | `name_hash`, `add_die_hash_entry`, the probe loop of `DwarfIndex_find` |
| `IndexCu` | index_cu.dfy | `index_cu`, `index_cus` |
| `Elf` | elf.dfy | `validate_ehdr`, `validate_shdr`, `read_sections`, `apply_relocation`, `apply_relocations` |
| `DwarfIndex` | dwarf_index.dfy | the pipeline of `DwarfIndex_add` |

A few modelling choices:

- A file is its bytes.
- A pointer into a section is an offset into that section's bytes.
- SipHash is replaced by the exact byte string fed to it: a `FileKey`. Two
  keys are equal exactly when the same bytes were hashed.
- The DIE hash table is a sequence of `DIE_HASH_SIZE` optional entries. An
  entry holds the name's bytes as `strcmp` and `name_hash` see them; the C
  stores a pointer to them.

## Model

| member | source | states |
|---|---|---|
| Cursor.ReadUnsigned | drgn/internal/dwarfindex.c:172-231 | a fixed-width little-endian read succeeds exactly when `width` bytes remain before `end`; otherwise it raises EOFError; on success the cursor moves by exactly `width` and the value is below 2^(8·width) |
| Cursor.ReadUnsignedEncoded | drgn/internal/dwarfindex.c:177-188 | reading back an integer written little-endian at any position returns it, whatever surrounds it |
| Cursor.ReadString | drgn/internal/dwarfindex.c:257-277 | a string is read exactly when a NUL occurs in [ptr, end); the value is the bytes up to the first NUL, it holds no NUL, and the cursor lands one past the NUL; otherwise EOFError |
| Cursor.SkipString | drgn/internal/dwarfindex.c:238-255 | skipping succeeds under the same condition as reading and lands just past the first NUL |
| Cursor.SkipStringAgreesWithRead | drgn/internal/dwarfindex.c:238-277 | skip_string and read_string succeed on the same inputs and leave the cursor at the same place |
| Cursor.ReadStringAt | drgn/internal/dwarfindex.c:257-277 | where a NUL-free string followed by a NUL lies, read_string returns that string and steps over it |
| Cursor.ReadUleb128 | drgn/internal/dwarfindex.c:291-316 | fails only with EOFError or OverflowError; on success it consumes 1 to 10 bytes and returns the sum of (byte & 0x7f)·2^(7k) over them, a value below 2^64 |
| Cursor.ReadUlebOutcome | drgn/internal/dwarfindex.c:291-316 | EOFError exactly when every byte before `end` (at most nine) has the continuation bit; OverflowError exactly when nine continuation bytes are followed by a tenth byte above 1; on success the last byte consumed is the first one without the continuation bit |
| Cursor.SkipLeb128 | drgn/internal/dwarfindex.c:279-289 | fails exactly when no byte before `end` lacks the continuation bit; otherwise it stops just past the first such byte |
| Cursor.SkipAgreesWithRead | drgn/internal/dwarfindex.c:279-316 | wherever a ULEB128 number can be read, skipping it stops at the same place |
| Cursor.ReadUlebEncoded | drgn/internal/dwarfindex.c:291-316 | decoding the shortest encoding of any 64-bit value returns that value and consumes exactly the encoding |
| Cursor.ReadUlebWellFormed | drgn/internal/dwarfindex.c:291-316 | any well-formed encoding that fits in 64 bits, padded or not, decodes to its value and is consumed whole |
| CuHeader.ReadCompilationUnitHeader | drgn/internal/dwarfindex.c:726-758 | fails only with EOFError or an unknown DWARF version; a header that is read is valid (version 2, 3 or 4; fields within their widths) and lies wholly before `end` |
| CuHeader.HeaderOutcome | drgn/internal/dwarfindex.c:726-758 | the header is read exactly when its 11 or 23 bytes (by the 0xffffffff escape) lie before `end` and the version is 2, 3 or 4; the version error occurs exactly when the version can be read and is another value; the 64-bit format is chosen by the escape |
| CuHeader.ReadEncodedHeader | drgn/internal/dwarfindex.c:726-758 | every valid header, written in the 32-bit or 64-bit format, is read back unchanged wherever it lies |
| CuHeader.ReadCus | drgn/internal/dwarfindex.c:760-792 | the units read tile .debug_info from the start: each begins where the previous one ends (offset + 4 or 12 + unit_length) and the last ends at the end of the section |
| CuHeader.ReadCusExact | drgn/internal/dwarfindex.c:760-792 | the walk returns a list of units exactly when those units tile .debug_info from the cursor to its end and all carry the file's index |
| CuHeader.TilesValid | drgn/internal/dwarfindex.c:760-792 | every unit of such a tiling has a valid header and ends inside the section |
| CuHeader.Wrap64IsMod | drgn/internal/dwarfindex.c:789 | the wrap-around of the 64-bit pointer sum is reduction modulo 2^64 |
| CuHeader.ReadCusAsWritten | drgn/internal/dwarfindex.c:760-792 | the walk as written, stepping a 64-bit pointer that wraps around, records units that carry the file's index and start inside the section |
| CuHeader.AsWrittenAgrees | drgn/internal/dwarfindex.c:760-792 | wherever the checked walk succeeds, the walk as written returns the same units |
| CuHeader.StallDiverges | drgn/internal/dwarfindex.c:766-789 | a unit whose wrapped step brings the pointer back to its own start makes the loop as written run forever |
| CuHeader.OverlongUnitAccepted | drgn/internal/dwarfindex.c:783-789 | a unit whose length runs 93 bytes past .debug_info is accepted by the walk as written and rejected by the checked walk |
| CuHeader.WrapStalls | drgn/internal/dwarfindex.c:783-789 | a 64-bit unit with unit_length 2^64 − 12 wraps the pointer back onto itself: the loop as written never ends, and the checked walk rejects the unit |
| CuHeader.WrapStepsBack | drgn/internal/dwarfindex.c:783-789 | a 64-bit unit with unit_length 2^64 − 13 wraps the pointer to one byte before .debug_info, where the loop as written goes on reading; the checked walk rejects the unit |
| Abbrev.IndexedTag | drgn/internal/dwarfindex.c:842-851 | a tag is kept exactly when it is one of the nine tags the indexer knows (or 0); every other tag becomes 0 and fits the tag mask |
| Abbrev.CompileAttribute | drgn/internal/dwarfindex.c:866-1038 | no contract of its own; see Abbrev.KeptAttribute and Abbrev.FormCommand |
| Abbrev.KeptAttribute | drgn/internal/dwarfindex.c:866-980 | the attributes the indexer keeps (sibling, name, stmt_list, decl_file, declaration, specification) compile to special opcodes above the skip range; a sibling opcode is one of the five sibling forms |
| Abbrev.FormCommand | drgn/internal/dwarfindex.c:982-1038 | a form becomes a skip of the address size or 1, 2, 4 or 8 bytes, or a special opcode for blocks, LEB128 and strings; DW_FORM_indirect and unknown forms are rejected |
| Abbrev.AppendSkip | drgn/internal/dwarfindex.c:1041-1053 | appending a skip adds at most one command and leaves every command but the last as it was; on an empty list it is the skip itself (what the commands mean: Abbrev.AppendSkipMeaning) |
| Abbrev.AppendSkipMeaning | drgn/internal/dwarfindex.c:1041-1053 | merging a skip of 1..229 bytes into the command list, with the carry into a new command past 229, skips exactly as many more bytes |
| Abbrev.Apply | drgn/internal/dwarfindex.c:1041-1055 | appending one compiled attribute adds at most one command (which actions: Abbrev.ApplyMeaning) |
| Abbrev.ApplyMeaning | drgn/internal/dwarfindex.c:1041-1055 | appending one compiled attribute adds exactly that attribute's actions to what the command list means |
| Abbrev.ReadAttributes | drgn/internal/dwarfindex.c:857-1055 | a successful attribute list ends past where it began and inside the section (when it succeeds: Abbrev.ReadAttributesOutcome; what it means: Abbrev.ReadAttributesMeaning) |
| Abbrev.ReadAttributesOutcome | drgn/internal/dwarfindex.c:857-1055 | compiling an attribute list succeeds exactly when the (name, form) pairs up to (0, 0) can be read and every form is supported |
| Abbrev.ReadAttributesMeaning | drgn/internal/dwarfindex.c:857-1055 | the compiled commands mean precisely the actions of the declared attributes, in order; the declaration flag is set exactly when DW_AT_declaration occurs |
| Abbrev.TagByteMask | drgn/internal/dwarfindex.c:1058 | the `tag \| flags` byte gives the tag back in its low six bits and the declaration and children flags in its high two bits |
| Abbrev.ReadAbbrevDecl | drgn/internal/dwarfindex.c:809-1062 | a code read as 0 ends the table, and only such a code does; a code that is not the next one in sequence is rejected as not sequential; a new declaration records where its commands start and only appends commands |
| Abbrev.ReadAbbrevDeclOutcome | drgn/internal/dwarfindex.c:809-1062 | compiling a declaration succeeds exactly when its plain reading (code, tag, children byte, and (name, form) pairs up to (0, 0)) succeeds and, for a nonzero code, the code is next in sequence and every form is supported; both readings stop at the same byte |
| Abbrev.ReadAbbrevDeclCompiles | drgn/internal/dwarfindex.c:1041-1062 | a new declaration's commands, up to their terminator, mean the actions of its attributes in order, and the byte after the terminator is its indexed tag with the DW_AT_declaration and children flags |
| Abbrev.ReadAbbrevDeclKeepsTable | drgn/internal/dwarfindex.c:1041-1062 | a declaration leaves every earlier declaration intact and ends in a 0 terminator followed by a tag the indexer knows |
| Abbrev.ReadAbbrevDecls | drgn/internal/dwarfindex.c:1064-1080 | no contract of its own; see Abbrev.ReadAbbrevDeclsOk and Abbrev.ReadAbbrevDeclsMeaning |
| Abbrev.ReadAbbrevTable | drgn/internal/dwarfindex.c:1064-1080 | no contract of its own; see Abbrev.ReadAbbrevTableOk and Abbrev.ReadAbbrevTableMeaning |
| Abbrev.ReadAbbrevDeclsOk | drgn/internal/dwarfindex.c:1064-1080 | the loop over declarations keeps every declaration terminated and well formed |
| Abbrev.ReadAbbrevTableOk | drgn/internal/dwarfindex.c:1064-1080 | every declaration of a compiled table is terminated; with an address size of at least 1 no command before the terminator is 0 |
| Abbrev.ReadAbbrevDeclsMeaning | drgn/internal/dwarfindex.c:1064-1080 | from any partly compiled table, the loop succeeds exactly when the remaining declarations read plainly with the next codes in sequence and supported forms, and each new declaration means the one read |
| Abbrev.ReadAbbrevTableMeaning | drgn/internal/dwarfindex.c:1064-1080 | a table compiles exactly when its plain reading succeeds with codes 1, 2, 3, ... and supported forms; then declaration i's commands mean the attributes of the i-th declaration and its tag byte follows the terminator |
| Die.NoAttributes | drgn/internal/dwarfindex.c:1535-1537 | a DIE starts with no sibling, name, specification or file, and with flags 0 |
| Die.SkipBytes | drgn/internal/dwarfindex.c:1498-1505 | a skip succeeds exactly when that many bytes remain, and moves the cursor by exactly that many; otherwise EOFError |
| Die.Reference | drgn/internal/dwarfindex.c:1419-1424 | a reference is accepted exactly when it lies inside the unit, and designates the byte that many bytes past the unit's start |
| Die.StrpPastEnd | drgn/internal/dwarfindex.c:1434-1440 | the string offset check as written accepts offset 1 into the one-byte .debug_str, where no string starts |
| Die.StrpNameTerminated | drgn/internal/dwarfindex.c:1434-1440 | with the corrected check, every accepted offset into a NUL-terminated .debug_str finds a NUL before the section ends |
| Die.RunCmd | drgn/internal/dwarfindex.c:1372-1507 | each command moves the cursor forward, stays inside the unit, and leaves the flags alone |
| Die.RunSkipValues | drgn/internal/dwarfindex.c:1373-1399 | a skip of n bytes (the default case at lines 1497-1505), a LEB128 or inline string skip, and a block or exprloc whose 1-, 2-, 4-byte or ULEB128 length is read first, each succeed exactly when the bytes lie inside the unit, move the cursor past them and change no attribute; otherwise the reader's error |
| Die.RunNameString | drgn/internal/dwarfindex.c:1393-1399 | an inline name points at the string under the cursor and the cursor moves past its NUL; nothing else changes |
| Die.RunSiblingValues | drgn/internal/dwarfindex.c:1400-1426 | a DW_AT_sibling of any width reads its operand, fails with EOFError unless the offset lies inside the unit, and otherwise sets the sibling to the unit's start plus that offset and nothing else |
| Die.RunSpecificationValues | drgn/internal/dwarfindex.c:1470-1496 | a DW_AT_specification of any width reads its operand, fails with EOFError unless the offset lies inside the unit, and otherwise sets the specification to the unit's start plus that offset and nothing else |
| Die.RunConstantValues | drgn/internal/dwarfindex.c:1442-1469 | DW_AT_stmt_list stores its 4- or 8-byte value and DW_AT_decl_file its 1-, 2-, 4-, 8-byte or ULEB128 value, with the cursor past the operand and nothing else changed |
| Die.RunCmds | drgn/internal/dwarfindex.c:1366-1509 | running a declaration's commands never moves the cursor back or past the unit (what it reads: Die.RunCmdsActions) |
| Die.RunCmdsActions | drgn/internal/dwarfindex.c:1366-1509 | running a declaration's commands up to the terminator is running the actions they stand for in order (a skip count as that many skipped bytes), then taking the byte after the terminator as the flags; an error stops the run |
| Die.ReadDieMeaning | drgn/internal/dwarfindex.c:1345-1512 | in a table compiled from declarations ds, a DIE with code c is read by running the actions of the attributes of ds[c - 1] from the initial attributes, and its flags are the tag byte of ds[c - 1] |
| Die.RunStrp | drgn/internal/dwarfindex.c:1427-1441 | a DW_FORM_strp name command succeeds exactly when its 4- or 8-byte offset lies inside the unit and the unit's offset check accepts it; it then names the string at that offset and changes nothing else; otherwise EOFError |
| Die.StrpReadersDiffer | drgn/internal/dwarfindex.c:1427-1441 | with .debug_str = [0], a DIE naming offset 1 is read by the reader as written and rejected with EOFError by the corrected reader |
| Die.ReadDie | drgn/internal/dwarfindex.c:1345-1512 | an abbreviation code of 0 is a null entry and nothing else is; a code past the table is rejected as unknown; a DIE that is read ends inside the unit, past where it began |
| Die.ReadDiePlaced | drgn/internal/dwarfindex.c:1345-1512 | every sibling and specification a DIE holds lies inside its unit, an inline name lies inside the unit, and a .debug_str name has an offset the unit's check accepts |
| DieHash.NameHash | drgn/internal/dwarfindex.c:1285-1294 | the hash is a 32-bit value |
| DieHash.NameHashIsDjb | drgn/internal/dwarfindex.c:1285-1294 | wrapping at 32 bits after every byte loses nothing: the hash is the DJBX33A polynomial 5381·33^n + Σ c_k·33^(n-1-k) taken mod 2^32 |
| DieHash.Probe | drgn/internal/dwarfindex.c:1303-1333 | a probe fails only with MemoryError, when it comes back to the home slot (its three outcomes: DieHash.ProbeOutcome) |
| DieHash.AddDieHashEntry | drgn/internal/dwarfindex.c:1296-1334 | insertion fails only with MemoryError (when exactly: DieHash.AddDieHashEntryOk) |
| DieHash.ProbeOutcome | drgn/internal/dwarfindex.c:1303-1333 | a probe ends in one of three ways: it finds the key and leaves the table unchanged; it fills the first empty slot after slots that were all full and did not hold the key; or it fails after passing every slot |
| DieHash.AddDieHashEntryOk | drgn/internal/dwarfindex.c:1296-1334 | insertion fails (out of memory) exactly when every slot is full and none holds the key; otherwise the key is present afterwards and the chain and uniqueness invariants still hold |
| DieHash.AddDieHashEntryChanges | drgn/internal/dwarfindex.c:1310-1318 | insertion changes at most one slot: an empty one, which receives the new entry |
| DieHash.AddDieHashEntryIdempotent | drgn/internal/dwarfindex.c:1324-1327 | adding the same (name, tag, file hash) again leaves the table unchanged |
| DieHash.FindFrom | drgn/internal/dwarfindex.c:1966-1996 | the probe loop of the lookup yields at most one entry per slot it has left to visit (which entries: DieHash.FindExact) |
| DieHash.Find | drgn/internal/dwarfindex.c:1952-2002 | a lookup that finds nothing raises "DIE not found"; a successful one returns at least one entry |
| DieHash.FindExact | drgn/internal/dwarfindex.c:1966-1996 | on a table that keeps the chain invariant, an entry is returned exactly when it is in the table, its name matches, and its tag is the requested one (any tag for 0) |
| LineProgram.HashDirectory | drgn/internal/dwarfindex.c:1126-1193 | no contract of its own; see LineProgram.HashDirectoryIsCanonical and LineProgram.WalkIsWalkComponents |
| LineProgram.HashDirectoryIsCanonical | drgn/internal/dwarfindex.c:1121-1193 | hash_directory feeds the hash the reversed canonical path: kept components innermost first, each followed by "/"; "." dropped; each ".." cancels the nearest real component; an absolute path gets one more "/"; a relative path gets "../" for each leftover ".." |
| LineProgram.WalkTurn | drgn/internal/dwarfindex.c:1135-1193 | a turn of the hash_directory loop that goes on leaves strictly fewer bytes to walk |
| LineProgram.Walk | drgn/internal/dwarfindex.c:1135-1193 | no contract of its own; see LineProgram.WalkIsWalkComponents |
| LineProgram.WalkIsWalkComponents | drgn/internal/dwarfindex.c:1135-1193 | the byte-by-byte loop of hash_directory processes exactly the path's slash-separated components, right to left |
| LineProgram.HashDirectoryRelativeExample | drgn/internal/dwarfindex.c:1121-1125 | "a/b/c" is fed as "c/b/a/" |
| LineProgram.HashDirectoryAbsoluteExample | drgn/internal/dwarfindex.c:1121-1125 | "/a/b" is fed as "b/a//" |
| LineProgram.SkipLnpHeader | drgn/internal/dwarfindex.c:1082-1119 | skipping the line program header fails only with EOFError or an unknown DWARF version |
| LineProgram.SkipEncodedLnpHeader | drgn/internal/dwarfindex.c:1082-1119 | for any valid written header, 32-bit or 64-bit, version 2 to 4, the skip lands exactly on the byte after standard_opcode_lengths |
| LineProgram.ReadDirectories | drgn/internal/dwarfindex.c:1211-1234 | reading include_directories fails only with EOFError |
| LineProgram.ReadFiles | drgn/internal/dwarfindex.c:1236-1280 | reading file_names fails only with EOFError, OverflowError or an invalid directory index |
| LineProgram.ReadTables | drgn/internal/dwarfindex.c:1211-1280 | reading include_directories and then file_names fails only with EOFError, OverflowError or "directory index is invalid" |
| LineProgram.ReadFileNameTable | drgn/internal/dwarfindex.c:1195-1283 | building the file name table fails only with those errors or an unknown DWARF version |
| LineProgram.ReadEncodedFiles | drgn/internal/dwarfindex.c:1236-1280 | written file entries are read back as their keys; the first entry whose directory index exceeds the directory count is rejected as invalid |
| LineProgram.ReadEncodedFileNameTable | drgn/internal/dwarfindex.c:1195-1283 | after the header, written directory and file tables give each file's key: the directory's canonical hash followed by the file name, or the file name alone for index 0 |
| LineProgram.ReadWrittenFileNameTable | drgn/internal/dwarfindex.c:1195-1283 | a whole written line program header and tables give the same keys wherever they lie |
| IndexCu.CheckDebugStr | drgn/internal/dwarfindex.c:1820-1829 | the only error is ".debug_str is not null terminated"; on success every offset inside the section finds a NUL before its end |
| IndexCu.Complete | drgn/internal/dwarfindex.c:1576-1588 | a DIE keeps its own name and file when it has them; only a DIE with DW_AT_specification that lacks one of them changes; its sibling and flags never change |
| IndexCu.FileNameHash | drgn/internal/dwarfindex.c:1591-1600 | the only error is an invalid DW_AT_decl_file |
| IndexCu.DeclFileChecked | drgn/internal/dwarfindex.c:1590-1596 | a named DIE is rejected for its DW_AT_decl_file exactly when the file index exceeds the number of files in the table |
| IndexCu.NameResolves | drgn/internal/dwarfindex.c:1434-1440 | under the corrected offset check, the name of a DIE read from a unit whose .debug_str passed the NUL check is a NUL-terminated string inside its section, so hashing and comparing it stay inside the section |
| IndexCu.AddNamed | drgn/internal/dwarfindex.c:1590-1604 | adding a DIE fails only with "invalid DW_AT_decl_file" or MemoryError (where entries go: IndexCu.AddNamedPlaces) |
| IndexCu.Insert | drgn/internal/dwarfindex.c:1576-1604 | completing and adding a DIE changes only the table of the walk state (what it adds: IndexCu.InsertPlaces) |
| IndexCu.IndexEntry | drgn/internal/dwarfindex.c:1555-1606 | handling a DIE with attributes never moves the cursor or changes the depth (what it adds: IndexCu.IndexEntryPlaces) |
| IndexCu.IndexEntryPlaces | drgn/internal/dwarfindex.c:1555-1606 | only a DIE with a known tag that is not a declaration, at depth 1 or an enumerator of the current enumeration, can add entries; the entries belong to this unit and are recorded at the DIE itself, or at its enumeration type for an enumerator; conversely, such a DIE with a name has its entry in the table afterwards; the table invariants hold |
| IndexCu.Visit | drgn/internal/dwarfindex.c:1608-1616 | after a DIE with children the cursor moves to its sibling if it names one; otherwise it stays past the DIE; it never leaves the unit |
| IndexCu.Ascend | drgn/internal/dwarfindex.c:1546-1553 | a null entry only moves the depth and never touches the table |
| IndexCu.IndexStep | drgn/internal/dwarfindex.c:1534-1617 | a turn that keeps the loop going began inside the unit and leaves the cursor inside it (what it keeps: IndexCu.IndexStepKeeps) |
| IndexCu.WalkDies | drgn/internal/dwarfindex.c:1534-1617 | no contract of its own; see IndexCu.WalkDiesKeeps and IndexCu.WalkAsWrittenAgrees |
| IndexCu.WalkDiesAsWritten | drgn/internal/dwarfindex.c:1534-1617 | no contract of its own; see IndexCu.WalkAsWrittenAgrees, IndexCu.FixedPointDiverges and IndexCu.SiblingLoopExample |
| IndexCu.IndexCu | drgn/internal/dwarfindex.c:1514-1625 | no contract of its own; see IndexCu.IndexCuKeeps |
| IndexCu.IndexCuAsWritten | drgn/internal/dwarfindex.c:1514-1625 | no contract of its own; see IndexCu.IndexCuAsWrittenAgrees |
| IndexCu.IndexCus | drgn/internal/dwarfindex.c:1719-1759 | no contract of its own; see IndexCu.IndexCusKeeps |
| IndexCu.IndexStepKeeps | drgn/internal/dwarfindex.c:1534-1617 | one turn of the loop keeps the table invariants and adds only entries of this unit |
| IndexCu.WalkDiesKeeps | drgn/internal/dwarfindex.c:1534-1617 | the whole walk over a unit keeps the invariants and adds only entries of this unit |
| IndexCu.IndexCuKeeps | drgn/internal/dwarfindex.c:1514-1625 | indexing a unit keeps the invariants of the table and adds only entries recorded for that unit |
| IndexCu.IndexCusKeeps | drgn/internal/dwarfindex.c:1719-1759 | indexing units numbered from `first` keeps the invariants and adds only entries of those units |
| IndexCu.WalkAsWrittenAgrees | drgn/internal/dwarfindex.c:1534-1617 | unless the checked walk rejects a sibling that does not move forward, the loop as written ends exactly as the checked one does |
| IndexCu.IndexCuAsWrittenAgrees | drgn/internal/dwarfindex.c:1514-1625 | index_cu as written, given fuel for every byte of the unit, ends as the checked walk with the same string offset check does unless a DW_AT_sibling fails to move forward; an abbreviation table that does not compile fails index_cu as written and the corrected one with the same error |
| IndexCu.FixedPointDiverges | drgn/internal/dwarfindex.c:1608-1613 | a turn that comes back to its own state makes the loop as written run forever |
| IndexCu.SiblingLoopExample | drgn/internal/dwarfindex.c:1608-1613 | a DIE whose DW_AT_sibling is itself makes the loop as written never finish; the checked walk rejects it |
| Elf.ValidateEhdr | drgn/internal/dwarfindex.c:498-553 | an accepted header has the ELF64 little-endian current-version identification, at least one section, and a section header table that lies inside the file |
| Elf.ValidateEhdrExact | drgn/internal/dwarfindex.c:498-553 | the header is accepted exactly when the identification is right, e_shnum is nonzero, and e_shoff + 64·e_shnum does not pass the end of the file |
| Elf.ValidateShdr | drgn/internal/dwarfindex.c:555-563 | an accepted section lies inside the file; the only error is "ELF section is beyond EOF" |
| Elf.ValidateShdrExact | drgn/internal/dwarfindex.c:555-563 | a section is accepted exactly when sh_offset + sh_size does not pass the end of the file |
| Elf.ShstrtabIndex | drgn/internal/dwarfindex.c:581-588 | the string table index is e_shstrndx, or sh_link of section 0 truncated to 16 bits under SHN_XINDEX, and must lie in [1, e_shnum) |
| Elf.SlotOf | drgn/internal/dwarfindex.c:600-625 | a section goes into the .symtab slot exactly when it has type SHT_SYMTAB |
| Elf.SlotOfDebug | drgn/internal/dwarfindex.c:600-620 | a section goes into debug slot k exactly when it is SHT_PROGBITS with a nonzero name offset and its name in the string table is that debug section's name |
| Elf.LastOf | drgn/internal/dwarfindex.c:628-630 | the section kept for a slot is the last one that maps to it |
| Elf.Scan | drgn/internal/dwarfindex.c:595-631 | the first scan fails only with "ELF section is beyond EOF" and otherwise fills one slot per debug section plus .symtab (which sections: Elf.ScanOk, Elf.ScanResult) |
| Elf.ScanOk | drgn/internal/dwarfindex.c:595-631 | the first scan succeeds exactly when every section that maps to a slot lies inside the file |
| Elf.ScanResult | drgn/internal/dwarfindex.c:595-631 | after the scan every slot holds the last section that maps to it, inside the file |
| Elf.ScanRela | drgn/internal/dwarfindex.c:640-664 | the relocation scan yields one relocation slot per debug section (when it succeeds and what it holds: Elf.ScanRelaMeaning) |
| Elf.ScanRelaMeaning | drgn/internal/dwarfindex.c:640-664 | the relocation scan succeeds exactly when every SHT_RELA section that targets a debug section links to .symtab and lies inside the file; each debug slot receives the last such section |
| Elf.SelectSections | drgn/internal/dwarfindex.c:595-665 | a selected layout has one debug section and one relocation slot per debug section (Elf.SelectSectionsSkips, Elf.SelectSectionsFound and Elf.SelectSectionsInFile give the rest) |
| Elf.SelectSectionsSkips | drgn/internal/dwarfindex.c:633-638 | a file is skipped (no error, no layout) exactly when the scan succeeds and one of the four debug sections or .symtab is missing |
| Elf.SelectSectionsFound | drgn/internal/dwarfindex.c:595-638 | a selected layout holds, for .symtab and each debug section, the last matching section, lying inside the file |
| Elf.WithRelocations | drgn/internal/dwarfindex.c:640-665 | once every slot is filled the layout is found, keeping the .symtab and debug sections of the first scan, with one relocation slot per debug section |
| Elf.WithRelocationsMeaning | drgn/internal/dwarfindex.c:640-665 | every relocation section of the layout is an SHT_RELA section whose sh_info is its debug section and whose sh_link is .symtab, inside the file |
| Elf.ReadSections | drgn/internal/dwarfindex.c:565-666 | a layout that is read lies wholly inside the file |
| Elf.SelectSectionsInFile | drgn/internal/dwarfindex.c:595-665 | every section of a selected layout lies inside the file |
| Elf.Store | drgn/internal/dwarfindex.c:701-715 | writing a value truncates it to the width and changes only those bytes |
| Elf.ApplyRela | drgn/internal/dwarfindex.c:668-724 | applying a relocation keeps the section's size (when it succeeds: Elf.ApplyRelaOk; what it writes: Elf.ApplyRelaWrites) |
| Elf.ApplyRelaOk | drgn/internal/dwarfindex.c:668-724 | a relocation succeeds exactly when its type is NONE, or it is R_X86_64_32 or R_X86_64_64 with a symbol index below the symbol count and offset plus width inside the section; any other type is not implemented; NONE changes nothing |
| Elf.ApplyRelaWrites | drgn/internal/dwarfindex.c:700-721 | an R_X86_64_32 or R_X86_64_64 relocation writes st_value + r_addend, truncated to 4 or 8 bytes, at r_offset, and changes no other byte |
| Elf.ApplyRelocations | drgn/internal/dwarfindex.c:1656-1702 | applying a section's relocations in order keeps its size (when it succeeds: Elf.ApplyRelocationsOk) |
| Elf.ApplyRelocationsOk | drgn/internal/dwarfindex.c:1627-1717 | applying a section's relocations in order succeeds exactly when every one of them is valid |
| Elf.Relocated | drgn/internal/dwarfindex.c:1636-1702 | a relocated debug section keeps the size of the section it came from (when it succeeds: Elf.RelocatedOk) |
| Elf.RelocatedOk | drgn/internal/dwarfindex.c:1636-1702 | relocating a debug section succeeds exactly when every whole Elf64_Rela entry of its relocation section is valid |
| DwarfIndex.ReadAll | drgn/internal/dwarfindex.c:1774-1808 | the files kept are at most those given, each with a layout inside it |
| DwarfIndex.ReadAllMeaning | drgn/internal/dwarfindex.c:1774-1808 | reading all files succeeds exactly when read_sections succeeds on each; the files kept are exactly those with all sections present, in order |
| DwarfIndex.RelocateFile | drgn/internal/dwarfindex.c:1816-1818 | a file's sections are relocated exactly when all four debug sections relocate, and each keeps its size |
| DwarfIndex.RelocateAll | drgn/internal/dwarfindex.c:1627-1717 | a successful relocation gives one set of sections per file (when: DwarfIndex.RelocateAllOk) |
| DwarfIndex.RelocateAllOk | drgn/internal/dwarfindex.c:1816-1818 | relocating all files succeeds exactly when each one relocates |
| DwarfIndex.RelocateAllSized | drgn/internal/dwarfindex.c:1816-1818 | every relocated section keeps the size of the section it came from |
| DwarfIndex.FileUnits | drgn/internal/dwarfindex.c:1820-1832 | a .debug_str that is empty or does not end in NUL is rejected before any unit of its file is read; the units read are indexable and belong to that file |
| DwarfIndex.ReadAllCus | drgn/internal/dwarfindex.c:1820-1833 | on success every new file's .debug_str ends in NUL and every unit is indexable and belongs to a new file |
| DwarfIndex.Empty | drgn/internal/dwarfindex.c:87-89 | the empty index meets the index invariants |
| DwarfIndex.Add | drgn/internal/dwarfindex.c:1761-1843 | a successful add keeps the earlier files and units as a prefix of the new ones (the invariants: DwarfIndex.AddKeeps) |
| DwarfIndex.AddSkipped | drgn/internal/dwarfindex.c:1810-1814 | when every file lacks some section, adding them leaves the index unchanged |
| DwarfIndex.AddKeeps | drgn/internal/dwarfindex.c:1761-1843 | a successful add keeps the earlier files and units, keeps the index invariants, and adds only entries of the new units |

## Left out

- `open_file`, `mmap` and `DwarfIndex_dealloc`: a file is given as its bytes.
- The Python object layer is not modelled: argument parsing, `create_file_object`, `die_object_from_entry`, `cu_objs`, the `address_size` attribute, `DwarfIndex_files`, the `import_*` functions and module setup. `DwarfIndex_find` is modelled only for the entries it selects, in probe order.
- The OpenMP loops of `apply_relocations` and `index_cus` are run in order. The `__atomic_*` operations of `add_die_hash_entry` are a plain table update. When several relocations or units fail, the model reports the first failure; the parallel C reports one of them.
- SipHash is not computed. A file key is the exact bytes the indexer feeds the hash, so two keys are equal only when the same bytes were fed; hash collisions are not modelled.
- `resize_array` and `realloc` failures are not modelled. The only memory error is a full DIE hash table.
- The `read_uN_into_size_t` range checks cannot fail on a 64-bit host, so they are modelled as the plain reads.
- Cursor.ReadUnsigned: the C leaves the cursor untouched on failure. The model returns no cursor on failure, so the property holds by construction and is not stated.
- The merge properties of the abbreviation commands (Abbrev.AppendSkipMeaning, Abbrev.ReadAttributesMeaning, Abbrev.ReadAbbrevDeclCompiles, Abbrev.ReadAbbrevDeclsMeaning, Abbrev.ReadAbbrevTableMeaning) are stated for address sizes 1 to 229. With address size 0 or above 229 the C's byte code is ambiguous; the model computes the same bytes but claims nothing about their meaning.
- LineProgram.SkipLnpHeader: an `opcode_base` of 0 moves the cursor back one byte. This is modelled as written, but no round trip is stated for it.
- Sections that overlap in the file: the model relocates a copy of each debug section, whereas the C relocates in place.
- DwarfIndex.AddKeeps: the state left after a failed `index_cus` is not modelled. The C keeps the new files and units in that case, and the model returns only the error.
- Error messages are the C's without their numeric `%u` arguments, e.g. "unknown DWARF version" and "invalid DW_AT_decl_file".
- Elf.RelocatedOk: a trailing part of a relocation section shorter than one Elf64_Rela entry is ignored, as the C's division ignores it.
- DwarfIndex.ReadAllCus: there is no if-and-only-if for the whole unit walk. The failure side is stated per file by DwarfIndex.FileUnits.
- IndexCu.WalkDiesAsWritten: the loop of `index_cu` as written need not terminate (see Findings), so it takes a `fuel` bound, and running out of fuel is reported as `Unfinished`.
- CuHeader.ReadCusAsWritten: the address at which .debug_info is mapped is a parameter `base`. The loop takes a `fuel` bound and reports `CusUnfinished` when it runs out. A pointer that wraps to before the section ends the walk as `BeforeSection`; the model has no memory there to read.
- IndexCu.IndexCuAsWritten: takes a unit that ends inside .debug_info, as the corrected unit walk yields. The wrapped `end` of dwarfindex.c:1522 and the overlong units of Findings row 1 are not fed to it.
- Die.RunCmd: the string offset check is a parameter of the unit (`Unit.strp`). The indexing pipeline runs the corrected check of Findings row 3; only IndexCu.IndexCuAsWritten and Die.StrpReadersDiffer use the check as written.
- IndexCu.NameResolves: stated for the corrected offset check only. Under the check as written, an offset equal to the size of .debug_str names a string past the section (Die.StrpPastEnd).
- Names past the section: an offset at or past the end of its section gives the empty name, where the C reads the bytes that follow the section.
- DwarfIndex.FileUnits: reads units with the corrected walk CuHeader.ReadCus of Findings row 1, not the walk as written.
- DwarfIndex.ReadAllCus: reads units with the corrected walk of Findings row 1, not the walk as written.
- DwarfIndex.AddKeeps: the add pipeline is the corrected one of Findings rows 1-3: the checked unit walk, the DIE walk that rejects backward siblings, and the corrected string offset check.
- The unsigned `depth` counter of `index_cu` wraps at 2^32 as in the C.

## Findings

| source | as written | input that shows it | evidently intended | confidence | as-written member | corrected member |
|---|---|---|---|---|---|---|
| drgn/internal/dwarfindex.c:783-789 | `read_cus` steps by the unit length without checking that the unit ends inside .debug_info; `index_cu` then reads DIEs past the section, and a 64-bit unit length can wrap the pointer sum | a 11-byte .debug_info whose version-4 header claims a unit length of 100; a 23-byte 64-bit unit with unit length 2^64 − 12 (the pointer returns to the unit and the loop runs until the unit array can grow no more) or 2^64 − 13 (the pointer lands one byte before .debug_info) | a unit that extends past the end of .debug_info is rejected | not executed | CuHeader.ReadCusAsWritten, CuHeader.OverlongUnitAccepted, CuHeader.WrapStalls, CuHeader.WrapStepsBack | CuHeader.ReadCus, CuHeader.ReadCusExact |
| drgn/internal/dwarfindex.c:1608-1613 | `index_cu` jumps to any DW_AT_sibling, including one at or before the current DIE, so the loop need not end | a unit whose first DIE has children and a DW_AT_sibling equal to its own offset | a sibling that does not lie past the current DIE is rejected | not executed | IndexCu.WalkDiesAsWritten, IndexCu.SiblingLoopExample | IndexCu.WalkDies, IndexCu.WalkDiesKeeps |
| drgn/internal/dwarfindex.c:1434-1440 | the DW_FORM_strp check accepts an offset equal to the size of .debug_str, so the name lies one past the section and `strcmp` and `name_hash` read beyond it | .debug_str = [0] with a DW_FORM_strp offset of 1 | the offset must be below the section size | not executed | Die.StrpReadersDiffer, Die.StrpPastEnd | Die.StrpNameTerminated, IndexCu.NameResolves |

=== FILE: abbrev.dfy ===
/** The abbreviation compiler. Each abbreviation declaration of
    .debug_abbrev (section 7.5.3 of DWARF Version 4) is turned into a short
    byte-code that the DIE reader interprets:

    - a command of 1..229 skips that many bytes of attribute value;
    - a command of 230..255 is one of the ATTRIB_* opcodes, for values that
      have a variable size or that the indexer keeps;
    - a 0 command ends the list, and the byte after it holds the
      declaration's tag with the DECLARATION and CHILDREN flags.

    Adjacent fixed-size values are merged into one skip of at most 229. */
module Abbrev {
  import opened Base
  import opened Cursor

  const DW_TAG_class_type: nat := 0x2
  const DW_TAG_enumeration_type: nat := 0x4
  const DW_TAG_compile_unit: nat := 0x11
  const DW_TAG_structure_type: nat := 0x13
  const DW_TAG_typedef: nat := 0x16
  const DW_TAG_union_type: nat := 0x17
  const DW_TAG_base_type: nat := 0x24
  const DW_TAG_enumerator: nat := 0x28
  const DW_TAG_variable: nat := 0x34

  /** The tags the indexer cares about fit in the low six bits. */
  const TAG_MASK: nat := 63
  const TAG_FLAG_DECLARATION: nat := 0x40
  const TAG_FLAG_CHILDREN: nat := 0x80

  const DW_AT_sibling: nat := 0x1
  const DW_AT_name: nat := 0x3
  const DW_AT_stmt_list: nat := 0x10
  const DW_AT_decl_file: nat := 0x3a
  const DW_AT_declaration: nat := 0x3c
  const DW_AT_specification: nat := 0x47

  const DW_FORM_addr: nat := 0x1
  const DW_FORM_block2: nat := 0x3
  const DW_FORM_block4: nat := 0x4
  const DW_FORM_data2: nat := 0x5
  const DW_FORM_data4: nat := 0x6
  const DW_FORM_data8: nat := 0x7
  const DW_FORM_string: nat := 0x8
  const DW_FORM_block: nat := 0x9
  const DW_FORM_block1: nat := 0xa
  const DW_FORM_data1: nat := 0xb
  const DW_FORM_flag: nat := 0xc
  const DW_FORM_sdata: nat := 0xd
  const DW_FORM_strp: nat := 0xe
  const DW_FORM_udata: nat := 0xf
  const DW_FORM_ref_addr: nat := 0x10
  const DW_FORM_ref1: nat := 0x11
  const DW_FORM_ref2: nat := 0x12
  const DW_FORM_ref4: nat := 0x13
  const DW_FORM_ref8: nat := 0x14
  const DW_FORM_ref_udata: nat := 0x15
  const DW_FORM_indirect: nat := 0x16
  const DW_FORM_sec_offset: nat := 0x17
  const DW_FORM_exprloc: nat := 0x18
  const DW_FORM_flag_present: nat := 0x19
  const DW_FORM_ref_sig8: nat := 0x20

  const CMD_MAX_SKIP: byte := 229
  const ATTRIB_BLOCK1: byte := 230
  const ATTRIB_BLOCK2: byte := 231
  const ATTRIB_BLOCK4: byte := 232
  const ATTRIB_EXPRLOC: byte := 233
  const ATTRIB_LEB128: byte := 234
  const ATTRIB_STRING: byte := 235
  const ATTRIB_SIBLING_REF1: byte := 236
  const ATTRIB_SIBLING_REF2: byte := 237
  const ATTRIB_SIBLING_REF4: byte := 238
  const ATTRIB_SIBLING_REF8: byte := 239
  const ATTRIB_SIBLING_REF_UDATA: byte := 240
  const ATTRIB_NAME_STRP4: byte := 241
  const ATTRIB_NAME_STRP8: byte := 242
  const ATTRIB_NAME_STRING: byte := 243
  const ATTRIB_STMT_LIST_LINEPTR4: byte := 244
  const ATTRIB_STMT_LIST_LINEPTR8: byte := 245
  const ATTRIB_DECL_FILE_DATA1: byte := 246
  const ATTRIB_DECL_FILE_DATA2: byte := 247
  const ATTRIB_DECL_FILE_DATA4: byte := 248
  const ATTRIB_DECL_FILE_DATA8: byte := 249
  const ATTRIB_DECL_FILE_UDATA: byte := 250
  const ATTRIB_SPECIFICATION_REF1: byte := 251
  const ATTRIB_SPECIFICATION_REF2: byte := 252
  const ATTRIB_SPECIFICATION_REF4: byte := 253
  const ATTRIB_SPECIFICATION_REF8: byte := 254
  const ATTRIB_SPECIFICATION_REF_UDATA: byte := 255

  /** The compiled abbreviation table of one unit: the commands of
      declaration `code` start at cmds[decls[code - 1]]. */
  datatype AbbrevTable = AbbrevTable(decls: seq<nat>, cmds: seq<byte>)

  predicate KnownTag(tag: nat)
  {
    || tag == DW_TAG_base_type || tag == DW_TAG_class_type || tag == DW_TAG_compile_unit
    || tag == DW_TAG_enumeration_type || tag == DW_TAG_enumerator || tag == DW_TAG_structure_type
    || tag == DW_TAG_typedef || tag == DW_TAG_union_type || tag == DW_TAG_variable
  }

  /** The tag the indexer records: any tag it does not index becomes 0. */
  function IndexedTag(tag: nat): (t: nat)
    ensures t == tag <==> KnownTag(tag) || tag == 0
    ensures t != tag ==> t == 0
    ensures t <= TAG_MASK
  {
    if KnownTag(tag) then tag else 0
  }

  /** How one attribute specification compiles. */
  datatype Compiled =
    | Special(cmd: byte)        // an ATTRIB_* opcode, appended as it is
    | Skip(size: byte)          // a value of fixed size, merged into a preceding skip
    | NoValue                   // DW_FORM_flag_present occupies no bytes
    | Unsupported(error: Error)

  /** The opcode for an attribute the indexer keeps: DW_AT_sibling (except
      in an enumeration type, whose enumerators must be visited), and
      DW_AT_name, DW_AT_decl_file and DW_AT_specification of an indexed tag
      other than the unit's, and DW_AT_stmt_list of the unit. A form the
      indexer does not handle for such an attribute falls back to the
      form's plain treatment. */
  function KeptAttribute(name: nat, form: nat, tag: nat, is64: bool): (r: Option<byte>)
    ensures r.Some? ==> 236 <= r.value
    ensures r.Some? && name == DW_AT_sibling ==> 236 <= r.value <= 240
  {
    if name == DW_AT_sibling && tag != DW_TAG_enumeration_type then
      if form == DW_FORM_ref1 then Some(ATTRIB_SIBLING_REF1)
      else if form == DW_FORM_ref2 then Some(ATTRIB_SIBLING_REF2)
      else if form == DW_FORM_ref4 then Some(ATTRIB_SIBLING_REF4)
      else if form == DW_FORM_ref8 then Some(ATTRIB_SIBLING_REF8)
      else if form == DW_FORM_ref_udata then Some(ATTRIB_SIBLING_REF_UDATA)
      else None
    else if name == DW_AT_name && tag != 0 && tag != DW_TAG_compile_unit then
      if form == DW_FORM_strp then Some(if is64 then ATTRIB_NAME_STRP8 else ATTRIB_NAME_STRP4)
      else if form == DW_FORM_string then Some(ATTRIB_NAME_STRING)
      else None
    else if name == DW_AT_stmt_list && tag == DW_TAG_compile_unit then
      if form == DW_FORM_data4 then Some(ATTRIB_STMT_LIST_LINEPTR4)
      else if form == DW_FORM_data8 then Some(ATTRIB_STMT_LIST_LINEPTR8)
      else if form == DW_FORM_sec_offset then
        Some(if is64 then ATTRIB_STMT_LIST_LINEPTR8 else ATTRIB_STMT_LIST_LINEPTR4)
      else None
    else if name == DW_AT_decl_file && tag != 0 && tag != DW_TAG_compile_unit then
      if form == DW_FORM_data1 then Some(ATTRIB_DECL_FILE_DATA1)
      else if form == DW_FORM_data2 then Some(ATTRIB_DECL_FILE_DATA2)
      else if form == DW_FORM_data4 then Some(ATTRIB_DECL_FILE_DATA4)
      else if form == DW_FORM_data8 then Some(ATTRIB_DECL_FILE_DATA8)
      else if form == DW_FORM_sdata || form == DW_FORM_udata then Some(ATTRIB_DECL_FILE_UDATA)
      else None
    else if name == DW_AT_specification && tag != 0 && tag != DW_TAG_compile_unit then
      if form == DW_FORM_ref1 then Some(ATTRIB_SPECIFICATION_REF1)
      else if form == DW_FORM_ref2 then Some(ATTRIB_SPECIFICATION_REF2)
      else if form == DW_FORM_ref4 then Some(ATTRIB_SPECIFICATION_REF4)
      else if form == DW_FORM_ref8 then Some(ATTRIB_SPECIFICATION_REF8)
      else if form == DW_FORM_ref_udata then Some(ATTRIB_SPECIFICATION_REF_UDATA)
      else None
    else None
  }

  /** The plain treatment of a form (section 7.5.4 of DWARF Version 4):
      its size when fixed, else the opcode that finds its size. */
  function FormCommand(form: nat, is64: bool, addressSize: byte): (c: Compiled)
    ensures c.Skip? ==> c.size == addressSize || c.size in {1, 2, 4, 8}
    ensures c.Special? ==> 230 <= c.cmd <= 235
    ensures c.Unsupported? <==> form == 0 || form == 0x2 || form == DW_FORM_block || DW_FORM_indirect == form
                                || 0x1a <= form <= 0x1f || form > DW_FORM_ref_sig8
  {
    if form == DW_FORM_addr then Skip(addressSize)
    else if form == DW_FORM_data1 || form == DW_FORM_ref1 || form == DW_FORM_flag then Skip(1)
    else if form == DW_FORM_data2 || form == DW_FORM_ref2 then Skip(2)
    else if form == DW_FORM_data4 || form == DW_FORM_ref4 then Skip(4)
    else if form == DW_FORM_data8 || form == DW_FORM_ref8 || form == DW_FORM_ref_sig8 then Skip(8)
    else if form == DW_FORM_block1 then Special(ATTRIB_BLOCK1)
    else if form == DW_FORM_block2 then Special(ATTRIB_BLOCK2)
    else if form == DW_FORM_block4 then Special(ATTRIB_BLOCK4)
    else if form == DW_FORM_exprloc then Special(ATTRIB_EXPRLOC)
    else if form == DW_FORM_sdata || form == DW_FORM_udata || form == DW_FORM_ref_udata then Special(ATTRIB_LEB128)
    else if form == DW_FORM_ref_addr || form == DW_FORM_sec_offset || form == DW_FORM_strp then Skip(if is64 then 8 else 4)
    else if form == DW_FORM_string then Special(ATTRIB_STRING)
    else if form == DW_FORM_flag_present then NoValue
    else if form == DW_FORM_indirect then Unsupported(NotImplemented("DW_FORM_indirect is not implemented"))
    else Unsupported(FormatError("unknown attribute form"))
  }

  function CompileAttribute(name: nat, form: nat, tag: nat, is64: bool, addressSize: byte): Compiled
  {
    match KeptAttribute(name, form, tag, is64)
    case Some(cmd) => Special(cmd)
    case None => FormCommand(form, is64, addressSize)
  }

  /** Appends a skip of `size` bytes to the commands of a declaration. A
      preceding skip below 229 absorbs it; what does not fit is carried
      into a new skip after a full 229. */
  function AppendSkip(body: seq<byte>, size: byte): (r: seq<byte>)
    ensures |body| <= |r| <= |body| + 1
    ensures body != [] ==> r[..|body| - 1] == body[..|body| - 1]
    ensures body == [] ==> r == [size]
  {
    if body != [] && body[|body| - 1] < CMD_MAX_SKIP then
      var last := body[|body| - 1];
      if last + size <= CMD_MAX_SKIP then body[..|body| - 1] + [last + size]
      else body[..|body| - 1] + [CMD_MAX_SKIP, last + size - CMD_MAX_SKIP]
    else body + [size]
  }

  /** What a command list does to the DIE reader's cursor, one step per
      byte skipped or opcode run. */
  datatype Action = SkipByte | Run(cmd: byte)

  function Skips(n: nat): (r: seq<Action>)
    ensures |r| == n
  {
    seq(n, _ => SkipByte)
  }

  function ExpandCmd(c: byte): seq<Action>
  {
    if c <= CMD_MAX_SKIP then Skips(c) else [Run(c)]
  }

  /** The meaning of a command list without its terminator. */
  function Expand(cmds: seq<byte>): seq<Action>
  {
    if cmds == [] then [] else ExpandCmd(cmds[0]) + Expand(cmds[1..])
  }

  lemma {:induction false} ExpandAppend(a: seq<byte>, b: seq<byte>)
    ensures Expand(a + b) == Expand(a) + Expand(b)
  {
    if a == [] {
      assert a + b == b;
    } else {
      assert (a + b)[0] == a[0];
      assert (a + b)[1..] == a[1..] + b;
      assert Expand(a + b) == ExpandCmd(a[0]) + Expand(a[1..] + b);
      ExpandAppend(a[1..], b);
      assert Expand(a) == ExpandCmd(a[0]) + Expand(a[1..]);
    }
  }

  lemma SkipsAdd(m: nat, n: nat)
    ensures Skips(m + n) == Skips(m) + Skips(n)
  {
    assert forall i :: 0 <= i < m + n ==> Skips(m + n)[i] == (Skips(m) + Skips(n))[i];
  }

  /** A single skip command of 1..229 means that many skipped bytes. */
  lemma ExpandSkip(c: byte)
    requires c <= CMD_MAX_SKIP
    ensures Expand([c]) == Skips(c)
  {
    assert [c][1..] == [];
  }

  /** Replacing the last skip `last` of a list by skips of `parts` bytes
      keeps the meaning as long as the byte counts agree. */
  lemma ReplaceLast(init: seq<byte>, last: byte, parts: seq<byte>, size: nat)
    requires last <= CMD_MAX_SKIP
    requires Expand(parts) == Skips(last + size)
    ensures Expand(init + parts) == Expand(init + [last]) + Skips(size)
  {
    ExpandAppend(init, parts);
    ExpandAppend(init, [last]);
    ExpandSkip(last);
    SkipsAdd(last, size);
  }

  /** Two skips whose sum exceeds 229 carry the excess into a second skip. */
  lemma SplitSkip(last: byte, size: byte)
    requires last < CMD_MAX_SKIP && 1 <= size <= CMD_MAX_SKIP && last + size > CMD_MAX_SKIP
    ensures Expand([CMD_MAX_SKIP, last + size - CMD_MAX_SKIP]) == Skips(last + size)
  {
    var rest: byte := last + size - CMD_MAX_SKIP;
    assert [CMD_MAX_SKIP, rest] == [CMD_MAX_SKIP] + [rest];
    ExpandAppend([CMD_MAX_SKIP], [rest]);
    ExpandSkip(CMD_MAX_SKIP);
    ExpandSkip(rest);
    SkipsAdd(CMD_MAX_SKIP, rest);
  }

  /** No command of the list is the terminator. */
  predicate NonZero(cmds: seq<byte>)
  {
    forall i :: 0 <= i < |cmds| ==> cmds[i] != 0
  }

  /** Merging a skip of 1..229 bytes into a command list means exactly one
      more skip of that many bytes: no byte count is lost or gained, and no
      merged skip exceeds 229 and so none is mistaken for an opcode. */
  lemma AppendSkipMeaning(body: seq<byte>, size: byte)
    requires 1 <= size <= CMD_MAX_SKIP
    ensures Expand(AppendSkip(body, size)) == Expand(body) + Skips(size)
  {
    if body != [] && body[|body| - 1] < CMD_MAX_SKIP {
      var init := body[..|body| - 1];
      var last := body[|body| - 1];
      assert body == init + [last];
      if last + size <= CMD_MAX_SKIP {
        assert AppendSkip(body, size) == init + [last + size];
        ExpandSkip(last + size);
        ReplaceLast(init, last, [last + size], size);
      } else {
        assert AppendSkip(body, size) == init + [CMD_MAX_SKIP, last + size - CMD_MAX_SKIP];
        SplitSkip(last, size);
        ReplaceLast(init, last, [CMD_MAX_SKIP, last + size - CMD_MAX_SKIP], size);
      }
    } else {
      assert AppendSkip(body, size) == body + [size];
      ExpandAppend(body, [size]);
      ExpandSkip(size);
    }
  }

  /** Merging a nonzero skip never writes a terminator. */
  lemma AppendSkipNonZero(body: seq<byte>, size: byte)
    requires 1 <= size && NonZero(body)
    ensures NonZero(AppendSkip(body, size))
  {
  }

  /** Adds one compiled attribute to the commands of a declaration. */
  function Apply(body: seq<byte>, c: Compiled): (r: seq<byte>)
    requires !c.Unsupported?
    ensures |body| <= |r| <= |body| + 1
  {
    match c
    case Special(cmd) => body + [cmd]
    case Skip(size) => AppendSkip(body, size)
    case NoValue => body
  }

  /** What the DIE reader must do for one compiled attribute. */
  function ActionOf(c: Compiled): seq<Action>
  {
    match c
    case Special(cmd) => [Run(cmd)]
    case Skip(size) => Skips(size)
    case _ => []
  }

  /** A compiled skip has the size of its form: the address size, or one
      to eight bytes; an opcode is above 229. */
  lemma CompiledSizes(name: nat, form: nat, tag: nat, is64: bool, addressSize: byte)
    ensures var c := CompileAttribute(name, form, tag, is64, addressSize);
            && (c.Skip? ==> c.size == addressSize || 1 <= c.size <= 8)
            && (c.Special? ==> c.cmd > CMD_MAX_SKIP)
  {
  }

  /** Adding an attribute adds exactly its actions to the meaning. */
  lemma ApplyMeaning(body: seq<byte>, c: Compiled)
    requires !c.Unsupported?
    requires c.Skip? ==> 1 <= c.size <= CMD_MAX_SKIP
    requires c.Special? ==> c.cmd > CMD_MAX_SKIP
    ensures Expand(Apply(body, c)) == Expand(body) + ActionOf(c)
  {
    match c
    case Special(cmd) =>
      ExpandAppend(body, [cmd]);
      assert [cmd][1..] == [];
    case Skip(size) =>
      AppendSkipMeaning(body, size);
    case NoValue =>
  }

  /** The result of the attribute loop of one declaration: its commands
      before the terminator, whether it had DW_AT_declaration, and the
      cursor after the (0, 0) pair. */
  datatype Attributes = Attributes(body: seq<byte>, declaration: bool, next: nat)

  /** Reads (name, form) pairs up to the (0, 0) pair and compiles each one
      onto `body`. */
  function ReadAttributes(data: seq<byte>, ptr: nat, end: nat, tag: nat, is64: bool, addressSize: byte,
                          body: seq<byte>, declaration: bool): (r: Result<Attributes>)
    requires end <= |data|
    ensures r.Ok? ==> ptr < r.value.next <= end
    decreases end - ptr
  {
    var name :- ReadUleb128(data, ptr, end);
    var form :- ReadUleb128(data, name.next, end);
    if name.value == 0 && form.value == 0 then Ok(Attributes(body, declaration, form.next))
    else
      var c := CompileAttribute(name.value, form.value, tag, is64, addressSize);
      if c.Unsupported? then Err(c.error)
      else
        ReadAttributes(data, form.next, end, tag, is64, addressSize, Apply(body, c),
                       declaration || name.value == DW_AT_declaration)
  }

  /** One attribute specification as declared in .debug_abbrev. */
  datatype AttrSpec = AttrSpec(name: nat, form: nat)

  datatype Specs = Specs(specs: seq<AttrSpec>, next: nat)

  /** The plain reading of an attribute list: the (name, form) pairs before
      the (0, 0) pair, and the cursor after it. */
  function ReadSpecs(data: seq<byte>, ptr: nat, end: nat): (r: Result<Specs>)
    requires end <= |data|
    ensures r.Ok? ==> ptr < r.value.next <= end
    decreases end - ptr
  {
    var name :- ReadUleb128(data, ptr, end);
    var form :- ReadUleb128(data, name.next, end);
    if name.value == 0 && form.value == 0 then Ok(Specs([], form.next))
    else
      var rest :- ReadSpecs(data, form.next, end);
      Ok(Specs([AttrSpec(name.value, form.value)] + rest.specs, rest.next))
  }

  /** What the DIE reader must do for each attribute, spec by spec. */
  function Actions(specs: seq<AttrSpec>, tag: nat, is64: bool, addressSize: byte): seq<Action>
  {
    if specs == [] then []
    else ActionOf(CompileAttribute(specs[0].name, specs[0].form, tag, is64, addressSize))
         + Actions(specs[1..], tag, is64, addressSize)
  }

  predicate AllSupported(specs: seq<AttrSpec>, tag: nat, is64: bool, addressSize: byte)
  {
    specs == [] ||
    (!CompileAttribute(specs[0].name, specs[0].form, tag, is64, addressSize).Unsupported?
     && AllSupported(specs[1..], tag, is64, addressSize))
  }

  predicate HasDeclaration(specs: seq<AttrSpec>)
  {
    specs != [] && (specs[0].name == DW_AT_declaration || HasDeclaration(specs[1..]))
  }

  /** The compiled attribute list fails exactly when the plain reading fails
      or some attribute has a form the indexer does not support. */
  lemma {:induction false} ReadAttributesOutcome(data: seq<byte>, ptr: nat, end: nat, tag: nat, is64: bool,
                                                addressSize: byte, body: seq<byte>, declaration: bool)
    requires end <= |data|
    ensures var r := ReadAttributes(data, ptr, end, tag, is64, addressSize, body, declaration);
            var s := ReadSpecs(data, ptr, end);
            && (r.Ok? <==> s.Ok? && AllSupported(s.value.specs, tag, is64, addressSize))
            && (r.Ok? ==> r.value.next == s.value.next)
    decreases end - ptr
  {
    var r := ReadAttributes(data, ptr, end, tag, is64, addressSize, body, declaration);
    var s := ReadSpecs(data, ptr, end);
    var name := ReadUleb128(data, ptr, end);
    if name.Err? {
      assert r.Err? && s.Err?;
      return;
    }
    var form := ReadUleb128(data, name.value.next, end);
    if form.Err? {
      assert r.Err? && s.Err?;
      return;
    }
    var next := form.value.next;
    if name.value.value == 0 && form.value.value == 0 {
      assert r.Ok? && s == Ok(Specs([], next));
      return;
    }
    var spec := AttrSpec(name.value.value, form.value.value);
    var rest := ReadSpecs(data, next, end);
    var c := CompileAttribute(spec.name, spec.form, tag, is64, addressSize);
    assert s == (if rest.Ok? then Ok(Specs([spec] + rest.value.specs, rest.value.next)) else Err(rest.error));
    if rest.Ok? {
      var specs := [spec] + rest.value.specs;
      assert specs[0] == spec && specs[1..] == rest.value.specs;
    }
    if c.Unsupported? {
      assert r == Err(c.error);
    } else {
      var declaration' := declaration || spec.name == DW_AT_declaration;
      assert r == ReadAttributes(data, next, end, tag, is64, addressSize, Apply(body, c), declaration');
      ReadAttributesOutcome(data, next, end, tag, is64, addressSize, Apply(body, c), declaration');
    }
  }

  /** A compiled attribute list means precisely the actions of the declared
      attributes in order: no skipped byte is lost or gained by merging.
      Its cursor stops where the plain reading stops, and it flags a
      declaration exactly when some attribute is DW_AT_declaration. */
  lemma {:induction false} ReadAttributesMeaning(data: seq<byte>, ptr: nat, end: nat, tag: nat, is64: bool,
                                                addressSize: byte, body: seq<byte>, declaration: bool)
    requires end <= |data|
    requires 1 <= addressSize <= CMD_MAX_SKIP
    ensures var r := ReadAttributes(data, ptr, end, tag, is64, addressSize, body, declaration);
            var s := ReadSpecs(data, ptr, end);
            r.Ok? ==>
              && s.Ok?
              && Expand(r.value.body) == Expand(body) + Actions(s.value.specs, tag, is64, addressSize)
              && r.value.next == s.value.next
              && (r.value.declaration <==> declaration || HasDeclaration(s.value.specs))
    decreases end - ptr
  {
    var r := ReadAttributes(data, ptr, end, tag, is64, addressSize, body, declaration);
    if r.Ok? {
      var s := ReadSpecs(data, ptr, end);
      var name := ReadUleb128(data, ptr, end).value;
      var form := ReadUleb128(data, name.next, end).value;
      var next := form.next;
      if name.value == 0 && form.value == 0 {
        assert r == Ok(Attributes(body, declaration, next));
        assert s == Ok(Specs([], next));
      } else {
        var spec := AttrSpec(name.value, form.value);
        var c := CompileAttribute(spec.name, spec.form, tag, is64, addressSize);
        var declaration' := declaration || spec.name == DW_AT_declaration;
        assert r == ReadAttributes(data, next, end, tag, is64, addressSize, Apply(body, c), declaration');
        ReadAttributesMeaning(data, next, end, tag, is64, addressSize, Apply(body, c), declaration');
        var rest := ReadSpecs(data, next, end).value;
        assert s == Ok(Specs([spec] + rest.specs, rest.next));
        AttributeStep(body, spec, rest.specs, tag, is64, addressSize, r.value.body);
      }
    }
  }

  /** One more attribute spec adds its actions in front of the rest's. */
  lemma AttributeStep(body: seq<byte>, spec: AttrSpec, rest: seq<AttrSpec>, tag: nat, is64: bool, addressSize: byte,
                      out: seq<byte>)
    requires 1 <= addressSize <= CMD_MAX_SKIP
    requires !CompileAttribute(spec.name, spec.form, tag, is64, addressSize).Unsupported?
    requires Expand(out) == Expand(Apply(body, CompileAttribute(spec.name, spec.form, tag, is64, addressSize)))
                            + Actions(rest, tag, is64, addressSize)
    ensures Expand(out) == Expand(body) + Actions([spec] + rest, tag, is64, addressSize)
  {
    var c := CompileAttribute(spec.name, spec.form, tag, is64, addressSize);
    var t := Actions(rest, tag, is64, addressSize);
    CompiledSizes(spec.name, spec.form, tag, is64, addressSize);
    ApplyMeaning(body, c);
    ActionsCons(spec, rest, tag, is64, addressSize);
    Regroup(Expand(out), Expand(Apply(body, c)), Expand(body), ActionOf(c), t,
            Actions([spec] + rest, tag, is64, addressSize));
  }

  lemma Regroup(out: seq<Action>, mid: seq<Action>, start: seq<Action>, a: seq<Action>, t: seq<Action>, whole: seq<Action>)
    requires out == mid + t && mid == start + a && whole == a + t
    ensures out == start + whole
  {
  }

  lemma ActionsCons(spec: AttrSpec, rest: seq<AttrSpec>, tag: nat, is64: bool, addressSize: byte)
    ensures Actions([spec] + rest, tag, is64, addressSize)
         == ActionOf(CompileAttribute(spec.name, spec.form, tag, is64, addressSize)) + Actions(rest, tag, is64, addressSize)
  {
    var specs := [spec] + rest;
    assert specs[0] == spec && specs[1..] == rest;
  }

  /** With an address size of at least 1 no compiled command is a 0, so a
      declaration's terminator is the one appended after its commands. */
  lemma {:induction false} ReadAttributesNonZero(data: seq<byte>, ptr: nat, end: nat, tag: nat, is64: bool,
                                                addressSize: byte, body: seq<byte>, declaration: bool)
    requires end <= |data|
    requires 1 <= addressSize && NonZero(body)
    ensures var r := ReadAttributes(data, ptr, end, tag, is64, addressSize, body, declaration);
            r.Ok? ==> NonZero(r.value.body)
    decreases end - ptr
  {
    var name := ReadUleb128(data, ptr, end);
    if name.Ok? {
      var form := ReadUleb128(data, name.value.next, end);
      if form.Ok? && !(name.value.value == 0 && form.value.value == 0) {
        var next := form.value.next;
        var declaration' := declaration || name.value.value == DW_AT_declaration;
        var c := CompileAttribute(name.value.value, form.value.value, tag, is64, addressSize);
        if !c.Unsupported? {
          CompiledSizes(name.value.value, form.value.value, tag, is64, addressSize);
          if c.Skip? {
            AppendSkipNonZero(body, c.size);
          }
          ReadAttributesNonZero(data, next, end, tag, is64, addressSize, Apply(body, c), declaration');
        }
      }
    }
  }

  datatype DeclRead = EndOfTable(next: nat) | Declared(table: AbbrevTable, next: nat)

  /** The byte after a declaration's terminator: its tag and flags. */
  function TagByte(tag: nat, declaration: bool, children: bool): nat
  {
    tag + (if declaration then TAG_FLAG_DECLARATION else 0) + (if children then TAG_FLAG_CHILDREN else 0)
  }

  /** The low six bits of the tag byte give back the tag, the high two the
      flags. */
  lemma TagByteMask(tag: nat, declaration: bool, children: bool)
    requires tag <= TAG_MASK
    ensures TagByte(tag, declaration, children) < 256
    ensures TagByte(tag, declaration, children) % 0x40 == tag
    ensures TagByte(tag, declaration, children) / 0x40 == (if declaration then 1 else 0) + (if children then 2 else 0)
  {
  }

  /** Reads one abbreviation declaration and appends its commands. Codes
      must run 1, 2, 3, ... ; code 0 ends the table. */
  function ReadAbbrevDecl(data: seq<byte>, ptr: nat, end: nat, is64: bool, addressSize: byte,
                          table: AbbrevTable): (r: Result<DeclRead>)
    requires end <= |data|
    ensures r.Ok? && r.value.EndOfTable? ==> ReadUleb128(data, ptr, end) == Ok(Decoded(0, r.value.next))
    ensures var code := ReadUleb128(data, ptr, end);
            code.Ok? && code.value.value == 0 ==> r == Ok(EndOfTable(code.value.next))
    ensures var code := ReadUleb128(data, ptr, end);
            code.Ok? && code.value.value != 0 && code.value.value != |table.decls| + 1 ==>
              r == Err(NotImplemented("abbreviation table is not sequential"))
    ensures r.Ok? && r.value.Declared? ==>
              && ptr < r.value.next <= end
              && r.value.table.decls == table.decls + [|table.cmds|]
              && table.cmds < r.value.table.cmds
  {
    var code :- ReadUleb128(data, ptr, end);
    if code.value == 0 then Ok(EndOfTable(code.next))
    else if code.value != |table.decls| + 1 then Err(NotImplemented("abbreviation table is not sequential"))
    else
      var tag :- ReadUleb128(data, code.next, end);
      var children :- ReadUnsigned(data, tag.next, end, 1);
      var indexed := IndexedTag(tag.value);
      var attributes :- ReadAttributes(data, children.next, end, indexed, is64, addressSize, [], false);
      var tagByte := TagByte(indexed, attributes.declaration, children.value != 0);
      Ok(Declared(AbbrevTable(table.decls + [|table.cmds|], table.cmds + attributes.body + [0, tagByte]),
                  attributes.next))
  }

  /** The commands of a declaration starting at `start` reach a terminator
      with a flags byte after it, so the DIE reader never runs off the
      commands. */
  predicate DeclTerminated(cmds: seq<byte>, start: nat)
  {
    && start <= |cmds|
    && var z := FindNul(cmds, start, |cmds|);
       z.Some? && z.value + 1 < |cmds|
  }

  /** Moreover the tag in the flags byte is 0 or one the indexer knows. */
  predicate DeclOk(cmds: seq<byte>, start: nat)
  {
    && DeclTerminated(cmds, start)
    && var f := cmds[FindNul(cmds, start, |cmds|).value + 1];
       IndexedTag(f % 0x40) == f % 0x40
  }

  predicate TableTerminated(t: AbbrevTable)
  {
    forall i :: 0 <= i < |t.decls| ==> DeclTerminated(t.cmds, t.decls[i])
  }

  predicate TableOk(t: AbbrevTable)
  {
    forall i :: 0 <= i < |t.decls| ==> DeclOk(t.cmds, t.decls[i])
  }

  /** Appending commands does not move the terminator of an earlier
      declaration. */
  lemma {:induction false} FindNulExtend(cmds: seq<byte>, more: seq<byte>, from: nat)
    requires from <= |cmds|
    requires FindNul(cmds, from, |cmds|).Some?
    ensures FindNul(cmds + more, from, |cmds + more|) == FindNul(cmds, from, |cmds|)
    decreases |cmds| - from
  {
    assert (cmds + more)[from] == cmds[from];
    if cmds[from] != 0 {
      FindNulExtend(cmds, more, from + 1);
    }
  }

  lemma DeclExtend(cmds: seq<byte>, more: seq<byte>, start: nat)
    requires DeclTerminated(cmds, start)
    ensures DeclTerminated(cmds + more, start)
    ensures DeclOk(cmds, start) ==> DeclOk(cmds + more, start)
  {
    FindNulExtend(cmds, more, start);
    var z := FindNul(cmds, start, |cmds|).value;
    assert (cmds + more)[z + 1] == cmds[z + 1];
  }

  /** A new declaration ends at or before its appended terminator; when its
      commands hold no 0, exactly there. */
  lemma NewDecl(cmds: seq<byte>, body: seq<byte>, tagByte: byte)
    ensures DeclTerminated(cmds + body + [0, tagByte], |cmds|)
    ensures NonZero(body) && IndexedTag(tagByte % 0x40) == tagByte % 0x40 ==>
              DeclOk(cmds + body + [0, tagByte], |cmds|)
  {
    var all := cmds + body + [0, tagByte];
    var zero := |cmds| + |body|;
    assert all[zero] == 0 && all[zero + 1] == tagByte;
    var z := FindNul(all, |cmds|, |all|);
    assert z.Some? && z.value <= zero;
  }

  /** The pieces a declaration is compiled from: its tag, its children
      byte, where its attribute list starts and what that list compiles
      to. The plain reading of the same bytes sees the same tag and
      children byte. */
  lemma DeclaredParts(data: seq<byte>, ptr: nat, end: nat, is64: bool, addressSize: byte, table: AbbrevTable)
    returns (tag: nat, children: nat, from: nat, a: Attributes)
    requires end <= |data|
    requires ReadAbbrevDecl(data, ptr, end, is64, addressSize, table).Ok?
    requires ReadAbbrevDecl(data, ptr, end, is64, addressSize, table).value.Declared?
    ensures from <= end && children < 256
    ensures ReadAttributes(data, from, end, IndexedTag(tag), is64, addressSize, [], false) == Ok(a)
    ensures ReadAbbrevDecl(data, ptr, end, is64, addressSize, table).value.table.cmds
         == table.cmds + a.body + [0, TagByte(IndexedTag(tag), a.declaration, children != 0)]
    ensures var specs := ReadSpecs(data, from, end);
            specs.Ok? ==>
              ReadPlainDecl(data, ptr, end)
                == Ok(PlainDecl(DeclSpec(|table.decls| + 1, tag, children, specs.value.specs), specs.value.next))
  {
    var code := ReadUleb128(data, ptr, end).value;
    var t := ReadUleb128(data, code.next, end).value;
    var c := ReadUnsigned(data, t.next, end, 1).value;
    tag, children, from := t.value, c.value, c.next;
    a := ReadAttributes(data, from, end, IndexedTag(tag), is64, addressSize, [], false).value;
  }

  /** A declaration keeps every earlier declaration intact and ends in a
      terminator of its own; with an address size of at least 1 its tag
      byte is where the indexer looks for it. */
  lemma ReadAbbrevDeclKeepsTable(data: seq<byte>, ptr: nat, end: nat, is64: bool, addressSize: byte, table: AbbrevTable)
    requires end <= |data|
    requires TableTerminated(table)
    requires ReadAbbrevDecl(data, ptr, end, is64, addressSize, table).Ok?
    requires ReadAbbrevDecl(data, ptr, end, is64, addressSize, table).value.Declared?
    ensures var t := ReadAbbrevDecl(data, ptr, end, is64, addressSize, table).value.table;
            && TableTerminated(t)
            && (1 <= addressSize && TableOk(table) ==> TableOk(t))
  {
    var t := ReadAbbrevDecl(data, ptr, end, is64, addressSize, table).value.table;
    var tag, children, from, attributes := DeclaredParts(data, ptr, end, is64, addressSize, table);
    var indexed := IndexedTag(tag);
    var tagByte := TagByte(indexed, attributes.declaration, children != 0);
    TagByteMask(indexed, attributes.declaration, children != 0);
    if 1 <= addressSize {
      ReadAttributesNonZero(data, from, end, indexed, is64, addressSize, [], false);
    }
    assert t == AbbrevTable(table.decls + [|table.cmds|], table.cmds + attributes.body + [0, tagByte]);
    TableExtend(table, attributes.body, tagByte);
  }

  /** Appending a declaration keeps every earlier one intact and ends in a
      terminator of its own. */
  lemma TableExtend(table: AbbrevTable, body: seq<byte>, tagByte: byte)
    requires TableTerminated(table)
    ensures var t := AbbrevTable(table.decls + [|table.cmds|], table.cmds + body + [0, tagByte]);
            && TableTerminated(t)
            && (TableOk(table) && NonZero(body) && IndexedTag(tagByte % 0x40) == tagByte % 0x40 ==> TableOk(t))
  {
    var more := body + [0, tagByte];
    assert table.cmds + more == table.cmds + body + [0, tagByte];
    forall i | 0 <= i < |table.decls|
      ensures DeclTerminated(table.cmds + more, table.decls[i])
      ensures DeclOk(table.cmds, table.decls[i]) ==> DeclOk(table.cmds + more, table.decls[i])
    {
      DeclExtend(table.cmds, more, table.decls[i]);
    }
    NewDecl(table.cmds, body, tagByte);
  }

  /** Reads declarations until code 0, starting from `table`. */
  function ReadAbbrevDecls(data: seq<byte>, ptr: nat, end: nat, is64: bool, addressSize: byte,
                           table: AbbrevTable): (r: Result<AbbrevTable>)
    requires end <= |data|
    decreases end - ptr
  {
    var decl :- ReadAbbrevDecl(data, ptr, end, is64, addressSize, table);
    match decl
    case EndOfTable(_) => Ok(table)
    case Declared(t, next) => ReadAbbrevDecls(data, next, end, is64, addressSize, t)
  }

  /** Compiles the abbreviation table at `ptr` for a unit with the given
      format and address size. */
  function ReadAbbrevTable(data: seq<byte>, ptr: nat, end: nat, is64: bool, addressSize: byte): (r: Result<AbbrevTable>)
    requires end <= |data|
  {
    ReadAbbrevDecls(data, ptr, end, is64, addressSize, AbbrevTable([], []))
  }

  /** Every declaration of a compiled table ends in a terminator with a
      flags byte after it; with an address size of at least 1 the tag in
      that byte is 0 or one the indexer knows. */
  lemma {:induction false} ReadAbbrevDeclsOk(data: seq<byte>, ptr: nat, end: nat, is64: bool, addressSize: byte, table: AbbrevTable)
    requires end <= |data|
    requires TableTerminated(table)
    ensures var r := ReadAbbrevDecls(data, ptr, end, is64, addressSize, table);
            r.Ok? ==>
              && TableTerminated(r.value)
              && (1 <= addressSize && TableOk(table) ==> TableOk(r.value))
              && |r.value.decls| >= |table.decls|
    decreases end - ptr
  {
    var decl := ReadAbbrevDecl(data, ptr, end, is64, addressSize, table);
    if decl.Ok? && decl.value.Declared? {
      ReadAbbrevDeclKeepsTable(data, ptr, end, is64, addressSize, table);
      ReadAbbrevDeclsOk(data, decl.value.next, end, is64, addressSize, decl.value.table);
    }
  }

  lemma ReadAbbrevTableOk(data: seq<byte>, ptr: nat, end: nat, is64: bool, addressSize: byte)
    requires end <= |data|
    ensures var r := ReadAbbrevTable(data, ptr, end, is64, addressSize);
            r.Ok? ==> TableTerminated(r.value) && (1 <= addressSize ==> TableOk(r.value))
  {
    ReadAbbrevDeclsOk(data, ptr, end, is64, addressSize, AbbrevTable([], []));
  }

  /** One abbreviation declaration as written in .debug_abbrev. */
  datatype DeclSpec = DeclSpec(code: nat, tag: nat, children: nat, specs: seq<AttrSpec>)

  datatype PlainRead = PlainEnd(next: nat) | PlainDecl(decl: DeclSpec, next: nat)

  /** The plain reading of one declaration: its code, tag, children byte
      and attribute list, with nothing compiled and no condition on the
      code. Code 0 ends the table. */
  function ReadPlainDecl(data: seq<byte>, ptr: nat, end: nat): (r: Result<PlainRead>)
    requires end <= |data|
    ensures r.Ok? ==> ptr < r.value.next <= end
    ensures r.Ok? && r.value.PlainDecl? ==> r.value.decl.code != 0
  {
    var code :- ReadUleb128(data, ptr, end);
    if code.value == 0 then Ok(PlainEnd(code.next))
    else
      var tag :- ReadUleb128(data, code.next, end);
      var children :- ReadUnsigned(data, tag.next, end, 1);
      var specs :- ReadSpecs(data, children.next, end);
      Ok(PlainDecl(DeclSpec(code.value, tag.value, children.value, specs.specs), specs.next))
  }

  /** The plain reading of a whole table: the declarations before code 0. */
  function ReadDeclSpecs(data: seq<byte>, ptr: nat, end: nat): (r: Result<seq<DeclSpec>>)
    requires end <= |data|
    decreases end - ptr
  {
    var p :- ReadPlainDecl(data, ptr, end);
    match p
    case PlainEnd(_) => Ok([])
    case PlainDecl(d, next) =>
      var rest :- ReadDeclSpecs(data, next, end);
      Ok([d] + rest)
  }

  /** A declaration the indexer accepts as the `index`-th one: its code is
      index + 1 and each of its attributes has a form it supports. */
  predicate Accepted(d: DeclSpec, index: nat, is64: bool, addressSize: byte)
  {
    d.code == index + 1 && AllSupported(d.specs, IndexedTag(d.tag), is64, addressSize)
  }

  predicate AllAccepted(ds: seq<DeclSpec>, from: nat, is64: bool, addressSize: byte)
  {
    forall i :: 0 <= i < |ds| ==> Accepted(ds[i], from + i, is64, addressSize)
  }

  /** The commands at `start` mean declaration `d`: up to the terminator
      they expand to the actions of its attributes in order, and the byte
      after the terminator is its tag with its DW_AT_declaration and
      children flags. */
  predicate Compiles(cmds: seq<byte>, start: nat, d: DeclSpec, is64: bool, addressSize: byte)
  {
    && DeclTerminated(cmds, start)
    && var z := FindNul(cmds, start, |cmds|).value;
       && Expand(cmds[start..z]) == Actions(d.specs, IndexedTag(d.tag), is64, addressSize)
       && cmds[z + 1] == TagByte(IndexedTag(d.tag), HasDeclaration(d.specs), d.children != 0)
  }

  /** Declaration i of the compiled table means the i-th declaration read. */
  predicate CompiledTable(t: AbbrevTable, ds: seq<DeclSpec>, is64: bool, addressSize: byte)
  {
    && |t.decls| == |ds|
    && forall i :: 0 <= i < |ds| ==> Compiles(t.cmds, t.decls[i], ds[i], is64, addressSize)
  }

  /** The terminator appended after a command list with no 0 in it is the
      first 0 from the list's start. */
  lemma FindTerminator(cmds: seq<byte>, body: seq<byte>, tagByte: byte)
    requires NonZero(body)
    ensures var all := cmds + body + [0, tagByte];
            && FindNul(all, |cmds|, |all|) == Some(|cmds| + |body|)
            && all[|cmds|..|cmds| + |body|] == body
            && all[|cmds| + |body| + 1] == tagByte
  {
    var all := cmds + body + [0, tagByte];
    var zero := |cmds| + |body|;
    assert all[zero] == 0;
    var z := FindNul(all, |cmds|, |all|);
    assert z.Some? && z.value <= zero;
  }

  /** Appending commands does not change what an earlier declaration means. */
  lemma CompilesExtend(cmds: seq<byte>, more: seq<byte>, start: nat, d: DeclSpec, is64: bool, addressSize: byte)
    requires Compiles(cmds, start, d, is64, addressSize)
    ensures Compiles(cmds + more, start, d, is64, addressSize)
  {
    FindNulExtend(cmds, more, start);
    var z := FindNul(cmds, start, |cmds|).value;
    assert (cmds + more)[start..z] == cmds[start..z];
    assert (cmds + more)[z + 1] == cmds[z + 1];
  }

  /** Compiling one declaration succeeds exactly when the plain reading
      does and the declaration is accepted in its position; then both stop
      at the same byte. */
  lemma ReadAbbrevDeclOutcome(data: seq<byte>, ptr: nat, end: nat, is64: bool, addressSize: byte, table: AbbrevTable)
    requires end <= |data|
    ensures var r := ReadAbbrevDecl(data, ptr, end, is64, addressSize, table);
            var p := ReadPlainDecl(data, ptr, end);
            && (r.Ok? <==> p.Ok? && (p.value.PlainDecl? ==> Accepted(p.value.decl, |table.decls|, is64, addressSize)))
            && (r.Ok? ==> r.value.next == p.value.next && (r.value.Declared? <==> p.value.PlainDecl?))
  {
    var code := ReadUleb128(data, ptr, end);
    if code.Err? || code.value.value == 0 || code.value.value != |table.decls| + 1 {
      return;
    }
    var tag := ReadUleb128(data, code.value.next, end);
    if tag.Err? {
      return;
    }
    var children := ReadUnsigned(data, tag.value.next, end, 1);
    if children.Err? {
      return;
    }
    ReadAttributesOutcome(data, children.value.next, end, IndexedTag(tag.value.value), is64, addressSize, [], false);
  }

  /** The commands a declaration appends mean the declaration as read
      plainly. */
  lemma ReadAbbrevDeclCompiles(data: seq<byte>, ptr: nat, end: nat, is64: bool, addressSize: byte, table: AbbrevTable)
    requires end <= |data|
    requires 1 <= addressSize <= CMD_MAX_SKIP
    ensures var r := ReadAbbrevDecl(data, ptr, end, is64, addressSize, table);
            var p := ReadPlainDecl(data, ptr, end);
            r.Ok? && r.value.Declared? ==>
              p.Ok? && p.value.PlainDecl? && Compiles(r.value.table.cmds, |table.cmds|, p.value.decl, is64, addressSize)
  {
    var r := ReadAbbrevDecl(data, ptr, end, is64, addressSize, table);
    if r.Ok? && r.value.Declared? {
      var tag, children, from, a := DeclaredParts(data, ptr, end, is64, addressSize, table);
      var indexed := IndexedTag(tag);
      ReadAttributesMeaning(data, from, end, indexed, is64, addressSize, [], false);
      ReadAttributesNonZero(data, from, end, indexed, is64, addressSize, [], false);
      var tagByte := TagByte(indexed, a.declaration, children != 0);
      TagByteMask(indexed, a.declaration, children != 0);
      FindTerminator(table.cmds, a.body, tagByte);
      assert Expand([]) == [];
    }
  }

  /** Accepting a list from position `from` is accepting its head there
      and its tail from the next position. */
  lemma AllAcceptedCons(d: DeclSpec, rest: seq<DeclSpec>, from: nat, is64: bool, addressSize: byte)
    ensures AllAccepted([d] + rest, from, is64, addressSize)
        <==> Accepted(d, from, is64, addressSize) && AllAccepted(rest, from + 1, is64, addressSize)
  {
    var ds := [d] + rest;
    assert ds[0] == d;
    assert forall i :: 0 <= i < |rest| ==> ds[i + 1] == rest[i];
    if Accepted(d, from, is64, addressSize) && AllAccepted(rest, from + 1, is64, addressSize) {
      forall i | 0 <= i < |ds|
        ensures Accepted(ds[i], from + i, is64, addressSize)
      {
        if i > 0 {
          assert ds[i] == rest[i - 1];
        }
      }
    }
  }

  /** A new declaration that means `d` extends a table meaning `prev` to one
      meaning `prev + [d]`. */
  lemma CompiledTableExtend(table: AbbrevTable, t: AbbrevTable, prev: seq<DeclSpec>, d: DeclSpec,
                            is64: bool, addressSize: byte)
    requires CompiledTable(table, prev, is64, addressSize)
    requires t.decls == table.decls + [|table.cmds|] && table.cmds < t.cmds
    requires Compiles(t.cmds, |table.cmds|, d, is64, addressSize)
    ensures CompiledTable(t, prev + [d], is64, addressSize)
  {
    var more := t.cmds[|table.cmds|..];
    assert t.cmds == table.cmds + more;
    forall i | 0 <= i < |prev|
      ensures Compiles(t.cmds, t.decls[i], prev[i], is64, addressSize)
    {
      assert t.decls[i] == table.decls[i];
      CompilesExtend(table.cmds, more, table.decls[i], prev[i], is64, addressSize);
    }
  }

  /** After a declaration the compiled reading goes on from the next byte
      with the extended table. */
  lemma DeclsUnfold(data: seq<byte>, ptr: nat, end: nat, is64: bool, addressSize: byte,
                    table: AbbrevTable, t: AbbrevTable, next: nat)
    requires end <= |data|
    requires ReadAbbrevDecl(data, ptr, end, is64, addressSize, table) == Ok(Declared(t, next))
    ensures ReadAbbrevDecls(data, ptr, end, is64, addressSize, table)
         == ReadAbbrevDecls(data, next, end, is64, addressSize, t)
  {
  }

  /** After a declaration the plain reading puts it in front of the rest. */
  lemma SpecsUnfold(data: seq<byte>, ptr: nat, end: nat, d: DeclSpec, next: nat)
    requires end <= |data|
    requires ReadPlainDecl(data, ptr, end) == Ok(PlainDecl(d, next))
    ensures var rest := ReadDeclSpecs(data, next, end);
            ReadDeclSpecs(data, ptr, end) == if rest.Ok? then Ok([d] + rest.value) else Err(rest.error)
  {
  }

  /** The step of ReadAbbrevDeclsMeaning past one accepted declaration `d`:
      `r` and `s` are the compiled and the plain readings from its start,
      `r'` and `s'` those from the byte after it. */
  lemma DeclsStep(r: Result<AbbrevTable>, s: Result<seq<DeclSpec>>, r': Result<AbbrevTable>, s': Result<seq<DeclSpec>>,
                  prev: seq<DeclSpec>, d: DeclSpec, is64: bool, addressSize: byte)
    requires r == r'
    requires s == if s'.Ok? then Ok([d] + s'.value) else Err(s'.error)
    requires Accepted(d, |prev|, is64, addressSize)
    requires r'.Ok? <==> s'.Ok? && AllAccepted(s'.value, |prev| + 1, is64, addressSize)
    requires r'.Ok? ==> CompiledTable(r'.value, prev + [d] + s'.value, is64, addressSize)
    ensures r.Ok? <==> s.Ok? && AllAccepted(s.value, |prev|, is64, addressSize)
    ensures r.Ok? ==> CompiledTable(r.value, prev + s.value, is64, addressSize)
  {
    if s'.Ok? {
      assert prev + [d] + s'.value == prev + ([d] + s'.value);
      AllAcceptedCons(d, s'.value, |prev|, is64, addressSize);
    }
  }

  /** A compiled table is a faithful translation of the plain one: it is
      read exactly when every declaration is read and accepted in turn, and
      declaration i of the result means the i-th declaration read, after
      the `prev` ones already compiled. */
  lemma {:induction false} ReadAbbrevDeclsMeaning(data: seq<byte>, ptr: nat, end: nat, is64: bool, addressSize: byte,
                                                 table: AbbrevTable, prev: seq<DeclSpec>)
    requires end <= |data|
    requires 1 <= addressSize <= CMD_MAX_SKIP
    requires CompiledTable(table, prev, is64, addressSize)
    ensures var r := ReadAbbrevDecls(data, ptr, end, is64, addressSize, table);
            var s := ReadDeclSpecs(data, ptr, end);
            && (r.Ok? <==> s.Ok? && AllAccepted(s.value, |prev|, is64, addressSize))
            && (r.Ok? ==> CompiledTable(r.value, prev + s.value, is64, addressSize))
    decreases end - ptr
  {
    var decl := ReadAbbrevDecl(data, ptr, end, is64, addressSize, table);
    var p := ReadPlainDecl(data, ptr, end);
    ReadAbbrevDeclOutcome(data, ptr, end, is64, addressSize, table);
    ReadAbbrevDeclCompiles(data, ptr, end, is64, addressSize, table);
    if decl.Ok? && decl.value.Declared? {
      var t := decl.value.table;
      var d := p.value.decl;
      CompiledTableExtend(table, t, prev, d, is64, addressSize);
      ReadAbbrevDeclsMeaning(data, decl.value.next, end, is64, addressSize, t, prev + [d]);
      DeclsUnfold(data, ptr, end, is64, addressSize, table, t, decl.value.next);
      SpecsUnfold(data, ptr, end, d, decl.value.next);
      DeclsStep(ReadAbbrevDecls(data, ptr, end, is64, addressSize, table), ReadDeclSpecs(data, ptr, end),
                ReadAbbrevDecls(data, decl.value.next, end, is64, addressSize, t), ReadDeclSpecs(data, decl.value.next, end),
                prev, d, is64, addressSize);
    } else if decl.Ok? {
      assert ReadDeclSpecs(data, ptr, end) == Ok([]);
      assert prev + [] == prev;
    } else if p.Ok? && p.value.PlainDecl? {
      var s := ReadDeclSpecs(data, ptr, end);
      if s.Ok? {
        assert s.value[0] == p.value.decl;
      }
    }
  }

  /** The compiled table is read exactly when the plain table is read and
      its declarations are numbered 1, 2, 3, ... with supported forms;
      then declaration i's commands, up to its terminator, mean the
      attributes of the i-th declaration, and the byte after the
      terminator is its tag byte. */
  lemma ReadAbbrevTableMeaning(data: seq<byte>, ptr: nat, end: nat, is64: bool, addressSize: byte)
    requires end <= |data|
    requires 1 <= addressSize <= CMD_MAX_SKIP
    ensures var r := ReadAbbrevTable(data, ptr, end, is64, addressSize);
            var s := ReadDeclSpecs(data, ptr, end);
            && (r.Ok? <==> s.Ok? && AllAccepted(s.value, 0, is64, addressSize))
            && (r.Ok? ==> CompiledTable(r.value, s.value, is64, addressSize))
  {
    ReadAbbrevDeclsMeaning(data, ptr, end, is64, addressSize, AbbrevTable([], []), []);
    assert forall ds: seq<DeclSpec> :: [] + ds == ds;
  }
}

=== FILE: base.dfy ===
/** Shared vocabulary of the DWARF index model: bytes, the error kinds the
    indexer raises, a failure-compatible Result, fixed-width integer limits
    and little-endian encoding of unsigned integers. */
module Base {

  /** One byte of a mapped file, as the value of a uint8_t. */
  type byte = x: int | 0 <= x < 256

  /** The exception classes the indexer raises, by kind. */
  datatype Error =
    | EndOfFile                        // EOFError: a read ran past its end pointer
    | Overflow                         // OverflowError: a ULEB128 wider than 64 bits
    | FormatError(message: string)     // DwarfFormatError or ElfFormatError
    | NotImplemented(message: string)  // NotImplementedError
    | OutOfMemory                      // MemoryError: the DIE hash table is full
    | NotFound                         // ValueError: no DIE has the requested name

  datatype Option<+T> = None | Some(value: T)

  datatype Result<+T> = Ok(value: T) | Err(error: Error) {
    predicate IsFailure() { Err? }

    function PropagateFailure<U>(): Result<U>
      requires Err?
    {
      Err(error)
    }

    function Extract(): T
      requires Ok?
    {
      value
    }
  }

  /** The result of hashing a file name. The SipHash state is abstracted as
      the bytes fed to it; `NoFile` is the zero the indexer stores for a DIE
      without DW_AT_decl_file. */
  datatype FileKey = NoFile | Digest(fed: seq<byte>)

  const U32_LIMIT: nat := 0x1_0000_0000
  const U64_LIMIT: nat := 0x1_0000_0000_0000_0000
  /** size_t is 64 bits wide on the hosts the indexer supports. */
  const SIZE_MAX: nat := U64_LIMIT - 1

  function Pow256(n: nat): (r: nat)
    ensures r >= 1
  {
    if n == 0 then 1 else 256 * Pow256(n - 1)
  }

  /** The unsigned integer stored little-endian in `s`. */
  function LittleEndian(s: seq<byte>): (v: nat)
    ensures v < Pow256(|s|)
  {
    if s == [] then 0 else s[0] + 256 * LittleEndian(s[1..])
  }

  /** The low `n` bytes of `v`, least significant first. */
  function EncodeLittleEndian(v: nat, n: nat): (s: seq<byte>)
    ensures |s| == n
  {
    if n == 0 then [] else [v % 256] + EncodeLittleEndian(v / 256, n - 1)
  }

  /** `e` lies in `data` from `ptr` on, byte by byte. */
  predicate Occurs(data: seq<byte>, ptr: nat, e: seq<byte>)
    decreases |e|
  {
    ptr + |e| <= |data| && (e == [] || (data[ptr] == e[0] && Occurs(data, ptr + 1, e[1..])))
  }

  /** Occurs is being a slice of `data`. */
  lemma {:induction false} OccursSlice(data: seq<byte>, ptr: nat, e: seq<byte>)
    ensures Occurs(data, ptr, e) <==> ptr + |e| <= |data| && data[ptr..ptr + |e|] == e
    decreases |e|
  {
    if e != [] {
      OccursSlice(data, ptr + 1, e[1..]);
      if ptr + |e| <= |data| {
        var s := data[ptr..ptr + |e|];
        assert s[0] == data[ptr] && s[1..] == data[ptr + 1..ptr + 1 + |e[1..]|];
        assert s == e <==> s[0] == e[0] && s[1..] == e[1..] by {
          if s[0] == e[0] && s[1..] == e[1..] {
            assert s == [s[0]] + s[1..] && e == [e[0]] + e[1..];
          }
        }
      }
    }
  }

  /** `a + b` lies in `data` exactly when `a` does and `b` follows it. */
  lemma {:induction false} OccursAppend(data: seq<byte>, ptr: nat, a: seq<byte>, b: seq<byte>)
    ensures Occurs(data, ptr, a + b) <==> Occurs(data, ptr, a) && Occurs(data, ptr + |a|, b)
    decreases |a|
  {
    if a == [] {
      assert a + b == b;
    } else {
      assert (a + b)[0] == a[0] && (a + b)[1..] == a[1..] + b;
      OccursAppend(data, ptr + 1, a[1..], b);
    }
  }

  /** Where `x + e` lies in `data`, `x` lies first and `e` right after it. */
  lemma SplitSlice(data: seq<byte>, a: nat, x: seq<byte>, e: seq<byte>)
    requires a + |x| + |e| <= |data| && data[a..a + |x| + |e|] == x + e
    ensures data[a..a + |x|] == x && data[a + |x|..a + |x| + |e|] == e
  {
    var s := data[a..a + |x| + |e|];
    assert data[a..a + |x|] == s[..|x|];
    assert data[a + |x|..a + |x| + |e|] == s[|x|..];
  }

  /** The middle part of a concatenation, sliced back out. */
  lemma MiddleSlice(x: seq<byte>, e: seq<byte>, y: seq<byte>)
    ensures (x + e + y)[|x|..|x| + |e|] == e
  {
  }

  lemma DivModUnique(v: nat, d: nat, q: nat, r: nat)
    requires d > 0 && r < d && v == d * q + r
    ensures v / d == q && v % d == r
  {
    var q' := v / d;
    var r' := v % d;
    assert v == d * q' + r';
    if q' > q {
      MulMono(d, q + 1, q');
      assert false;
    } else if q' < q {
      MulMono(d, q' + 1, q);
      assert false;
    }
  }

  lemma MulMono(d: nat, a: nat, b: nat)
    requires a <= b
    ensures d * a <= d * b
  {
  }

  lemma ModSplit(v: nat, p: nat)
    requires p > 0
    ensures v % (256 * p) == v % 256 + 256 * ((v / 256) % p)
  {
    var q := v / 256;
    var a := q / p;
    var b := q % p;
    assert q == p * a + b;
    assert v == 256 * q + v % 256;
    assert v == (256 * p) * a + (256 * b + v % 256) by {
      assert 256 * q == 256 * (p * a) + 256 * b;
      assert 256 * (p * a) == (256 * p) * a;
    }
    assert 256 * b + v % 256 < 256 * p by {
      assert b <= p - 1;
      assert 256 * b <= 256 * (p - 1);
    }
    DivModUnique(v, 256 * p, a, 256 * b + v % 256);
  }

  /** Decoding the encoding of `v` gives `v` truncated to `n` bytes. */
  lemma {:induction false} DecodeEncode(v: nat, n: nat)
    ensures LittleEndian(EncodeLittleEndian(v, n)) == v % Pow256(n)
  {
    if n > 0 {
      var s := EncodeLittleEndian(v, n);
      var t := EncodeLittleEndian(v / 256, n - 1);
      assert s[1..] == t;
      DecodeEncode(v / 256, n - 1);
      ModSplit(v, Pow256(n - 1));
    }
  }

  /** Encoding the value of `s` back into |s| bytes gives `s`. */
  lemma {:induction false} EncodeDecode(s: seq<byte>)
    ensures EncodeLittleEndian(LittleEndian(s), |s|) == s
  {
    if s != [] {
      var v := LittleEndian(s);
      var rest := LittleEndian(s[1..]);
      DivModUnique(v, 256, rest, s[0]);
      EncodeDecode(s[1..]);
    }
  }
}

=== FILE: cu_header.dfy ===
/** Compilation-unit headers of .debug_info and the walk from one unit to
    the next (sections 7.4 and 7.5.1.1 of DWARF Version 4).

    A unit starts with an initial length. The 32-bit escape value
    0xffffffff selects the 64-bit format, in which an 8-byte length follows
    and the abbreviation offset is 8 bytes wide; otherwise the length and
    the offset are 4 bytes each. Then come a 2-byte version, the
    abbreviation offset and a 1-byte address size. */
module CuHeader {
  import opened Base
  import opened Cursor

  /** The initial length that announces the 64-bit DWARF format. */
  const DWARF64_ESCAPE: nat := 0xffff_ffff

  datatype Header = Header(unitLength: nat, version: nat, abbrevOffset: nat, addressSize: nat, is64: bool)

  /** A unit of .debug_info: where its header starts, the header and the
      index of the file it came from. */
  datatype CompilationUnit = CompilationUnit(offset: nat, header: Header, file: nat)

  /** The size of the initial length field; the unit length counts the
      bytes after it. */
  function LengthSize(is64: bool): nat
  {
    if is64 then 12 else 4
  }

  /** The size of the whole header; the first DIE follows it. */
  function HeaderSize(is64: bool): nat
  {
    if is64 then 23 else 11
  }

  /** One past the last byte of the unit: where the next unit starts. */
  function UnitEnd(cu: CompilationUnit): nat
  {
    cu.offset + LengthSize(cu.header.is64) + cu.header.unitLength
  }

  /** Where the unit's first DIE starts. */
  function DiesStart(cu: CompilationUnit): nat
  {
    cu.offset + HeaderSize(cu.header.is64)
  }

  predicate KnownVersion(version: nat)
  {
    version == 2 || version == 3 || version == 4
  }

  /** The header fields fit the width the format gives them, and the
      version is one the indexer understands. */
  predicate ValidHeader(h: Header)
  {
    && KnownVersion(h.version)
    && h.addressSize < 256
    && (if h.is64 then h.unitLength < U64_LIMIT && h.abbrevOffset < U64_LIMIT
        else h.unitLength < DWARF64_ESCAPE && h.abbrevOffset < U32_LIMIT)
  }

  /** Whether the unit at `ptr` uses the 64-bit format. */
  predicate Is64At(data: seq<byte>, ptr: nat)
    requires ptr + 4 <= |data|
  {
    LittleEndian(data[ptr..ptr + 4]) == DWARF64_ESCAPE
  }

  /** The version field of the unit at `ptr`. */
  function VersionAt(data: seq<byte>, ptr: nat, is64: bool): nat
    requires ptr + LengthSize(is64) + 2 <= |data|
  {
    LittleEndian(data[ptr + LengthSize(is64)..ptr + LengthSize(is64) + 2])
  }

  lemma Pow256Values()
    ensures Pow256(1) == 256 && Pow256(2) == 0x1_0000
    ensures Pow256(4) == U32_LIMIT && Pow256(8) == U64_LIMIT
  {
  }

  /** Reads the header of the unit at `ptr`. */
  function ReadCompilationUnitHeader(data: seq<byte>, ptr: nat, end: nat): (r: Result<Header>)
    requires end <= |data|
    ensures r.Err? ==> r.error == EndOfFile || r.error == FormatError("unknown DWARF version")
    ensures r.Ok? ==> ValidHeader(r.value) && ptr + HeaderSize(r.value.is64) <= end
  {
    Pow256Values();
    var initial :- ReadUnsigned(data, ptr, end, 4);
    var is64 := initial.value == DWARF64_ESCAPE;
    var length :- if is64 then ReadUnsigned(data, initial.next, end, 8) else Ok(initial);
    var version :- ReadUnsigned(data, length.next, end, 2);
    if !KnownVersion(version.value) then Err(FormatError("unknown DWARF version"))
    else
      var abbrev :- ReadUnsigned(data, version.next, end, if is64 then 8 else 4);
      var size :- ReadUnsigned(data, abbrev.next, end, 1);
      Ok(Header(length.value, version.value, abbrev.value, size.value, is64))
  }

  /** A header is read exactly when all of it lies before `end` and its
      version is 2, 3 or 4; an unknown version is reported as soon as the
      version field itself is in bounds. */
  lemma HeaderOutcome(data: seq<byte>, ptr: nat, end: nat)
    requires end <= |data|
    ensures var r := ReadCompilationUnitHeader(data, ptr, end);
            && (r.Ok? <==>
                  ptr + 4 <= end
                  && ptr + HeaderSize(Is64At(data, ptr)) <= end
                  && KnownVersion(VersionAt(data, ptr, Is64At(data, ptr))))
            && (r == Err(FormatError("unknown DWARF version")) <==>
                  ptr + 4 <= end
                  && ptr + LengthSize(Is64At(data, ptr)) + 2 <= end
                  && !KnownVersion(VersionAt(data, ptr, Is64At(data, ptr))))
            && (r.Ok? ==> r.value.is64 == Is64At(data, ptr))
  {
  }

  /** The header bytes of `h`, as a producer writes them. */
  function EncodeHeader(h: Header): (s: seq<byte>)
    ensures |s| == HeaderSize(h.is64)
  {
    if h.is64 then
      EncodeLittleEndian(DWARF64_ESCAPE, 4) + EncodeLittleEndian(h.unitLength, 8)
      + EncodeLittleEndian(h.version, 2) + EncodeLittleEndian(h.abbrevOffset, 8)
      + EncodeLittleEndian(h.addressSize, 1)
    else
      EncodeLittleEndian(h.unitLength, 4) + EncodeLittleEndian(h.version, 2)
      + EncodeLittleEndian(h.abbrevOffset, 4) + EncodeLittleEndian(h.addressSize, 1)
  }

  /** Reading back a written header gives the header, whatever surrounds
      it. */
  lemma ReadEncodedHeader(p: seq<byte>, h: Header, q: seq<byte>, end: nat)
    requires ValidHeader(h)
    requires |p| + HeaderSize(h.is64) <= end <= |p| + HeaderSize(h.is64) + |q|
    ensures ReadCompilationUnitHeader(p + EncodeHeader(h) + q, |p|, end) == Ok(h)
  {
    if h.is64 {
      ReadEncodedHeader64(p, h, q, end);
    } else {
      ReadEncodedHeader32(p, h, q, end);
    }
  }

  /** Where each field of a written 64-bit header lies. */
  lemma HeaderFields64(p: seq<byte>, h: Header, q: seq<byte>)
    requires h.is64
    ensures var data := p + EncodeHeader(h) + q; var a := |p|;
            && data[a..a + 4] == EncodeLittleEndian(DWARF64_ESCAPE, 4)
            && data[a + 4..a + 12] == EncodeLittleEndian(h.unitLength, 8)
            && data[a + 12..a + 14] == EncodeLittleEndian(h.version, 2)
            && data[a + 14..a + 22] == EncodeLittleEndian(h.abbrevOffset, 8)
            && data[a + 22..a + 23] == EncodeLittleEndian(h.addressSize, 1)
  {
    var data := p + EncodeHeader(h) + q;
    var a := |p|;
    var e1 := EncodeLittleEndian(DWARF64_ESCAPE, 4);
    var e2 := EncodeLittleEndian(h.unitLength, 8);
    var e3 := EncodeLittleEndian(h.version, 2);
    var e4 := EncodeLittleEndian(h.abbrevOffset, 8);
    var e5 := EncodeLittleEndian(h.addressSize, 1);
    MiddleSlice(p, EncodeHeader(h), q);
    SplitSlice(data, a, e1 + e2 + e3 + e4, e5);
    SplitSlice(data, a, e1 + e2 + e3, e4);
    SplitSlice(data, a, e1 + e2, e3);
    SplitSlice(data, a, e1, e2);
  }

  lemma ReadEncodedHeader64(p: seq<byte>, h: Header, q: seq<byte>, end: nat)
    requires ValidHeader(h) && h.is64
    requires |p| + 23 <= end <= |p| + 23 + |q|
    ensures ReadCompilationUnitHeader(p + EncodeHeader(h) + q, |p|, end) == Ok(h)
  {
    Pow256Values();
    var data := p + EncodeHeader(h) + q;
    var a := |p|;
    HeaderFields64(p, h, q);
    ReadUnsignedAt(data, a, end, 4, DWARF64_ESCAPE);
    ReadUnsignedAt(data, a + 4, end, 8, h.unitLength);
    ReadUnsignedAt(data, a + 12, end, 2, h.version);
    ReadUnsignedAt(data, a + 14, end, 8, h.abbrevOffset);
    ReadUnsignedAt(data, a + 22, end, 1, h.addressSize);
  }

  /** Where each field of a written 32-bit header lies. */
  lemma HeaderFields32(p: seq<byte>, h: Header, q: seq<byte>)
    requires !h.is64
    ensures var data := p + EncodeHeader(h) + q; var a := |p|;
            && data[a..a + 4] == EncodeLittleEndian(h.unitLength, 4)
            && data[a + 4..a + 6] == EncodeLittleEndian(h.version, 2)
            && data[a + 6..a + 10] == EncodeLittleEndian(h.abbrevOffset, 4)
            && data[a + 10..a + 11] == EncodeLittleEndian(h.addressSize, 1)
  {
    var data := p + EncodeHeader(h) + q;
    var a := |p|;
    var e1 := EncodeLittleEndian(h.unitLength, 4);
    var e2 := EncodeLittleEndian(h.version, 2);
    var e3 := EncodeLittleEndian(h.abbrevOffset, 4);
    var e4 := EncodeLittleEndian(h.addressSize, 1);
    MiddleSlice(p, EncodeHeader(h), q);
    SplitSlice(data, a, e1 + e2 + e3, e4);
    SplitSlice(data, a, e1 + e2, e3);
    SplitSlice(data, a, e1, e2);
  }

  lemma ReadEncodedHeader32(p: seq<byte>, h: Header, q: seq<byte>, end: nat)
    requires ValidHeader(h) && !h.is64
    requires |p| + 11 <= end <= |p| + 11 + |q|
    ensures ReadCompilationUnitHeader(p + EncodeHeader(h) + q, |p|, end) == Ok(h)
  {
    Pow256Values();
    var data := p + EncodeHeader(h) + q;
    var a := |p|;
    HeaderFields32(p, h, q);
    ReadUnsignedAt(data, a, end, 4, h.unitLength);
    ReadUnsignedAt(data, a + 4, end, 2, h.version);
    ReadUnsignedAt(data, a + 6, end, 4, h.abbrevOffset);
    ReadUnsignedAt(data, a + 10, end, 1, h.addressSize);
  }

  /** `cus` lie back to back from `from`, each one read from its offset and
      ending no later than `to`, the last one exactly at `to`. */
  predicate Tiles(info: seq<byte>, cus: seq<CompilationUnit>, from: nat, to: nat)
    requires to <= |info|
    decreases |cus|
  {
    if cus == [] then from >= to
    else
      && cus[0].offset == from
      && from < to
      && ReadCompilationUnitHeader(info, from, to) == Ok(cus[0].header)
      && UnitEnd(cus[0]) <= to
      && Tiles(info, cus[1..], UnitEnd(cus[0]), to)
  }

  /** Every unit of a tiling has a valid header and lies inside the
      section. */
  lemma {:induction false} TilesValid(info: seq<byte>, cus: seq<CompilationUnit>, from: nat, to: nat)
    requires to <= |info| && Tiles(info, cus, from, to)
    ensures forall i :: 0 <= i < |cus| ==> ValidHeader(cus[i].header) && UnitEnd(cus[i]) <= to
    decreases |cus|
  {
    if cus != [] {
      TilesValid(info, cus[1..], UnitEnd(cus[0]), to);
      forall i | 1 <= i < |cus|
        ensures ValidHeader(cus[i].header) && UnitEnd(cus[i]) <= to
      {
        assert cus[i] == cus[1..][i - 1];
      }
    }
  }

  /** The units of `cus` all come from file `file`. */
  predicate FromFile(cus: seq<CompilationUnit>, file: nat)
  {
    forall i :: 0 <= i < |cus| ==> cus[i].file == file
  }

  /** The walk over the units of file `file`'s .debug_info from `ptr` on:
      each unit starts where the previous one ends, and a unit that claims
      to extend past the section is rejected. */
  function ReadCus(info: seq<byte>, ptr: nat, file: nat): (r: Result<seq<CompilationUnit>>)
    ensures r.Ok? ==> Tiles(info, r.value, ptr, |info|)
    decreases |info| - ptr
  {
    if ptr >= |info| then Ok([])
    else
      var h :- ReadCompilationUnitHeader(info, ptr, |info|);
      var cu := CompilationUnit(ptr, h, file);
      if UnitEnd(cu) > |info| then Err(FormatError("compilation unit extends beyond .debug_info"))
      else
        var rest :- ReadCus(info, UnitEnd(cu), file);
        Ok([cu] + rest)
  }

  /** The checked walk returns exactly the tilings of the rest of the
      section: it succeeds with `cus` if and only if `cus` tile .debug_info
      from `ptr` to its end. */
  lemma {:induction false} ReadCusExact(info: seq<byte>, ptr: nat, file: nat, cus: seq<CompilationUnit>)
    ensures ReadCus(info, ptr, file) == Ok(cus) <==> Tiles(info, cus, ptr, |info|) && FromFile(cus, file)
    decreases |info| - ptr
  {
    var r := ReadCus(info, ptr, file);
    if ptr < |info| {
      var h := ReadCompilationUnitHeader(info, ptr, |info|);
      if h.Ok? {
        var cu := CompilationUnit(ptr, h.value, file);
        if UnitEnd(cu) <= |info| {
          if cus != [] {
            ReadCusExact(info, UnitEnd(cu), file, cus[1..]);
            assert cus == [cus[0]] + cus[1..];
            assert FromFile(cus, file) <==> cus[0].file == file && FromFile(cus[1..], file) by {
              if cus[0].file == file && FromFile(cus[1..], file) {
                forall i | 0 <= i < |cus|
                  ensures cus[i].file == file
                {
                  if i > 0 {
                    assert cus[i] == cus[1..][i - 1];
                  }
                }
              }
            }
          }
          var rest := ReadCus(info, UnitEnd(cu), file);
          if rest.Ok? {
            assert r == Ok([cu] + rest.value);
            assert ([cu] + rest.value)[1..] == rest.value;
          }
        }
      }
    }
  }

  /** How a bounded run of read_cus as written ends: with the units, with
      an error, about to read a header that starts before the section (with
      the units read so far), or still running when the fuel is spent. */
  datatype CusOutcome =
    | UnitsRead(cus: seq<CompilationUnit>)
    | CusFailed(error: Error)
    | BeforeSection(cus: seq<CompilationUnit>)
    | CusUnfinished

  /** Puts a unit in front of whatever the rest of the walk read. */
  function Prepend(cu: CompilationUnit, rest: CusOutcome): (r: CusOutcome)
    ensures r.UnitsRead? <==> rest.UnitsRead?
    ensures r.BeforeSection? <==> rest.BeforeSection?
    ensures r.UnitsRead? || r.BeforeSection? ==> r.cus == [cu] + rest.cus
    ensures !r.UnitsRead? && !r.BeforeSection? ==> r == rest
  {
    match rest
    case UnitsRead(cus) => UnitsRead([cu] + cus)
    case BeforeSection(cus) => BeforeSection([cu] + cus)
    case _ => rest
  }

  /** `x` wrapped into 64 bits: x mod 2^64. */
  function Wrap64(x: nat): (r: nat)
    ensures r < U64_LIMIT
    decreases x
  {
    if x < U64_LIMIT then x else Wrap64(x - U64_LIMIT)
  }

  /** Wrap64 is the remainder modulo 2^64. */
  lemma {:induction false} Wrap64IsMod(x: nat)
    ensures Wrap64(x) == x % U64_LIMIT
    decreases x
  {
    if x >= U64_LIMIT {
      Wrap64IsMod(x - U64_LIMIT);
    }
  }

  /** Where the walk as written goes after the unit at `ptr`: the C adds
      (4 or 12) + unit_length in uint64 arithmetic and adds the sum to the
      pointer, so the address wraps at 2^64. `base` is the address
      .debug_info is mapped at; the result is the new address relative to
      it, negative when the walk has moved before the section. */
  function NextAsWritten(base: nat, ptr: nat, h: Header): int
  {
    Wrap64(base + ptr + Wrap64(LengthSize(h.is64) + h.unitLength)) - base
  }

  /** The walk as the indexer writes it, for at most `fuel` units, over a
      .debug_info mapped at address `base`: it steps by the unit length,
      wrapped at 2^64, with no check that the unit ends inside the section,
      and it reads on while the pointer lies below the section's end. */
  function ReadCusAsWritten(info: seq<byte>, base: nat, ptr: nat, file: nat, fuel: nat): (r: CusOutcome)
    requires base + |info| < U64_LIMIT
    ensures r.UnitsRead? || r.BeforeSection? ==>
              forall i :: 0 <= i < |r.cus| ==> r.cus[i].file == file && r.cus[i].offset < |info|
    decreases fuel
  {
    if ptr >= |info| then UnitsRead([])
    else if fuel == 0 then CusUnfinished
    else
      match ReadCompilationUnitHeader(info, ptr, |info|)
      case Err(e) => CusFailed(e)
      case Ok(h) =>
        var cu := CompilationUnit(ptr, h, file);
        var next := NextAsWritten(base, ptr, h);
        Prepend(cu, if next < 0 then BeforeSection([]) else ReadCusAsWritten(info, base, next, file, fuel - 1))
  }

  /** A unit that ends inside the section is stepped over exactly as the
      checked walk steps: no wrap can occur. */
  lemma NextInSection(info: seq<byte>, base: nat, cu: CompilationUnit)
    requires base + |info| < U64_LIMIT && UnitEnd(cu) <= |info|
    ensures NextAsWritten(base, cu.offset, cu.header) == UnitEnd(cu)
  {
  }

  /** The step of a unit whose initial length and unit length add up to
      2^64 - `back` takes the pointer `back` bytes back, wherever the
      section lies above address `back`. */
  lemma WrappedStep(base: nat, h: Header, back: nat)
    requires back <= base && base < U64_LIMIT
    requires LengthSize(h.is64) + h.unitLength == U64_LIMIT - back
    ensures NextAsWritten(base, 0, h) == -(back as int)
  {
    if back == 0 {
      assert Wrap64(U64_LIMIT) == 0 by {
        assert Wrap64(U64_LIMIT) == Wrap64(0);
      }
    } else {
      assert base + (U64_LIMIT - back) == U64_LIMIT + (base - back);
      assert Wrap64(U64_LIMIT + (base - back)) == Wrap64(base - back);
    }
  }

  /** Wherever the checked walk succeeds, the walk as written, given a turn
      for every byte left, finds the same units. */
  lemma AsWrittenAgrees(info: seq<byte>, base: nat, ptr: nat, file: nat, fuel: nat)
    requires base + |info| < U64_LIMIT
    requires ReadCus(info, ptr, file).Ok? && fuel >= |info| - ptr
    ensures ReadCusAsWritten(info, base, ptr, file, fuel) == UnitsRead(ReadCus(info, ptr, file).value)
  {
    var cus := ReadCus(info, ptr, file).value;
    ReadCusExact(info, ptr, file, cus);
    TilesAsWritten(info, base, cus, ptr, file, fuel);
  }

  /** The walk as written reads every tiling of the rest of the section. */
  lemma {:induction false} TilesAsWritten(info: seq<byte>, base: nat, cus: seq<CompilationUnit>, ptr: nat,
                                          file: nat, fuel: nat)
    requires base + |info| < U64_LIMIT
    requires Tiles(info, cus, ptr, |info|) && FromFile(cus, file) && fuel >= |info| - ptr
    ensures ReadCusAsWritten(info, base, ptr, file, fuel) == UnitsRead(cus)
    decreases |cus|
  {
    if cus != [] {
      var rest := cus[1..];
      assert FromFile(rest, file) by {
        forall i | 0 <= i < |rest|
          ensures rest[i].file == file
        {
          assert rest[i] == cus[i + 1];
        }
      }
      TilesAsWritten(info, base, rest, UnitEnd(cus[0]), file, fuel - 1);
      TilesAsWrittenStep(info, base, cus, ptr, file, fuel);
    }
  }

  /** One step of TilesAsWritten: the first unit of the tiling, then the
      rest as the walk from its end reads it. */
  lemma TilesAsWrittenStep(info: seq<byte>, base: nat, cus: seq<CompilationUnit>, ptr: nat, file: nat, fuel: nat)
    requires base + |info| < U64_LIMIT && cus != []
    requires Tiles(info, cus, ptr, |info|) && cus[0].file == file && fuel >= 1
    requires ReadCusAsWritten(info, base, UnitEnd(cus[0]), file, fuel - 1) == UnitsRead(cus[1..])
    ensures ReadCusAsWritten(info, base, ptr, file, fuel) == UnitsRead(cus)
  {
    var cu := cus[0];
    var after := ReadCusAsWritten(info, base, UnitEnd(cu), file, fuel - 1);
    AsWrittenStep(info, base, ptr, file, cu, fuel, after);
    PrependUnits(cu, after, cus[1..]);
    assert [cu] + cus[1..] == cus;
  }

  /** One unit that ends inside the section: the walk as written steps to
      its end. */
  lemma AsWrittenStep(info: seq<byte>, base: nat, ptr: nat, file: nat, cu: CompilationUnit, fuel: nat, after: CusOutcome)
    requires base + |info| < U64_LIMIT && ptr < |info| && fuel >= 1
    requires cu.offset == ptr && cu.file == file
    requires ReadCompilationUnitHeader(info, ptr, |info|) == Ok(cu.header)
    requires UnitEnd(cu) <= |info|
    requires after == ReadCusAsWritten(info, base, UnitEnd(cu), file, fuel - 1)
    ensures ReadCusAsWritten(info, base, ptr, file, fuel) == Prepend(cu, after)
  {
    NextInSection(info, base, cu);
  }

  lemma PrependUnits(cu: CompilationUnit, rest: CusOutcome, cus: seq<CompilationUnit>)
    requires rest == UnitsRead(cus)
    ensures Prepend(cu, rest) == UnitsRead([cu] + cus)
  {
  }

  /** A unit whose step brings the walk back to its own start makes the
      walk as written read that unit again and again. */
  lemma {:induction false} StallDiverges(info: seq<byte>, base: nat, ptr: nat, file: nat, h: Header, fuel: nat)
    requires base + |info| < U64_LIMIT && ptr < |info|
    requires ReadCompilationUnitHeader(info, ptr, |info|) == Ok(h)
    requires NextAsWritten(base, ptr, h) == ptr
    ensures ReadCusAsWritten(info, base, ptr, file, fuel) == CusUnfinished
    decreases fuel
  {
    if fuel > 0 {
      StallDiverges(info, base, ptr, file, h, fuel - 1);
    }
  }

  /** An 11-byte .debug_info holding one 32-bit header that claims 100
      bytes of DIEs. */
  const OverlongUnit: seq<byte> := [100, 0, 0, 0, 4, 0, 0, 0, 0, 0, 8]

  /** The walk as written accepts a unit whose end lies 93 bytes past the
      section, so the DIE reader is later handed an end pointer outside
      .debug_info; the checked walk rejects it. */
  lemma OverlongUnitAccepted(base: nat, fuel: nat)
    requires base + 104 < U64_LIMIT && fuel >= 1
    ensures var r := ReadCusAsWritten(OverlongUnit, base, 0, 0, fuel);
            r.UnitsRead? && |r.cus| == 1 && UnitEnd(r.cus[0]) == 104 > |OverlongUnit|
    ensures ReadCus(OverlongUnit, 0, 0) == Err(FormatError("compilation unit extends beyond .debug_info"))
  {
    var h := Header(100, 4, 0, 8, false);
    assert OverlongUnit == [] + EncodeHeader(h) + [];
    ReadEncodedHeader([], h, [], 11);
    assert NextAsWritten(base, 0, h) == 104;
    assert ReadCusAsWritten(OverlongUnit, base, 104, 0, fuel - 1) == UnitsRead([]);
  }

  /** A 64-bit header whose unit length is 2^64 - 12, and the 23-byte
      .debug_info that holds it. */
  const StallHeader: Header := Header(0xffff_ffff_ffff_fff4, 4, 0, 8, true)
  const StallUnit: seq<byte> := EncodeHeader(StallHeader)

  /** The same with a unit length of 2^64 - 13. */
  const BackHeader: Header := Header(0xffff_ffff_ffff_fff3, 4, 0, 8, true)
  const BackUnit: seq<byte> := EncodeHeader(BackHeader)

  /** With a unit length of 2^64 - 12 the uint64 step is 0: the walk as
      written reads the same unit for ever (in the C, until the array of
      units can grow no more), while the checked walk rejects the unit. */
  lemma WrapStalls(base: nat, fuel: nat)
    requires base + 23 < U64_LIMIT
    ensures ReadCusAsWritten(StallUnit, base, 0, 0, fuel) == CusUnfinished
    ensures ReadCus(StallUnit, 0, 0) == Err(FormatError("compilation unit extends beyond .debug_info"))
  {
    var h := StallHeader;
    assert StallUnit == [] + EncodeHeader(h) + [];
    ReadEncodedHeader([], h, [], 23);
    WrappedStep(base, h, 0);
    StallDiverges(StallUnit, base, 0, 0, h, fuel);
  }

  /** With a unit length of 2^64 - 13 the step is 2^64 - 1, which moves the
      pointer one byte back: the walk as written goes on to read a header
      before the section, while the checked walk rejects the unit. */
  lemma WrapStepsBack(base: nat, fuel: nat)
    requires 1 <= base && base + 23 < U64_LIMIT && fuel >= 1
    ensures ReadCusAsWritten(BackUnit, base, 0, 0, fuel) == BeforeSection([CompilationUnit(0, BackHeader, 0)])
    ensures ReadCus(BackUnit, 0, 0) == Err(FormatError("compilation unit extends beyond .debug_info"))
  {
    var h := BackHeader;
    assert BackUnit == [] + EncodeHeader(h) + [];
    ReadEncodedHeader([], h, [], 23);
    WrappedStep(base, h, 1);
    assert ReadCusAsWritten(BackUnit, base, 0, 0, fuel) == Prepend(CompilationUnit(0, h, 0), BeforeSection([]));
  }
}

=== FILE: cursor.dfy ===
/** The byte-cursor primitives the indexer builds every decoder from: the
    bounds check, fixed-width little-endian reads, NUL-terminated strings and
    unsigned LEB128 (section 7.6 of DWARF Version 4).

    A cursor is an offset into a section's bytes and `end` is the offset one
    past the last byte a read may touch. A failed read returns an error and
    no cursor, so the caller's cursor is left where it was. */
module Cursor {
  import opened Base

  /** A decoded value and the cursor just past it. */
  datatype Decoded<+T> = Decoded(value: T, next: nat)

  /** At least `size` bytes lie between `ptr` and `end`. */
  predicate InBounds(ptr: nat, end: nat, size: nat)
  {
    ptr <= end && end - ptr >= size
  }

  /** Reads a `width`-byte unsigned integer stored little-endian. */
  function ReadUnsigned(data: seq<byte>, ptr: nat, end: nat, width: nat): (r: Result<Decoded<nat>>)
    requires end <= |data|
    ensures r.Ok? <==> ptr + width <= end
    ensures r.Err? ==> r.error == EndOfFile
    ensures r.Ok? ==> r.value.next == ptr + width && r.value.value < Pow256(width)
  {
    if !InBounds(ptr, end, width) then Err(EndOfFile)
    else Ok(Decoded(LittleEndian(data[ptr..ptr + width]), ptr + width))
  }

  /** Reading back an integer written little-endian at `|p|` yields it,
      truncated to the width, and advances the cursor by exactly the width. */
  lemma ReadUnsignedEncoded(p: seq<byte>, v: nat, width: nat, q: seq<byte>, end: nat)
    requires |p| + width <= end <= |p| + width + |q|
    ensures ReadUnsigned(p + EncodeLittleEndian(v, width) + q, |p|, end, width)
            == Ok(Decoded(v % Pow256(width), |p| + width))
  {
    var data := p + EncodeLittleEndian(v, width) + q;
    assert data[|p|..|p| + width] == EncodeLittleEndian(v, width);
    DecodeEncode(v, width);
  }

  /** Reading where a `width`-byte encoding of `v` lies yields `v`. */
  lemma ReadUnsignedAt(data: seq<byte>, ptr: nat, end: nat, width: nat, v: nat)
    requires ptr + width <= end <= |data|
    requires v < Pow256(width)
    requires data[ptr..ptr + width] == EncodeLittleEndian(v, width)
    ensures ReadUnsigned(data, ptr, end, width) == Ok(Decoded(v, ptr + width))
  {
    DecodeEncode(v, width);
    DivModUnique(v, Pow256(width), 0, v);
  }

  /** No byte of data[from..to] is NUL. */
  predicate NoNul(data: seq<byte>, from: nat, to: nat)
    requires to <= |data|
  {
    forall k :: from <= k < to ==> data[k] != 0
  }

  /** The offset of the first NUL byte in data[from..end], if there is one. */
  function FindNul(data: seq<byte>, from: nat, end: nat): (r: Option<nat>)
    requires end <= |data|
    ensures r.Some? ==> from <= r.value < end && data[r.value] == 0 && NoNul(data, from, r.value)
    ensures r.None? ==> NoNul(data, from, end)
    decreases end - from
  {
    if from >= end then None
    else if data[from] == 0 then Some(from)
    else FindNul(data, from + 1, end)
  }

  /** Reads a NUL-terminated string; the value is its bytes without the NUL. */
  function ReadString(data: seq<byte>, ptr: nat, end: nat): (r: Result<Decoded<seq<byte>>>)
    requires end <= |data|
    ensures r.Ok? <==> ptr < end && !NoNul(data, ptr, end)
    ensures r.Err? ==> r.error == EndOfFile
    ensures r.Ok? ==>
              var len := |r.value.value|;
              && ptr + len < end
              && r.value.value == data[ptr..ptr + len]
              && 0 !in r.value.value
              && NoNul(data, ptr, ptr + len)
              && data[ptr + len] == 0
              && r.value.next == ptr + len + 1
  {
    if ptr >= end then Err(EndOfFile)
    else
      match FindNul(data, ptr, end)
      case None => Err(EndOfFile)
      case Some(nul) => Ok(Decoded(data[ptr..nul], nul + 1))
  }

  /** Skips a NUL-terminated string. */
  function SkipString(data: seq<byte>, ptr: nat, end: nat): (r: Result<nat>)
    requires end <= |data|
    ensures r.Ok? <==> ptr < end && !NoNul(data, ptr, end)
    ensures r.Err? ==> r.error == EndOfFile
    ensures r.Ok? ==> ptr < r.value <= end && data[r.value - 1] == 0 && NoNul(data, ptr, r.value - 1)
  {
    if ptr >= end then Err(EndOfFile)
    else
      match FindNul(data, ptr, end)
      case None => Err(EndOfFile)
      case Some(nul) => Ok(nul + 1)
  }

  /** Skipping a string lands exactly where reading it does. */
  lemma SkipStringAgreesWithRead(data: seq<byte>, ptr: nat, end: nat)
    requires end <= |data|
    ensures SkipString(data, ptr, end).Ok? <==> ReadString(data, ptr, end).Ok?
    ensures SkipString(data, ptr, end).Ok? ==>
              SkipString(data, ptr, end).value == ReadString(data, ptr, end).value.next
  {
    var s := SkipString(data, ptr, end);
    var r := ReadString(data, ptr, end);
    if s.Ok? {
      var a := s.value - 1;
      var b := r.value.next - 1;
      assert data[a] == 0 && data[b] == 0;
    }
  }

  /** Where a string and its NUL lie, the string has no NUL and the NUL
      follows it. */
  lemma StringAt(data: seq<byte>, ptr: nat, s: seq<byte>)
    requires 0 !in s && Occurs(data, ptr, s + [0])
    ensures ptr + |s| < |data| && data[ptr + |s|] == 0
    ensures NoNul(data, ptr, ptr + |s|) && data[ptr..ptr + |s|] == s
  {
    OccursSlice(data, ptr, s + [0]);
    var e := data[ptr..ptr + |s| + 1];
    assert data[ptr + |s|] == e[|s|];
    forall k | ptr <= k < ptr + |s|
      ensures data[k] != 0
    {
      assert data[k] == e[k - ptr] == s[k - ptr];
    }
    assert data[ptr..ptr + |s|] == e[..|s|];
  }

  /** Reading where a string and its NUL lie yields the string. */
  lemma ReadStringAt(data: seq<byte>, ptr: nat, s: seq<byte>)
    requires 0 !in s && Occurs(data, ptr, s + [0])
    ensures ReadString(data, ptr, |data|) == Ok(Decoded(s, ptr + |s| + 1))
  {
    StringAt(data, ptr, s);
    var r := ReadString(data, ptr, |data|);
    assert !NoNul(data, ptr, |data|) by {
      assert data[ptr + |s|] == 0;
    }
    var len := |r.value.value|;
    assert data[ptr + len] == 0 && data[ptr + |s|] == 0;
  }

  /** In ULEB128 a byte with the 0x80 bit set is followed by another byte. */
  predicate Continues(b: byte)
  {
    b >= 0x80
  }

  /** The payload of a ULEB128 byte: `byte & 0x7f`. */
  function Low7(b: byte): nat
  {
    b % 0x80
  }

  /** `x << 7k`: a payload moved into the place of the k-th byte. */
  function Shift7(x: nat, k: nat): nat
  {
    if k == 0 then x else 128 * Shift7(x, k - 1)
  }

  lemma {:induction false} ShiftAdd(a: nat, b: nat, k: nat)
    ensures Shift7(a + b, k) == Shift7(a, k) + Shift7(b, k)
  {
    if k > 0 {
      ShiftAdd(a, b, k - 1);
    }
  }

  lemma {:induction false} ShiftSucc(x: nat, k: nat)
    ensures Shift7(128 * x, k) == Shift7(x, k + 1)
  {
    if k > 0 {
      ShiftSucc(x, k - 1);
    }
  }

  lemma {:induction false} ShiftMono(a: nat, b: nat, k: nat)
    requires a <= b
    ensures Shift7(a, k) <= Shift7(b, k)
  {
    if k > 0 {
      ShiftMono(a, b, k - 1);
    }
  }

  lemma {:induction false} ShiftGrows(x: nat, i: nat, j: nat)
    requires i <= j
    ensures Shift7(x, i) <= Shift7(x, j)
  {
    if i < j {
      ShiftGrows(x, i, j - 1);
    }
  }

  /** Bit 63 is the place of the low bit of the tenth byte. */
  lemma ShiftNine()
    ensures Shift7(1, 9) == 0x8000_0000_0000_0000
  {
    assert Shift7(1, 3) == 0x20_0000;
    assert Shift7(1, 6) == 0x400_0000_0000;
  }

  /** Every byte of data[from..to] has its continuation bit set. */
  predicate AllContinue(data: seq<byte>, from: nat, to: nat)
    requires to <= |data|
  {
    forall k :: from <= k < to ==> Continues(data[k])
  }

  /** The value of a ULEB128 byte string: the sum of low7(s[k]) << 7k. */
  function UlebValue(s: seq<byte>): nat
  {
    if s == [] then 0 else Low7(s[0]) + 128 * UlebValue(s[1..])
  }

  /** Placing a byte's payload and then the rest one place higher places
      the whole string. */
  lemma PlaceStep(acc: nat, low: nat, u: nat, k: nat)
    ensures acc + Shift7(low, k) + Shift7(u, k + 1) == acc + Shift7(low + 128 * u, k)
  {
    ShiftAdd(low, 128 * u, k);
    ShiftSucc(u, k);
  }

  /** Bits below place k stay below place k + 1 after the k-th payload. */
  lemma PlaceBound(acc: nat, low: nat, k: nat)
    requires acc < Shift7(1, k) && low < 128
    ensures acc + Shift7(low, k) < Shift7(1, k + 1)
  {
    ShiftAdd(1, low, k);
    ShiftMono(1 + low, 128, k);
    ShiftSucc(1, k);
  }

  /** The loop of `read_uleb128` from its k-th byte, where the shift is 7k
      and `acc` holds the bits gathered so far. A byte above 1 at shift 63
      would not fit in 64 bits. Because the bit ranges of the bytes are
      disjoint, OR-ing the shifted payload into `acc` is the same as adding
      it. */
  function ReadUlebFrom(data: seq<byte>, ptr: nat, end: nat, k: nat, acc: nat): (r: Result<Decoded<nat>>)
    requires end <= |data| && k <= 9
    ensures r.Err? ==> r.error == EndOfFile || r.error == Overflow
    ensures r.Ok? ==> ptr < r.value.next <= end && r.value.next <= ptr + (10 - k)
    decreases 9 - k
  {
    if ptr >= end then Err(EndOfFile)
    else if k == 9 && data[ptr] > 1 then Err(Overflow)
    else
      var acc' := acc + Shift7(Low7(data[ptr]), k);
      if !Continues(data[ptr]) then Ok(Decoded(acc', ptr + 1))
      else ReadUlebFrom(data, ptr + 1, end, k + 1, acc')
  }

  /** Where the loop stops and why: it runs out of bytes when every byte
      up to `end` continues before the tenth; it overflows when the first
      nine continue and the tenth exceeds 1; otherwise it stops just past
      the first byte without the continuation bit. */
  lemma {:induction false} ReadUlebFromShape(data: seq<byte>, ptr: nat, end: nat, k: nat, acc: nat)
    requires end <= |data| && k <= 9
    ensures var r := ReadUlebFrom(data, ptr, end, k, acc);
            && (r == Err(EndOfFile) <==> end <= ptr + (9 - k) && AllContinue(data, ptr, end))
            && (r == Err(Overflow) <==>
                  ptr + (9 - k) < end && AllContinue(data, ptr, ptr + (9 - k)) && data[ptr + (9 - k)] > 1)
            && (r.Ok? ==> AllContinue(data, ptr, r.value.next - 1) && !Continues(data[r.value.next - 1]))
    decreases 9 - k
  {
    var r := ReadUlebFrom(data, ptr, end, k, acc);
    if ptr >= end {
      assert r == Err(EndOfFile);
    } else if k == 9 && data[ptr] > 1 {
      assert r == Err(Overflow);
    } else {
      var acc' := acc + Shift7(Low7(data[ptr]), k);
      if !Continues(data[ptr]) {
        assert r == Ok(Decoded(acc', ptr + 1));
        assert !AllContinue(data, ptr, end);
      } else {
        assert r == ReadUlebFrom(data, ptr + 1, end, k + 1, acc');
        ReadUlebFromShape(data, ptr + 1, end, k + 1, acc');
      }
    }
  }

  /** What the loop accumulates: the payloads of the bytes it consumed,
      shifted into place, and no more than 64 bits of them. */
  lemma {:induction false} ReadUlebFromValue(data: seq<byte>, ptr: nat, end: nat, k: nat, acc: nat)
    requires end <= |data| && k <= 9
    requires ReadUlebFrom(data, ptr, end, k, acc).Ok?
    ensures var d := ReadUlebFrom(data, ptr, end, k, acc).value;
            d.value == acc + Shift7(UlebValue(data[ptr..d.next]), k)
    ensures acc < Shift7(1, k) ==> ReadUlebFrom(data, ptr, end, k, acc).value.value < U64_LIMIT
    decreases 9 - k
  {
    var d := ReadUlebFrom(data, ptr, end, k, acc).value;
    var b := data[ptr];
    var low := Low7(b);
    var acc' := acc + Shift7(low, k);
    var s := data[ptr..d.next];
    assert s[0] == b;
    assert UlebValue(s) == low + 128 * UlebValue(s[1..]);
    if !Continues(b) {
      assert d == Decoded(acc', ptr + 1);
      assert s[1..] == [];
      assert d.value == acc + Shift7(UlebValue(s), k);
      if acc < Shift7(1, k) {
        ShiftNine();
        if k < 9 {
          PlaceBound(acc, low, k);
          ShiftGrows(1, k + 1, 9);
        } else {
          ShiftMono(low, 1, 9);
        }
      }
    } else {
      assert d == ReadUlebFrom(data, ptr + 1, end, k + 1, acc').value;
      ReadUlebFromValue(data, ptr + 1, end, k + 1, acc');
      assert s[1..] == data[ptr + 1..d.next];
      PlaceStep(acc, low, UlebValue(s[1..]), k);
      assert d.value == acc + Shift7(UlebValue(s), k);
      if acc < Shift7(1, k) {
        PlaceBound(acc, low, k);
      }
    }
  }

  /** Reads an unsigned LEB128 number of at most 64 bits. */
  function ReadUleb128(data: seq<byte>, ptr: nat, end: nat): (r: Result<Decoded<nat>>)
    requires end <= |data|
    ensures r.Err? ==> r.error == EndOfFile || r.error == Overflow
    ensures r.Ok? ==>
              && ptr < r.value.next <= end
              && r.value.next <= ptr + 10
              && r.value.value == UlebValue(data[ptr..r.value.next])
              && r.value.value < U64_LIMIT
  {
    var r := ReadUlebFrom(data, ptr, end, 0, 0);
    if r.Ok? then ReadUlebFromStart(data, ptr, end); r else r
  }

  /** The loop started with no bits gathered yields exactly the value of the
      bytes it consumed. */
  lemma ReadUlebFromStart(data: seq<byte>, ptr: nat, end: nat)
    requires end <= |data|
    requires ReadUlebFrom(data, ptr, end, 0, 0).Ok?
    ensures var d := ReadUlebFrom(data, ptr, end, 0, 0).value;
            d.value == UlebValue(data[ptr..d.next]) && d.value < U64_LIMIT
  {
    var d := ReadUlebFrom(data, ptr, end, 0, 0).value;
    ReadUlebFromValue(data, ptr, end, 0, 0);
  }

  /** Reading a ULEB128 number fails with EOFError exactly when the bytes
      up to `end` all continue and there are at most nine of them, and with
      OverflowError exactly when nine continuing bytes are followed by one
      above 1; a number that is read ends at its first byte without the
      continuation bit. */
  lemma ReadUlebOutcome(data: seq<byte>, ptr: nat, end: nat)
    requires end <= |data|
    ensures var r := ReadUleb128(data, ptr, end);
            && (r == Err(EndOfFile) <==> end <= ptr + 9 && AllContinue(data, ptr, end))
            && (r == Err(Overflow) <==> ptr + 9 < end && AllContinue(data, ptr, ptr + 9) && data[ptr + 9] > 1)
            && (r.Ok? ==> AllContinue(data, ptr, r.value.next - 1) && !Continues(data[r.value.next - 1]))
  {
    ReadUlebFromShape(data, ptr, end, 0, 0);
  }

  /** Skips a LEB128 number of any length, without an overflow check. */
  function SkipLeb128(data: seq<byte>, ptr: nat, end: nat): (r: Result<nat>)
    requires end <= |data|
    ensures r.Err? <==> AllContinue(data, ptr, end)
    ensures r.Err? ==> r.error == EndOfFile
    ensures r.Ok? ==>
              ptr < r.value <= end && AllContinue(data, ptr, r.value - 1) && !Continues(data[r.value - 1])
    decreases end - ptr
  {
    if ptr >= end then Err(EndOfFile)
    else if !Continues(data[ptr]) then Ok(ptr + 1)
    else SkipLeb128(data, ptr + 1, end)
  }

  /** Wherever a ULEB128 number can be read, skipping it stops at the same
      place. */
  lemma SkipAgreesWithRead(data: seq<byte>, ptr: nat, end: nat)
    requires end <= |data|
    requires ReadUleb128(data, ptr, end).Ok?
    ensures SkipLeb128(data, ptr, end) == Ok(ReadUleb128(data, ptr, end).value.next)
  {
    var m := ReadUleb128(data, ptr, end).value.next;
    ReadUlebOutcome(data, ptr, end);
    assert !Continues(data[m - 1]);
    var s := SkipLeb128(data, ptr, end);
    var n := s.value;
    assert !Continues(data[n - 1]) && !Continues(data[m - 1]);
  }

  /** A ULEB128 string in which every byte but the last continues. */
  predicate UlebShape(s: seq<byte>)
  {
    |s| >= 1 && if |s| == 1 then !Continues(s[0]) else Continues(s[0]) && UlebShape(s[1..])
  }

  /** A ULEB128 string the reader accepts whole: a tenth byte may carry
      only bit 63. */
  predicate WellFormedUleb(s: seq<byte>)
  {
    UlebShape(s) && |s| <= 10 && (|s| == 10 ==> s[9] <= 1)
  }

  /** From its k-th byte on, the loop reads a string that fits in the
      remaining places to its end and gathers its payloads into place. */
  lemma {:induction false} ReadUlebFromShaped(data: seq<byte>, ptr: nat, end: nat, k: nat, acc: nat, s: seq<byte>)
    requires end <= |data| && k <= 9
    requires ptr + |s| <= end && data[ptr..ptr + |s|] == s
    requires UlebShape(s) && k + |s| <= 10 && (k + |s| == 10 ==> s[|s| - 1] <= 1)
    ensures ReadUlebFrom(data, ptr, end, k, acc) == Ok(Decoded(acc + Shift7(UlebValue(s), k), ptr + |s|))
    decreases |s|
  {
    assert data[ptr] == s[0];
    var t := s[1..];
    var low := Low7(s[0]);
    var acc' := acc + Shift7(low, k);
    assert UlebValue(s) == low + 128 * UlebValue(t);
    if |s| == 1 {
      assert t == [];
      assert ReadUlebFrom(data, ptr, end, k, acc) == Ok(Decoded(acc', ptr + 1));
    } else {
      assert data[ptr + 1..ptr + 1 + |t|] == t;
      assert t[|t| - 1] == s[|s| - 1];
      assert ReadUlebFrom(data, ptr, end, k, acc) == ReadUlebFrom(data, ptr + 1, end, k + 1, acc');
      ReadUlebFromShaped(data, ptr + 1, end, k + 1, acc', t);
      PlaceStep(acc, low, UlebValue(t), k);
    }
  }

  /** Reading a well-formed ULEB128 string written at `|p|` yields its value
      and stops just past it, whatever follows. */
  lemma ReadUlebWellFormed(p: seq<byte>, s: seq<byte>, q: seq<byte>, end: nat)
    requires WellFormedUleb(s)
    requires |p| + |s| <= end <= |p| + |s| + |q|
    ensures ReadUleb128(p + s + q, |p|, end) == Ok(Decoded(UlebValue(s), |p| + |s|))
  {
    var data := p + s + q;
    assert data[|p|..|p| + |s|] == s;
    ReadUlebFromShaped(data, |p|, end, 0, 0, s);
  }

  /** The shortest ULEB128 encoding of `v`. */
  function EncodeUleb(v: nat): (s: seq<byte>)
    ensures |s| >= 1
    decreases v
  {
    if v < 0x80 then [v] else [v % 0x80 + 0x80] + EncodeUleb(v / 0x80)
  }

  /** The encoding holds the value, every byte but its last continues, and
      a value below 2 << 7k takes at most k + 1 bytes, the last of them at
      most 1 when it takes all k + 1. */
  lemma {:induction false} EncodeUlebFits(v: nat, k: nat)
    requires v < Shift7(2, k)
    ensures UlebValue(EncodeUleb(v)) == v
    ensures UlebShape(EncodeUleb(v))
    ensures |EncodeUleb(v)| <= k + 1
    ensures |EncodeUleb(v)| == k + 1 ==> EncodeUleb(v)[k] <= 1
  {
    var e := EncodeUleb(v);
    if v >= 0x80 {
      assert k > 0;
      var v' := v / 0x80;
      assert v' < Shift7(2, k - 1);
      EncodeUlebFits(v', k - 1);
      var t := EncodeUleb(v');
      assert e[1..] == t;
      assert Low7(e[0]) == v % 0x80;
      assert |e| == k + 1 ==> e[k] == t[k - 1];
    }
  }

  /** Decoding the encoding of any 64-bit value gives it back and consumes
      exactly the encoding. */
  lemma ReadUlebEncoded(p: seq<byte>, v: nat, q: seq<byte>, end: nat)
    requires v < U64_LIMIT
    requires |p| + |EncodeUleb(v)| <= end <= |p| + |EncodeUleb(v)| + |q|
    ensures ReadUleb128(p + EncodeUleb(v) + q, |p|, end) == Ok(Decoded(v, |p| + |EncodeUleb(v)|))
  {
    ShiftNine();
    ShiftAdd(1, 1, 9);
    EncodeUlebFits(v, 9);
    ReadUlebWellFormed(p, EncodeUleb(v), q, end);
  }

  /** Reading where the encoding of a 64-bit value lies yields it. */
  lemma ReadUlebAt(data: seq<byte>, ptr: nat, v: nat)
    requires v < U64_LIMIT && Occurs(data, ptr, EncodeUleb(v))
    ensures ReadUleb128(data, ptr, |data|) == Ok(Decoded(v, ptr + |EncodeUleb(v)|))
  {
    OccursSlice(data, ptr, EncodeUleb(v));
    var p := data[..ptr];
    var q := data[ptr + |EncodeUleb(v)|..];
    assert data == p + EncodeUleb(v) + q;
    ReadUlebEncoded(p, v, q, |data|);
  }

  /** Skipping where the encoding of a 64-bit value lies steps over it. */
  lemma SkipUlebAt(data: seq<byte>, ptr: nat, v: nat)
    requires v < U64_LIMIT && Occurs(data, ptr, EncodeUleb(v))
    ensures SkipLeb128(data, ptr, |data|) == Ok(ptr + |EncodeUleb(v)|)
  {
    ReadUlebAt(data, ptr, v);
    SkipAgreesWithRead(data, ptr, |data|);
  }
}

=== FILE: die.dfy ===
/** The DIE reader: it runs the compiled commands of a DIE's abbreviation
    over the DIE's attribute values (section 7.5.2 of DWARF Version 4),
    keeping the few attributes the indexer needs and skipping the rest. */
module Die {
  import opened Base
  import opened Cursor
  import opened Abbrev

  /** Where a DIE's name lies: inline in .debug_info (DW_FORM_string) or in
      .debug_str (DW_FORM_strp). */
  datatype NameRef = InInfo(offset: nat) | InStr(offset: nat)

  /** The attributes of a DIE the indexer keeps. References are offsets
      into .debug_info; `None` is the C null pointer. */
  datatype DieAttrs = DieAttrs(
    sibling: Option<nat>,
    name: Option<NameRef>,
    stmtList: nat,
    declFile: nat,
    specification: Option<nat>,
    flags: byte)

  /** A DIE before its attributes are read. The indexer starts a DIE of the
      unit with DW_AT_stmt_list at SIZE_MAX ("absent") and the DIE named by
      DW_AT_specification with everything zero. */
  function NoAttributes(stmtList: nat): (d: DieAttrs)
    ensures d.sibling.None? && d.name.None? && d.specification.None? && d.declFile == 0 && d.flags == 0
  {
    DieAttrs(None, None, stmtList, 0, None, 0)
  }

  /** Which bound the reader puts on a DW_FORM_strp offset: the source's
      in_bounds check, or the corrected one (see StrpInBounds below). */
  datatype StrpCheck = StrpAsWritten | StrpCorrected

  /** What the reader knows of the unit a DIE is in: the unit's offset in
      .debug_info, the end of its DIEs, the size of .debug_str, and the
      string offset check it applies. */
  datatype Unit = Unit(offset: nat, end: nat, strSize: nat, strp: StrpCheck)

  /** How the operand of an opcode is encoded. */
  datatype Operand = Fixed(width: nat) | Uleb

  /** The operand of each opcode that has one: a block length, a
      reference, a string offset, a line program offset or a file index. */
  function OperandOf(cmd: byte): (op: Operand)
    requires cmd > CMD_MAX_SKIP && cmd != ATTRIB_LEB128 && cmd != ATTRIB_STRING && cmd != ATTRIB_NAME_STRING
    ensures op.Fixed? ==> op.width in {1, 2, 4, 8}
  {
    if cmd == ATTRIB_BLOCK1 || cmd == ATTRIB_SIBLING_REF1 || cmd == ATTRIB_DECL_FILE_DATA1
       || cmd == ATTRIB_SPECIFICATION_REF1 then Fixed(1)
    else if cmd == ATTRIB_BLOCK2 || cmd == ATTRIB_SIBLING_REF2 || cmd == ATTRIB_DECL_FILE_DATA2
       || cmd == ATTRIB_SPECIFICATION_REF2 then Fixed(2)
    else if cmd == ATTRIB_BLOCK4 || cmd == ATTRIB_SIBLING_REF4 || cmd == ATTRIB_NAME_STRP4
       || cmd == ATTRIB_STMT_LIST_LINEPTR4 || cmd == ATTRIB_DECL_FILE_DATA4
       || cmd == ATTRIB_SPECIFICATION_REF4 then Fixed(4)
    else if cmd == ATTRIB_SIBLING_REF8 || cmd == ATTRIB_NAME_STRP8 || cmd == ATTRIB_STMT_LIST_LINEPTR8
       || cmd == ATTRIB_DECL_FILE_DATA8 || cmd == ATTRIB_SPECIFICATION_REF8 then Fixed(8)
    else Uleb
  }

  function ReadOperand(info: seq<byte>, ptr: nat, end: nat, op: Operand): (r: Result<Decoded<nat>>)
    requires end <= |info|
    ensures r.Ok? ==> ptr <= r.value.next <= end
    ensures r.Ok? && op.Fixed? ==> r.value.next == ptr + op.width
    ensures r.Ok? && op.Uleb? ==> ptr < r.value.next
  {
    match op
    case Fixed(width) => ReadUnsigned(info, ptr, end, width)
    case Uleb => ReadUleb128(info, ptr, end)
  }

  /** Advances the cursor over `size` bytes that must lie before `end`. */
  function SkipBytes(ptr: nat, end: nat, size: nat): (r: Result<nat>)
    ensures r.Ok? <==> ptr + size <= end
    ensures r.Err? ==> r.error == EndOfFile
    ensures r.Ok? ==> r.value - ptr == size
  {
    if !InBounds(ptr, end, size) then Err(EndOfFile) else Ok(ptr + size)
  }

  /** The DIE a reference attribute designates: `ref` bytes from the start
      of the unit, no further than the end of the unit's DIEs. */
  function Reference(unit: Unit, ref: nat): (r: Result<nat>)
    ensures r.Ok? <==> ref <= unit.end - unit.offset && unit.offset <= unit.end
    ensures r.Err? ==> r.error == EndOfFile
    ensures r.Ok? ==> unit.offset <= r.value <= unit.end && r.value - unit.offset == ref
  {
    if !InBounds(unit.offset, unit.end, ref) then Err(EndOfFile) else Ok(unit.offset + ref)
  }

  /** The check the source applies to a DW_FORM_strp offset: as many bytes
      as the offset lie in .debug_str. It admits the offset equal to the
      size of the section, where no string starts. */
  predicate StrpInBoundsAsWritten(strSize: nat, offset: nat)
  {
    InBounds(0, strSize, offset)
  }

  /** The check a string offset needs: a string starts inside the section. */
  predicate StrpInBounds(strSize: nat, offset: nat)
  {
    offset < strSize
  }

  /** Whether the reader's check accepts a string offset. */
  predicate StrpAccepts(check: StrpCheck, strSize: nat, offset: nat)
  {
    match check
    case StrpAsWritten => StrpInBoundsAsWritten(strSize, offset)
    case StrpCorrected => StrpInBounds(strSize, offset)
  }

  /** The one-byte .debug_str and offset 1 pass the check as written, and no
      NUL-terminated string starts there: hashing that name reads the byte
      after the section. */
  lemma StrpPastEnd()
    ensures var str: seq<byte> := [0];
            && StrpInBoundsAsWritten(|str|, 1)
            && FindNul(str, 1, |str|).None?
            && !StrpInBounds(|str|, 1)
  {
  }

  /** With the corrected check, every accepted offset into a .debug_str
      that ends in NUL starts a NUL-terminated string inside the section. */
  lemma StrpNameTerminated(str: seq<byte>, offset: nat)
    requires |str| > 0 && str[|str| - 1] == 0
    requires StrpInBounds(|str|, offset)
    ensures FindNul(str, offset, |str|).Some?
  {
  }

  datatype Step = Step(die: DieAttrs, next: nat)

  /** Runs one nonzero command at `ptr`. */
  function RunCmd(info: seq<byte>, unit: Unit, cmd: byte, ptr: nat, die: DieAttrs): (r: Result<Step>)
    requires unit.end <= |info| && cmd != 0
    ensures r.Ok? ==> ptr < r.value.next <= unit.end && r.value.die.flags == die.flags
  {
    if cmd <= CMD_MAX_SKIP then
      var next :- SkipBytes(ptr, unit.end, cmd);
      Ok(Step(die, next))
    else if cmd == ATTRIB_LEB128 then
      var next :- SkipLeb128(info, ptr, unit.end);
      Ok(Step(die, next))
    else if cmd == ATTRIB_STRING || cmd == ATTRIB_NAME_STRING then
      var next :- SkipString(info, ptr, unit.end);
      Ok(Step(if cmd == ATTRIB_NAME_STRING then die.(name := Some(InInfo(ptr))) else die, next))
    else
      var operand :- ReadOperand(info, ptr, unit.end, OperandOf(cmd));
      var v := operand.value;
      if cmd <= ATTRIB_EXPRLOC then
        var next :- SkipBytes(operand.next, unit.end, v);
        Ok(Step(die, next))
      else if cmd <= ATTRIB_SIBLING_REF_UDATA then
        var target :- Reference(unit, v);
        Ok(Step(die.(sibling := Some(target)), operand.next))
      else if cmd <= ATTRIB_NAME_STRP8 then
        if !StrpAccepts(unit.strp, unit.strSize, v) then Err(EndOfFile)
        else Ok(Step(die.(name := Some(InStr(v))), operand.next))
      else if cmd <= ATTRIB_STMT_LIST_LINEPTR8 then
        Ok(Step(die.(stmtList := v), operand.next))
      else if cmd <= ATTRIB_DECL_FILE_UDATA then
        Ok(Step(die.(declFile := v), operand.next))
      else
        var target :- Reference(unit, v);
        Ok(Step(die.(specification := Some(target)), operand.next))
  }

  /** Runs the commands from cmds[i] to the terminator, then takes the
      flags byte after it. */
  function RunCmds(info: seq<byte>, unit: Unit, cmds: seq<byte>, i: nat, ptr: nat, die: DieAttrs): (r: Result<Step>)
    requires unit.end <= |info|
    requires DeclTerminated(cmds, i) && ptr <= unit.end
    ensures r.Ok? ==> ptr <= r.value.next <= unit.end
    decreases |cmds| - i
  {
    if cmds[i] == 0 then Ok(Step(die.(flags := cmds[i + 1]), ptr))
    else
      var step :- RunCmd(info, unit, cmds[i], ptr, die);
      RunCmds(info, unit, cmds, i + 1, step.next, step.die)
  }

  /** A DW_FORM_strp name command reads a 4- or 8-byte offset, fails with
      EOFError unless the unit's check accepts it, and otherwise names the
      string at that offset of .debug_str and changes nothing else. */
  lemma RunStrp(info: seq<byte>, unit: Unit, cmd: byte, ptr: nat, die: DieAttrs)
    requires unit.end <= |info| && (cmd == ATTRIB_NAME_STRP4 || cmd == ATTRIB_NAME_STRP8)
    ensures var width := if cmd == ATTRIB_NAME_STRP4 then 4 else 8;
            var r := RunCmd(info, unit, cmd, ptr, die);
            && (r.Ok? <==> ptr + width <= unit.end
                           && StrpAccepts(unit.strp, unit.strSize, LittleEndian(info[ptr..ptr + width])))
            && (r.Err? ==> r.error == EndOfFile)
            && (r.Ok? ==> r.value == Step(die.(name := Some(InStr(LittleEndian(info[ptr..ptr + width])))), ptr + width))
  {
  }

  /** The operand of the k-th opcode of a family whose forms are, in order,
      1, 2, 4 and 8 bytes wide and ULEB128 (DW_FORM_ref1 .. ref_udata,
      DW_FORM_data1 .. udata). */
  function FamilyOperand(info: seq<byte>, ptr: nat, end: nat, k: nat): Result<Decoded<nat>>
    requires end <= |info| && k < 5
  {
    if k < 4 then ReadUnsigned(info, ptr, end, [1, 2, 4, 8][k]) else ReadUleb128(info, ptr, end)
  }

  /** A skip command moves over that many bytes; the commands for skipped
      LEB128 numbers, strings, blocks and expressions move over their value.
      None of them changes the DIE. */
  lemma RunSkipValues(info: seq<byte>, unit: Unit, cmd: byte, ptr: nat, die: DieAttrs)
    requires unit.end <= |info| && cmd != 0
    requires cmd <= ATTRIB_STRING
    ensures var r := RunCmd(info, unit, cmd, ptr, die);
            && (r.Ok? ==> r.value.die == die)
            && (cmd <= CMD_MAX_SKIP ==>
                  r == if ptr + cmd <= unit.end then Ok(Step(die, ptr + cmd)) else Err(EndOfFile))
            && (cmd == ATTRIB_LEB128 ==>
                  var s := SkipLeb128(info, ptr, unit.end);
                  r == if s.Ok? then Ok(Step(die, s.value)) else Err(s.error))
            && (cmd == ATTRIB_STRING ==>
                  var s := SkipString(info, ptr, unit.end);
                  r == if s.Ok? then Ok(Step(die, s.value)) else Err(s.error))
            && (ATTRIB_BLOCK1 <= cmd <= ATTRIB_EXPRLOC ==>
                  var len := if cmd == ATTRIB_EXPRLOC then ReadUleb128(info, ptr, unit.end)
                             else ReadUnsigned(info, ptr, unit.end, [1, 2, 4][cmd - ATTRIB_BLOCK1]);
                  r.Ok? <==> len.Ok? && len.value.next + len.value.value <= unit.end)
            && (ATTRIB_BLOCK1 <= cmd <= ATTRIB_EXPRLOC && r.Ok? ==>
                  var len := if cmd == ATTRIB_EXPRLOC then ReadUleb128(info, ptr, unit.end).value
                             else ReadUnsigned(info, ptr, unit.end, [1, 2, 4][cmd - ATTRIB_BLOCK1]).value;
                  r.value.next == len.next + len.value)
  {
  }

  /** An inline DW_AT_name names the string at the cursor and steps over it. */
  lemma RunNameString(info: seq<byte>, unit: Unit, ptr: nat, die: DieAttrs)
    requires unit.end <= |info|
    ensures var r := RunCmd(info, unit, ATTRIB_NAME_STRING, ptr, die);
            var s := SkipString(info, ptr, unit.end);
            r == if s.Ok? then Ok(Step(die.(name := Some(InInfo(ptr))), s.value)) else Err(s.error)
  {
  }

  /** A DW_AT_sibling reference of any of the five reference forms is read
      with its form's width and designates that many bytes past the unit's
      start; it must lie inside the unit. Only the sibling changes. */
  lemma RunSiblingValues(info: seq<byte>, unit: Unit, cmd: byte, ptr: nat, die: DieAttrs)
    requires unit.end <= |info|
    requires ATTRIB_SIBLING_REF1 <= cmd <= ATTRIB_SIBLING_REF_UDATA
    ensures var o := FamilyOperand(info, ptr, unit.end, cmd - ATTRIB_SIBLING_REF1);
            var r := RunCmd(info, unit, cmd, ptr, die);
            r == if o.Err? then Err(o.error)
                 else if unit.offset + o.value.value > unit.end then Err(EndOfFile)
                 else Ok(Step(die.(sibling := Some(unit.offset + o.value.value)), o.value.next))
  {
    var k := cmd - ATTRIB_SIBLING_REF1;
    assert ReadOperand(info, ptr, unit.end, OperandOf(cmd)) == FamilyOperand(info, ptr, unit.end, k) by {
      if k < 4 {
        assert OperandOf(cmd) == Fixed([1, 2, 4, 8][k]);
      }
    }
  }

  /** Likewise for DW_AT_specification: only the specification changes. */
  lemma RunSpecificationValues(info: seq<byte>, unit: Unit, cmd: byte, ptr: nat, die: DieAttrs)
    requires unit.end <= |info|
    requires ATTRIB_SPECIFICATION_REF1 <= cmd <= ATTRIB_SPECIFICATION_REF_UDATA
    ensures var o := FamilyOperand(info, ptr, unit.end, cmd - ATTRIB_SPECIFICATION_REF1);
            var r := RunCmd(info, unit, cmd, ptr, die);
            r == if o.Err? then Err(o.error)
                 else if unit.offset + o.value.value > unit.end then Err(EndOfFile)
                 else Ok(Step(die.(specification := Some(unit.offset + o.value.value)), o.value.next))
  {
    var k := cmd - ATTRIB_SPECIFICATION_REF1;
    assert ReadOperand(info, ptr, unit.end, OperandOf(cmd)) == FamilyOperand(info, ptr, unit.end, k) by {
      if k < 4 {
        assert OperandOf(cmd) == Fixed([1, 2, 4, 8][k]);
      }
    }
  }

  /** DW_AT_decl_file of any of the five constant forms stores the file
      index read; DW_AT_stmt_list stores the 4- or 8-byte line program
      offset. Only that attribute of the DIE changes. */
  lemma RunConstantValues(info: seq<byte>, unit: Unit, cmd: byte, ptr: nat, die: DieAttrs)
    requires unit.end <= |info|
    requires ATTRIB_STMT_LIST_LINEPTR4 <= cmd <= ATTRIB_DECL_FILE_UDATA
    ensures var r := RunCmd(info, unit, cmd, ptr, die);
            && (cmd <= ATTRIB_STMT_LIST_LINEPTR8 ==>
                  var o := ReadUnsigned(info, ptr, unit.end, if cmd == ATTRIB_STMT_LIST_LINEPTR4 then 4 else 8);
                  r == if o.Err? then Err(o.error) else Ok(Step(die.(stmtList := o.value.value), o.value.next)))
            && (cmd >= ATTRIB_DECL_FILE_DATA1 ==>
                  var o := FamilyOperand(info, ptr, unit.end, cmd - ATTRIB_DECL_FILE_DATA1);
                  r == if o.Err? then Err(o.error) else Ok(Step(die.(declFile := o.value.value), o.value.next)))
  {
  }

  datatype DieRead = NullEntry(next: nat) | Entry(die: DieAttrs, next: nat)

  /** Reads the DIE at `ptr`: its abbreviation code, 0 for a null entry,
      then the attribute values its abbreviation declares. */
  function ReadDie(info: seq<byte>, unit: Unit, table: AbbrevTable, ptr: nat, init: DieAttrs): (r: Result<DieRead>)
    requires unit.end <= |info|
    requires TableTerminated(table)
    ensures r.Ok? ==> ptr < r.value.next <= unit.end
    ensures var code := ReadUleb128(info, ptr, unit.end);
            && (r.Ok? && r.value.NullEntry? <==> code.Ok? && code.value.value == 0)
            && (code.Ok? && code.value.value > |table.decls| ==> r == Err(FormatError("unknown abbreviation code")))
  {
    var code :- ReadUleb128(info, ptr, unit.end);
    if code.value == 0 then Ok(NullEntry(code.next))
    else if code.value > |table.decls| then Err(FormatError("unknown abbreviation code"))
    else
      var step :- RunCmds(info, unit, table.cmds, table.decls[code.value - 1], code.next, init);
      Ok(Entry(step.die, step.next))
  }

  /** Every reference a DIE holds designates a place inside its unit, every
      .debug_str name passes the unit's string offset check (so with the
      corrected check it starts inside .debug_str), and every inline name
      is NUL-terminated before `limit`. */
  predicate WellPlaced(info: seq<byte>, unit: Unit, die: DieAttrs, limit: nat)
    requires limit <= |info|
  {
    && (die.sibling.Some? ==> unit.offset <= die.sibling.value <= unit.end)
    && (die.specification.Some? ==> unit.offset <= die.specification.value <= unit.end)
    && (die.name.Some? && die.name.value.InStr? ==> StrpAccepts(unit.strp, unit.strSize, die.name.value.offset))
    && (die.name.Some? && die.name.value.InInfo? ==>
          die.name.value.offset < limit && !NoNul(info, die.name.value.offset, limit))
  }

  lemma RunCmdPlaced(info: seq<byte>, unit: Unit, cmd: byte, ptr: nat, die: DieAttrs)
    requires unit.end <= |info| && cmd != 0
    requires ptr <= unit.end
    requires WellPlaced(info, unit, die, ptr)
    ensures var r := RunCmd(info, unit, cmd, ptr, die);
            r.Ok? ==> WellPlaced(info, unit, r.value.die, r.value.next)
  {
    var r := RunCmd(info, unit, cmd, ptr, die);
    if r.Ok? {
      WellPlacedLater(info, unit, die, ptr, r.value.next);
      if cmd == ATTRIB_NAME_STRING {
        assert info[r.value.next - 1] == 0;
      }
    }
  }

  lemma {:induction false} RunCmdsPlaced(info: seq<byte>, unit: Unit, cmds: seq<byte>, i: nat, ptr: nat, die: DieAttrs)
    requires unit.end <= |info|
    requires DeclTerminated(cmds, i) && ptr <= unit.end
    requires WellPlaced(info, unit, die, ptr)
    ensures var r := RunCmds(info, unit, cmds, i, ptr, die);
            r.Ok? ==> WellPlaced(info, unit, r.value.die, r.value.next)
    decreases |cmds| - i
  {
    if cmds[i] != 0 {
      var step := RunCmd(info, unit, cmds[i], ptr, die);
      if step.Ok? {
        RunCmdPlaced(info, unit, cmds[i], ptr, die);
        assert RunCmds(info, unit, cmds, i, ptr, die)
            == RunCmds(info, unit, cmds, i + 1, step.value.next, step.value.die);
        RunCmdsPlaced(info, unit, cmds, i + 1, step.value.next, step.value.die);
      }
    }
  }

  /** A DIE read from a well-placed start is well placed: what it
      references can be followed and what it names can be read. */
  lemma ReadDiePlaced(info: seq<byte>, unit: Unit, table: AbbrevTable, ptr: nat, init: DieAttrs)
    requires unit.end <= |info|
    requires TableTerminated(table)
    requires ptr <= unit.end && WellPlaced(info, unit, init, ptr)
    ensures var r := ReadDie(info, unit, table, ptr, init);
            r.Ok? && r.value.Entry? ==> WellPlaced(info, unit, r.value.die, r.value.next)
  {
    var r := ReadDie(info, unit, table, ptr, init);
    if r.Ok? && r.value.Entry? {
      var code := ReadUleb128(info, ptr, unit.end).value;
      WellPlacedLater(info, unit, init, ptr, code.next);
      RunCmdsPlaced(info, unit, table.cmds, table.decls[code.value - 1], code.next, init);
    }
  }

  lemma WellPlacedLater(info: seq<byte>, unit: Unit, die: DieAttrs, limit: nat, later: nat)
    requires limit <= later <= |info|
    requires WellPlaced(info, unit, die, limit)
    ensures WellPlaced(info, unit, die, later)
  {
    if die.name.Some? && die.name.value.InInfo? {
      var z := FindNul(info, die.name.value.offset, limit);
      assert z.Some?;
      assert info[z.value] == 0;
    }
  }

  /** The reader run over the meaning of a command list, one action at a
      time: a skipped byte must lie before the end of the unit, and an
      opcode runs as RunCmd runs it. (Run(0) never arises from a command
      list; it does nothing.) */
  function RunActions(info: seq<byte>, unit: Unit, acts: seq<Action>, ptr: nat, die: DieAttrs): (r: Result<Step>)
    requires unit.end <= |info|
    decreases |acts|
  {
    if acts == [] then Ok(Step(die, ptr))
    else
      match acts[0]
      case SkipByte =>
        if ptr + 1 <= unit.end then RunActions(info, unit, acts[1..], ptr + 1, die) else Err(EndOfFile)
      case Run(cmd) =>
        if cmd == 0 then RunActions(info, unit, acts[1..], ptr, die)
        else
          var step :- RunCmd(info, unit, cmd, ptr, die);
          RunActions(info, unit, acts[1..], step.next, step.die)
  }

  /** n skipped bytes one at a time are one skip of n bytes. */
  lemma {:induction false} RunSkipsThen(info: seq<byte>, unit: Unit, n: nat, rest: seq<Action>, ptr: nat, die: DieAttrs)
    requires unit.end <= |info| && ptr <= unit.end
    ensures RunActions(info, unit, Skips(n) + rest, ptr, die)
         == if ptr + n <= unit.end then RunActions(info, unit, rest, ptr + n, die) else Err(EndOfFile)
    decreases n
  {
    var acts := Skips(n) + rest;
    if n == 0 {
      assert acts == rest;
    } else {
      assert acts[0] == SkipByte;
      assert acts[1..] == Skips(n - 1) + rest;
      if ptr + 1 <= unit.end {
        RunSkipsThen(info, unit, n - 1, rest, ptr + 1, die);
      }
    }
  }

  /** The actions of one command, run in front of others, do what the
      command does and then run the others. */
  lemma {:induction false} RunExpandCmd(info: seq<byte>, unit: Unit, c: byte, rest: seq<Action>, ptr: nat, die: DieAttrs)
    requires unit.end <= |info| && ptr <= unit.end && c != 0
    ensures var s := RunCmd(info, unit, c, ptr, die);
            RunActions(info, unit, ExpandCmd(c) + rest, ptr, die)
              == if s.Ok? then RunActions(info, unit, rest, s.value.next, s.value.die) else Err(s.error)
  {
    if c <= CMD_MAX_SKIP {
      RunSkipsThen(info, unit, c, rest, ptr, die);
      RunSkipValues(info, unit, c, ptr, die);
    } else {
      var acts := [Run(c)] + rest;
      assert acts[0] == Run(c) && acts[1..] == rest;
    }
  }

  /** The meaning of a nonempty slice is its first command's, then the rest's. */
  lemma ExpandFront(cmds: seq<byte>, i: nat, z: nat)
    requires i < z <= |cmds|
    ensures Expand(cmds[i..z]) == ExpandCmd(cmds[i]) + Expand(cmds[i + 1..z])
  {
    var s := cmds[i..z];
    assert s[0] == cmds[i] && s[1..] == cmds[i + 1..z];
  }

  /** Running a declaration's commands is running their meaning, then
      taking the tag byte after the terminator as the flags. */
  lemma {:induction false} RunCmdsActions(info: seq<byte>, unit: Unit, cmds: seq<byte>, i: nat, ptr: nat, die: DieAttrs)
    requires unit.end <= |info|
    requires DeclTerminated(cmds, i) && ptr <= unit.end
    ensures var z := FindNul(cmds, i, |cmds|).value;
            var a := RunActions(info, unit, Expand(cmds[i..z]), ptr, die);
            RunCmds(info, unit, cmds, i, ptr, die)
              == if a.Ok? then Ok(Step(a.value.die.(flags := cmds[z + 1]), a.value.next)) else Err(a.error)
    decreases |cmds| - i
  {
    var z := FindNul(cmds, i, |cmds|).value;
    if cmds[i] == 0 {
      assert z == i && cmds[i..z] == [];
    } else {
      var c := cmds[i];
      assert FindNul(cmds, i + 1, |cmds|) == FindNul(cmds, i, |cmds|);
      ExpandFront(cmds, i, z);
      RunExpandCmd(info, unit, c, Expand(cmds[i + 1..z]), ptr, die);
      var step := RunCmd(info, unit, c, ptr, die);
      if step.Ok? {
        RunCmdsActions(info, unit, cmds, i + 1, step.value.next, step.value.die);
      }
    }
  }

  /** RunCmdsActions, for a command list whose meaning and tag byte are
      known. */
  lemma {:induction false} RunCmdsMeaning(info: seq<byte>, unit: Unit, cmds: seq<byte>, i: nat, ptr: nat, die: DieAttrs,
                       acts: seq<Action>, flags: byte)
    requires unit.end <= |info|
    requires DeclTerminated(cmds, i) && ptr <= unit.end
    requires var z := FindNul(cmds, i, |cmds|).value; Expand(cmds[i..z]) == acts && cmds[z + 1] == flags
    ensures var a := RunActions(info, unit, acts, ptr, die);
            RunCmds(info, unit, cmds, i, ptr, die)
              == if a.Ok? then Ok(Step(a.value.die.(flags := flags), a.value.next)) else Err(a.error)
  {
    RunCmdsActions(info, unit, cmds, i, ptr, die);
  }

  /** The DIE that declaration `d` describes, read at `ptr`: the actions of
      its attributes run in order from the initial attributes, and its tag
      byte as the flags. */
  function DeclaredDie(info: seq<byte>, unit: Unit, d: DeclSpec, is64: bool, addressSize: byte, ptr: nat, init: DieAttrs)
    : Result<DieRead>
    requires unit.end <= |info|
  {
    var step :- RunActions(info, unit, Actions(d.specs, IndexedTag(d.tag), is64, addressSize), ptr, init);
    Ok(Entry(step.die.(flags := TagByte(IndexedTag(d.tag), HasDeclaration(d.specs), d.children != 0)), step.next))
  }

  /** Declaration c of a table that means `ds` runs the actions of
      `ds[c - 1]` and sets that declaration's tag byte as the flags. */
  lemma {:induction false} DeclMeaning(info: seq<byte>, unit: Unit, table: AbbrevTable, ds: seq<DeclSpec>, is64: bool,
                                       addressSize: byte, c: nat, ptr: nat, init: DieAttrs)
    requires unit.end <= |info| && ptr <= unit.end
    requires TableTerminated(table) && CompiledTable(table, ds, is64, addressSize) && 1 <= c <= |ds|
    ensures var run := RunCmds(info, unit, table.cmds, table.decls[c - 1], ptr, init);
            DeclaredDie(info, unit, ds[c - 1], is64, addressSize, ptr, init)
              == if run.Ok? then Ok(Entry(run.value.die, run.value.next)) else Err(run.error)
  {
    var d := ds[c - 1];
    assert Compiles(table.cmds, table.decls[c - 1], d, is64, addressSize);
    TagByteMask(IndexedTag(d.tag), HasDeclaration(d.specs), d.children != 0);
    var tagByte: byte := TagByte(IndexedTag(d.tag), HasDeclaration(d.specs), d.children != 0);
    RunCmdsMeaning(info, unit, table.cmds, table.decls[c - 1], ptr, init,
                   Actions(d.specs, IndexedTag(d.tag), is64, addressSize), tagByte);
  }

  /** A known nonzero code runs the commands of its declaration. */
  lemma {:induction false} ReadDieRuns(info: seq<byte>, unit: Unit, table: AbbrevTable, ptr: nat, init: DieAttrs, c: nat, next: nat)
    requires unit.end <= |info| && TableTerminated(table)
    requires ReadUleb128(info, ptr, unit.end) == Ok(Decoded(c, next)) && 1 <= c <= |table.decls|
    ensures var run := RunCmds(info, unit, table.cmds, table.decls[c - 1], next, init);
            ReadDie(info, unit, table, ptr, init) == if run.Ok? then Ok(Entry(run.value.die, run.value.next)) else Err(run.error)
  {
  }

  /** In a table that means the declarations `ds`, a DIE with code c is read
      by running the actions of the attributes of declaration c in order,
      starting from the DIE's initial attributes, and its flags are that
      declaration's tag byte. With the values each command stores
      (RunSiblingValues, RunSpecificationValues, RunConstantValues,
      RunNameString, RunStrp, RunSkipValues) this gives every value of the
      DIE from its abbreviation and its bytes. */
  lemma {:induction false} ReadDieMeaning(info: seq<byte>, unit: Unit, table: AbbrevTable, ds: seq<DeclSpec>, is64: bool,
                                          addressSize: byte, ptr: nat, init: DieAttrs)
    requires unit.end <= |info|
    requires TableTerminated(table) && CompiledTable(table, ds, is64, addressSize)
    ensures var code := ReadUleb128(info, ptr, unit.end);
            code.Ok? && 1 <= code.value.value <= |ds| ==>
              ReadDie(info, unit, table, ptr, init)
                == DeclaredDie(info, unit, ds[code.value.value - 1], is64, addressSize, code.value.next, init)
  {
    var code := ReadUleb128(info, ptr, unit.end);
    if code.Ok? && 1 <= code.value.value <= |ds| {
      DeclMeaning(info, unit, table, ds, is64, addressSize, code.value.value, code.value.next, init);
      ReadDieRuns(info, unit, table, ptr, init, code.value.value, code.value.next);
    }
  }

  /** A unit of one DIE: abbreviation code 1, whose only attribute is a
      DW_FORM_strp DW_AT_name of a variable, with string offset 1. */
  const StrpInfo: seq<byte> := [1, 1, 0, 0, 0]
  const StrpAbbrevs: AbbrevTable := AbbrevTable([0], [ATTRIB_NAME_STRP4, 0, 0x34])

  /** The one-byte .debug_str [0] and the unit above read with either
      check. */
  function StrpUnit(check: StrpCheck): Unit
  {
    Unit(0, 5, 1, check)
  }

  /** The DIE reader as written accepts the name at offset 1 of the one-byte
      .debug_str, one past the section; the corrected reader rejects the
      DIE. */
  lemma StrpReadersDiffer()
    ensures TableTerminated(StrpAbbrevs)
    ensures ReadDie(StrpInfo, StrpUnit(StrpAsWritten), StrpAbbrevs, 0, NoAttributes(0))
         == Ok(Entry(NoAttributes(0).(name := Some(InStr(1)), flags := 0x34), 5))
    ensures ReadDie(StrpInfo, StrpUnit(StrpCorrected), StrpAbbrevs, 0, NoAttributes(0)) == Err(EndOfFile)
  {
    var cmds := StrpAbbrevs.cmds;
    assert FindNul(cmds, 1, 3) == Some(1);
    assert FindNul(cmds, 0, 3) == Some(1);
    assert ReadUlebFrom(StrpInfo, 0, 5, 0, 0) == Ok(Decoded(1, 1));
    assert StrpInfo[1..5] == EncodeLittleEndian(1, 4);
    ReadUnsignedAt(StrpInfo, 1, 5, 4, 1);
    var init := NoAttributes(0);
    var die := init.(name := Some(InStr(1)));
    assert RunCmd(StrpInfo, StrpUnit(StrpAsWritten), ATTRIB_NAME_STRP4, 1, init) == Ok(Step(die, 5));
    assert RunCmds(StrpInfo, StrpUnit(StrpAsWritten), cmds, 1, 5, die) == Ok(Step(die.(flags := 0x34), 5));
    assert RunCmd(StrpInfo, StrpUnit(StrpCorrected), ATTRIB_NAME_STRP4, 1, init) == Err(EndOfFile);
  }
}

=== FILE: die_hash.dfy ===
/** The DIE name index: an open-addressing hash table of 2^17 slots keyed
    by the DJBX33A hash of a DIE's name, probed linearly. The indexer
    inserts one entry per distinct (name, tag, file name hash); the lookup
    walks the same probe sequence. */
module DieHash {
  import opened Base

  const DIE_HASH_SHIFT: nat := 17
  const DIE_HASH_SIZE: nat := 0x2_0000
  const DJB_SEED: nat := 5381

  /** One step of DJBX33A on a 32-bit accumulator: h * 33 + c, wrapping. */
  function HashFrom(h: nat, s: seq<byte>): nat
    decreases |s|
  {
    if s == [] then h else HashFrom((33 * h + s[0]) % U32_LIMIT, s[1..])
  }

  /** The hash of a name, the bytes before its terminating NUL. */
  function NameHash(name: seq<byte>): (h: nat)
    ensures h < U32_LIMIT
  {
    HashFromBound(DJB_SEED, name);
    HashFrom(DJB_SEED, name)
  }

  lemma {:induction false} HashFromBound(h: nat, s: seq<byte>)
    requires h < U32_LIMIT
    ensures HashFrom(h, s) < U32_LIMIT
    decreases |s|
  {
    if s != [] {
      HashFromBound((33 * h + s[0]) % U32_LIMIT, s[1..]);
    }
  }

  /** DJBX33A over unbounded integers: appending byte c to s gives
      33 * hash(s) + c. */
  function DjbPoly(s: seq<byte>): nat
  {
    if s == [] then DJB_SEED else 33 * DjbPoly(s[..|s| - 1]) + s[|s| - 1]
  }

  /** The same polynomial folded from the left from accumulator h. */
  function PolyFrom(h: nat, s: seq<byte>): nat
    decreases |s|
  {
    if s == [] then h else PolyFrom(33 * h + s[0], s[1..])
  }

  lemma {:induction false} PolyFromSnoc(h: nat, s: seq<byte>, c: byte)
    ensures PolyFrom(h, s + [c]) == 33 * PolyFrom(h, s) + c
    decreases |s|
  {
    if s == [] {
      assert ([] + [c])[1..] == [];
    } else {
      assert (s + [c])[0] == s[0];
      assert (s + [c])[1..] == s[1..] + [c];
      PolyFromSnoc(33 * h + s[0], s[1..], c);
    }
  }

  lemma {:induction false} PolyFromIsDjb(s: seq<byte>)
    ensures PolyFrom(DJB_SEED, s) == DjbPoly(s)
  {
    if s != [] {
      var init := s[..|s| - 1];
      assert s == init + [s[|s| - 1]];
      PolyFromSnoc(DJB_SEED, init, s[|s| - 1]);
      PolyFromIsDjb(init);
    }
  }

  lemma ModStep(h: nat, c: nat)
    ensures (33 * (h % U32_LIMIT) + c) % U32_LIMIT == (33 * h + c) % U32_LIMIT
  {
    var q := h / U32_LIMIT;
    var r := h % U32_LIMIT;
    assert 33 * h + c == (33 * r + c) + U32_LIMIT * (33 * q);
    var x := 33 * r + c;
    DivModUnique(x + U32_LIMIT * (33 * q), U32_LIMIT, x / U32_LIMIT + 33 * q, x % U32_LIMIT);
  }

  lemma {:induction false} HashFromIsPoly(h: nat, s: seq<byte>)
    ensures HashFrom(h % U32_LIMIT, s) == PolyFrom(h, s) % U32_LIMIT
    decreases |s|
  {
    if s == [] {
      assert h % U32_LIMIT % U32_LIMIT == h % U32_LIMIT;
    } else {
      ModStep(h, s[0]);
      HashFromIsPoly(33 * h + s[0], s[1..]);
    }
  }

  /** Wrapping at 32 bits after every byte loses nothing: the hash is the
      unbounded DJBX33A polynomial reduced modulo 2^32 once. */
  lemma NameHashIsDjb(name: seq<byte>)
    ensures NameHash(name) == DjbPoly(name) % U32_LIMIT
  {
    HashFromIsPoly(DJB_SEED, name);
    PolyFromIsDjb(name);
  }

  /** One indexed DIE: its name, tag and file name hash (the key), the
      index of its unit and the DIE's offset in .debug_info. */
  datatype Entry = Entry(name: seq<byte>, tag: nat, fileNameHash: FileKey, cu: nat, diePtr: nat)

  predicate SameKey(a: Entry, b: Entry)
  {
    a.tag == b.tag && a.fileNameHash == b.fileNameHash && a.name == b.name
  }

  /** The table: slot `None` is a slot whose name is still NULL. */
  type Table = t: seq<Option<Entry>> | |t| == DIE_HASH_SIZE witness seq(DIE_HASH_SIZE, _ => None)

  function EmptyTable(): (t: Table)
    ensures forall j :: 0 <= j < DIE_HASH_SIZE ==> t[j].None?
  {
    seq(DIE_HASH_SIZE, _ => None)
  }

  /** The first slot probed for a name. */
  function Home(name: seq<byte>): (h: nat)
    ensures h < DIE_HASH_SIZE
  {
    NameHash(name) % DIE_HASH_SIZE
  }

  /** The slot probed `d` steps after slot `h`. */
  function Slot(h: nat, d: nat): (j: nat)
    ensures j < DIE_HASH_SIZE
  {
    (h + d) % DIE_HASH_SIZE
  }

  /** How many steps after slot `h` slot `j` is probed. */
  function Dist(h: nat, j: nat): (d: nat)
    requires h < DIE_HASH_SIZE && j < DIE_HASH_SIZE
    ensures d < DIE_HASH_SIZE && Slot(h, d) == j
  {
    if h <= j then j - h else DIE_HASH_SIZE - h + j
  }

  /** Every entry can be found by probing from the home slot of its name:
      no slot between that home slot and the entry's slot is empty. */
  predicate ChainOk(t: Table)
  {
    forall j, k :: 0 <= j < DIE_HASH_SIZE && t[j].Some? && 0 <= k < Dist(Home(t[j].value.name), j) ==>
      t[Slot(Home(t[j].value.name), k)].Some?
  }

  /** No two slots hold entries with the same key. */
  predicate Unique(t: Table)
  {
    forall i, j :: 0 <= i < j < DIE_HASH_SIZE && t[i].Some? && t[j].Some? ==> !SameKey(t[i].value, t[j].value)
  }

  predicate HasKey(t: Table, e: Entry)
  {
    exists j :: 0 <= j < DIE_HASH_SIZE && t[j].Some? && SameKey(t[j].value, e)
  }

  /** Probes from step `d` on: an entry with the same key ends the insertion
      with nothing changed, an empty slot receives the entry, and coming
      back to the home slot means the table is full. */
  function Probe(t: Table, e: Entry, d: nat): (r: Result<Table>)
    requires d < DIE_HASH_SIZE
    ensures r.Err? ==> r.error == OutOfMemory
    decreases DIE_HASH_SIZE - d
  {
    var j := Slot(Home(e.name), d);
    match t[j]
    case None => Ok(t[j := Some(e)])
    case Some(other) =>
      if SameKey(other, e) then Ok(t)
      else if d + 1 == DIE_HASH_SIZE then Err(OutOfMemory)
      else Probe(t, e, d + 1)
  }

  /** Adds a DIE to the index unless an entry with the same name, tag and
      file name hash is already there. */
  function AddDieHashEntry(t: Table, e: Entry): (r: Result<Table>)
    ensures r.Err? ==> r.error == OutOfMemory
  {
    Probe(t, e, 0)
  }

  /** The slots probed before step `d` are all full and none holds the key. */
  predicate PassedOver(t: Table, e: Entry, d: nat)
  {
    forall k :: 0 <= k < d ==> t[Slot(Home(e.name), k)].Some? && !SameKey(t[Slot(Home(e.name), k)].value, e)
  }

  /** What a probe does: either it finds the key and leaves the table as it
      is, or it fills the first empty slot of the chain and changes nothing
      else, or it has passed over every slot. */
  lemma {:induction false} ProbeOutcome(t: Table, e: Entry, d: nat)
    requires d < DIE_HASH_SIZE
    requires PassedOver(t, e, d)
    ensures var r := Probe(t, e, d);
            || (r.Ok? && r.value == t && HasKey(t, e))
            || (exists n :: d <= n < DIE_HASH_SIZE && PassedOver(t, e, n)
                  && t[Slot(Home(e.name), n)].None? && r.Ok? && r.value == t[Slot(Home(e.name), n) := Some(e)])
            || (r.Err? && PassedOver(t, e, DIE_HASH_SIZE))
    decreases DIE_HASH_SIZE - d
  {
    var j := Slot(Home(e.name), d);
    if t[j].Some? && !SameKey(t[j].value, e) {
      assert PassedOver(t, e, d + 1);
      if d + 1 < DIE_HASH_SIZE {
        ProbeOutcome(t, e, d + 1);
      }
    }
  }

  /** Probing visits every slot once before coming back home. */
  lemma PassedOverAll(t: Table, e: Entry)
    requires PassedOver(t, e, DIE_HASH_SIZE)
    ensures forall j :: 0 <= j < DIE_HASH_SIZE ==> t[j].Some? && !SameKey(t[j].value, e)
  {
    forall j | 0 <= j < DIE_HASH_SIZE
      ensures t[j].Some? && !SameKey(t[j].value, e)
    {
      var d := Dist(Home(e.name), j);
      assert Slot(Home(e.name), d) == j;
    }
  }

  /** Insertion fails exactly when every slot is taken and none holds the
      key; when it succeeds the key is present and the chain and uniqueness
      invariants still hold. */
  lemma AddDieHashEntryOk(t: Table, e: Entry)
    requires ChainOk(t) && Unique(t)
    ensures var r := AddDieHashEntry(t, e);
            && (r.Err? <==> (forall j :: 0 <= j < DIE_HASH_SIZE ==> t[j].Some?) && !HasKey(t, e))
            && (r.Ok? ==> HasKey(r.value, e) && ChainOk(r.value) && Unique(r.value))
  {
    var r := AddDieHashEntry(t, e);
    ProbeOutcome(t, e, 0);
    if r.Err? {
      PassedOverAll(t, e);
    } else if r.value != t {
      var n :| 0 <= n < DIE_HASH_SIZE && PassedOver(t, e, n)
                && t[Slot(Home(e.name), n)].None? && r.value == t[Slot(Home(e.name), n) := Some(e)];
      var j := Slot(Home(e.name), n);
      assert r.value[j] == Some(e);
      FillKeepsChain(t, e, n);
      FillKeepsUnique(t, e, n);
    }
  }

  /** Insertion changes at most one slot: an empty one, which receives the
      entry. */
  lemma AddDieHashEntryChanges(t: Table, e: Entry)
    requires AddDieHashEntry(t, e).Ok?
    ensures var u := AddDieHashEntry(t, e).value;
            forall j :: 0 <= j < DIE_HASH_SIZE && u[j] != t[j] ==> t[j].None? && u[j] == Some(e)
  {
    ProbeOutcome(t, e, 0);
  }

  lemma FillKeepsChain(t: Table, e: Entry, n: nat)
    requires ChainOk(t)
    requires n < DIE_HASH_SIZE && PassedOver(t, e, n) && t[Slot(Home(e.name), n)].None?
    ensures ChainOk(t[Slot(Home(e.name), n) := Some(e)])
  {
    var j0 := Slot(Home(e.name), n);
    var u := t[j0 := Some(e)];
    assert Dist(Home(e.name), j0) == n by {
      DistSlot(Home(e.name), n);
    }
    forall j, k | 0 <= j < DIE_HASH_SIZE && u[j].Some? && 0 <= k < Dist(Home(u[j].value.name), j)
      ensures u[Slot(Home(u[j].value.name), k)].Some?
    {
      if j != j0 {
        assert t[j] == u[j];
      }
    }
  }

  lemma DistSlot(h: nat, d: nat)
    requires h < DIE_HASH_SIZE && d < DIE_HASH_SIZE
    ensures Dist(h, Slot(h, d)) == d
  {
  }

  lemma FillKeepsUnique(t: Table, e: Entry, n: nat)
    requires Unique(t) && ChainOk(t)
    requires n < DIE_HASH_SIZE && PassedOver(t, e, n) && t[Slot(Home(e.name), n)].None?
    ensures !HasKey(t, e)
    ensures Unique(t[Slot(Home(e.name), n) := Some(e)])
  {
    var h := Home(e.name);
    DistSlot(h, n);
    forall j | 0 <= j < DIE_HASH_SIZE && t[j].Some?
      ensures !SameKey(t[j].value, e)
    {
      var d := Dist(h, j);
      if d < n {
        assert t[Slot(h, d)].Some? && !SameKey(t[Slot(h, d)].value, e);
      } else {
        var other := t[j].value;
        assert SameKey(other, e) ==> Home(other.name) == h;
      }
    }
  }

  /** With the key present, inserting changes nothing. */
  lemma {:induction false} ProbeFindsKey(t: Table, e: Entry, d: nat, j: nat)
    requires ChainOk(t)
    requires j < DIE_HASH_SIZE && t[j].Some? && SameKey(t[j].value, e)
    requires d <= Dist(Home(e.name), j)
    ensures Probe(t, e, d) == Ok(t)
    decreases Dist(Home(e.name), j) - d
  {
    var h := Home(e.name);
    assert Home(t[j].value.name) == h;
    var i := Slot(h, d);
    if d < Dist(h, j) {
      assert t[i].Some?;
      if !SameKey(t[i].value, e) {
        ProbeFindsKey(t, e, d + 1, j);
      }
    }
  }

  /** Adding the same DIE twice is adding it once. */
  lemma AddDieHashEntryIdempotent(t: Table, e: Entry)
    requires ChainOk(t) && Unique(t)
    requires AddDieHashEntry(t, e).Ok?
    ensures var u := AddDieHashEntry(t, e).value;
            AddDieHashEntry(u, e) == Ok(u)
  {
    AddDieHashEntryOk(t, e);
    var u := AddDieHashEntry(t, e).value;
    var j :| 0 <= j < DIE_HASH_SIZE && u[j].Some? && SameKey(u[j].value, e);
    ProbeFindsKey(u, e, 0, j);
  }

  /** An entry answers a lookup for `name` and `tag` (0 for any tag). */
  predicate Matches(e: Entry, name: seq<byte>, tag: nat)
  {
    (tag == 0 || e.tag == tag) && e.name == name
  }

  /** The matching entries from step `d` of the probe sequence of `name`
      up to the first empty slot or the return to the home slot. */
  function FindFrom(t: Table, name: seq<byte>, tag: nat, d: nat): (r: seq<Entry>)
    requires d <= DIE_HASH_SIZE
    ensures |r| <= DIE_HASH_SIZE - d
    decreases DIE_HASH_SIZE - d
  {
    if d == DIE_HASH_SIZE then []
    else match t[Slot(Home(name), d)]
      case None => []
      case Some(e) => (if Matches(e, name, tag) then [e] else []) + FindFrom(t, name, tag, d + 1)
  }

  /** The DIEs named `name` with the given tag (any tag when 0), in probe
      order; ValueError when there are none. */
  function Find(t: Table, name: seq<byte>, tag: nat): (r: Result<seq<Entry>>)
    ensures r.Err? ==> r.error == NotFound
    ensures r.Ok? ==> |r.value| > 0
  {
    var found := FindFrom(t, name, tag, 0);
    if found == [] then Err(NotFound) else Ok(found)
  }

  predicate InTable(t: Table, e: Entry)
  {
    exists j :: 0 <= j < DIE_HASH_SIZE && t[j] == Some(e)
  }

  lemma {:induction false} FindFromSound(t: Table, name: seq<byte>, tag: nat, d: nat, e: Entry)
    requires d <= DIE_HASH_SIZE
    ensures e in FindFrom(t, name, tag, d) ==> Matches(e, name, tag) && InTable(t, e)
    decreases DIE_HASH_SIZE - d
  {
    if d < DIE_HASH_SIZE && t[Slot(Home(name), d)].Some? {
      var j := Slot(Home(name), d);
      var here := t[j].value;
      assert FindFrom(t, name, tag, d)
          == (if Matches(here, name, tag) then [here] else []) + FindFrom(t, name, tag, d + 1);
      FindFromSound(t, name, tag, d + 1, e);
      if e == here {
        assert t[j] == Some(e);
      }
    }
  }

  lemma {:induction false} FindFromReaches(t: Table, name: seq<byte>, tag: nat, d: nat, j: nat)
    requires ChainOk(t)
    requires j < DIE_HASH_SIZE && t[j].Some? && Matches(t[j].value, name, tag)
    requires d <= Dist(Home(name), j)
    ensures t[j].value in FindFrom(t, name, tag, d)
    decreases Dist(Home(name), j) - d
  {
    var h := Home(name);
    assert Home(t[j].value.name) == h;
    if d < Dist(h, j) {
      assert t[Slot(h, d)].Some?;
      FindFromReaches(t, name, tag, d + 1, j);
    } else {
      assert Slot(h, d) == j;
    }
  }

  /** On a table that keeps the chain invariant the lookup returns exactly
      the entries that match: all of them, and nothing else. */
  lemma FindExact(t: Table, name: seq<byte>, tag: nat, e: Entry)
    requires ChainOk(t)
    ensures var r := Find(t, name, tag);
            (r.Ok? && e in r.value) <==> Matches(e, name, tag) && InTable(t, e)
  {
    FindFromSound(t, name, tag, 0, e);
    if Matches(e, name, tag) && InTable(t, e) {
      var j :| 0 <= j < DIE_HASH_SIZE && t[j] == Some(e);
      FindFromReaches(t, name, tag, 0, j);
    }
  }
}

=== FILE: dwarf_index.dfy ===
/** Adding files to the index: every file's sections are read and the
    files without the needed sections are dropped, the debug sections of
    the rest are relocated, then each file's .debug_str is checked and its
    units are read, and finally the new units are indexed into the DIE hash
    table. */
module DwarfIndex {
  import opened Base
  import opened CuHeader
  import opened IndexCu
  import Elf
  import DieHash

  /** A file read_sections accepted, with where its sections lie. */
  datatype Loaded = Loaded(file: seq<byte>, layout: Elf.Layout)

  predicate LoadedOk(f: Loaded)
  {
    Elf.LayoutOk(|f.file|, f.layout)
  }

  /** The files read_sections keeps, each with its layout; a reference
      definition that ignores errors. */
  function Kept(files: seq<seq<byte>>): seq<Loaded>
  {
    if files == [] then []
    else
      var r := Elf.ReadSections(files[0]);
      var rest := Kept(files[1..]);
      if r.Ok? && r.value.Some? then [Loaded(files[0], r.value.value)] + rest else rest
  }

  /** read_sections on each file in turn, dropping the files it skips; the
      first error is reported. */
  function ReadAll(files: seq<seq<byte>>): (r: Result<seq<Loaded>>)
    ensures r.Ok? ==> |r.value| <= |files|
    ensures r.Ok? ==> forall i :: 0 <= i < |r.value| ==> LoadedOk(r.value[i])
  {
    if files == [] then Ok([])
    else
      var layout :- Elf.ReadSections(files[0]);
      var rest :- ReadAll(files[1..]);
      if layout.None? then Ok(rest) else Ok([Loaded(files[0], layout.value)] + rest)
  }

  /** Reading fails exactly when read_sections fails on some file, and the
      loaded files are those whose sections were all found, in order. */
  lemma {:induction false} ReadAllMeaning(files: seq<seq<byte>>)
    ensures ReadAll(files).Ok? <==> forall i :: 0 <= i < |files| ==> Elf.ReadSections(files[i]).Ok?
    ensures ReadAll(files).Ok? ==> ReadAll(files).value == Kept(files)
  {
    if files != [] {
      ReadAllMeaning(files[1..]);
      assert forall i :: 1 <= i < |files| ==> files[i] == files[1..][i - 1];
    }
  }

  /** Every debug section of the loaded file relocates. */
  predicate Relocates(f: Loaded)
    requires LoadedOk(f)
  {
    && Elf.Relocated(f.file, f.layout, 0).Ok?
    && Elf.Relocated(f.file, f.layout, 1).Ok?
    && Elf.Relocated(f.file, f.layout, 2).Ok?
    && Elf.Relocated(f.file, f.layout, 3).Ok?
  }

  /** The sections have the sizes the section headers of the loaded file
      give them. */
  predicate SizedAs(f: Loaded, s: Sections)
  {
    && |f.layout.debug| == Elf.NUM_DEBUG_SECTIONS
    && |s.abbrev| == f.layout.debug[0].size
    && |s.info| == f.layout.debug[1].size
    && |s.line| == f.layout.debug[2].size
    && |s.str| == f.layout.debug[3].size
  }

  /** The four debug sections of one loaded file with their relocations
      applied. */
  function RelocateFile(f: Loaded): (r: Result<Sections>)
    requires LoadedOk(f)
    ensures r.Ok? <==> Relocates(f)
    ensures r.Ok? ==> SizedAs(f, r.value)
  {
    var abbrev := Elf.Relocated(f.file, f.layout, 0);
    var info := Elf.Relocated(f.file, f.layout, 1);
    var line := Elf.Relocated(f.file, f.layout, 2);
    var str := Elf.Relocated(f.file, f.layout, 3);
    if abbrev.Err? then Err(abbrev.error)
    else if info.Err? then Err(info.error)
    else if line.Err? then Err(line.error)
    else if str.Err? then Err(str.error)
    else Ok(Sections(info.value, abbrev.value, line.value, str.value))
  }

  /** apply_relocations: the debug sections of every loaded file with their
      relocations applied. */
  function RelocateAll(loaded: seq<Loaded>): (r: Result<seq<Sections>>)
    requires forall i :: 0 <= i < |loaded| ==> LoadedOk(loaded[i])
    ensures r.Ok? ==> |r.value| == |loaded|
  {
    if loaded == [] then Ok([])
    else
      assert LoadedOk(loaded[0]);
      var first :- RelocateFile(loaded[0]);
      var rest :- RelocateAll(loaded[1..]);
      Ok([first] + rest)
  }

  /** Relocation fails exactly when some debug section of some file does
      not relocate. */
  lemma {:induction false} RelocateAllOk(loaded: seq<Loaded>)
    requires forall i :: 0 <= i < |loaded| ==> LoadedOk(loaded[i])
    ensures RelocateAll(loaded).Ok? <==> forall i :: 0 <= i < |loaded| ==> Relocates(loaded[i])
  {
    if loaded != [] {
      RelocateAllOk(loaded[1..]);
      assert forall i :: 1 <= i < |loaded| ==> loaded[i] == loaded[1..][i - 1];
    }
  }

  /** Relocation gives each file's debug sections the sizes its section
      headers state. */
  lemma {:induction false} RelocateAllSized(loaded: seq<Loaded>)
    requires forall i :: 0 <= i < |loaded| ==> LoadedOk(loaded[i])
    ensures RelocateAll(loaded).Ok? ==>
              forall i :: 0 <= i < |loaded| ==> SizedAs(loaded[i], RelocateAll(loaded).value[i])
  {
    if loaded != [] && RelocateAll(loaded).Ok? {
      RelocateAllSized(loaded[1..]);
      assert forall i :: 1 <= i < |loaded| ==> loaded[i] == loaded[1..][i - 1];
    }
  }

  /** The section is not empty and its last byte is NUL. */
  predicate Terminated(str: seq<byte>)
  {
    |str| > 0 && str[|str| - 1] == 0
  }

  /** The units of file `j`, once its .debug_str is found to end in NUL. */
  function FileUnits(files: seq<Sections>, j: nat): (r: Result<seq<CompilationUnit>>)
    requires j < |files|
    ensures !Terminated(files[j].str) ==> r == Err(FormatError(".debug_str is not null terminated"))
    ensures r.Ok? ==> Terminated(files[j].str)
    ensures r.Ok? ==> forall k :: 0 <= k < |r.value| ==> Indexable(files, r.value[k]) && r.value[k].file == j
  {
    var _ :- CheckDebugStr(files[j].str);
    var cus :- ReadCus(files[j].info, 0, j);
    TilesValid(files[j].info, cus, 0, |files[j].info|);
    ReadCusExact(files[j].info, 0, j, cus);
    Ok(cus)
  }

  /** The units of the files from `i` on, file by file; this succeeds only
      when every file's .debug_str ends in NUL. */
  function ReadAllCus(files: seq<Sections>, i: nat): (r: Result<seq<CompilationUnit>>)
    requires i <= |files|
    ensures r.Ok? ==> forall k :: 0 <= k < |r.value| ==> Indexable(files, r.value[k]) && i <= r.value[k].file
    ensures r.Ok? ==> forall j :: i <= j < |files| ==> Terminated(files[j].str)
    decreases |files| - i
  {
    if i == |files| then Ok([])
    else
      var cus :- FileUnits(files, i);
      var rest :- ReadAllCus(files, i + 1);
      Ok(cus + rest)
  }

  /** The index: the files' relocated sections, every unit read so far and
      the DIE hash table. */
  datatype Index = Index(files: seq<Sections>, cus: seq<CompilationUnit>, table: DieHash.Table)

  /** Every unit belongs to a file of the index and can be walked, the
      table keeps its invariants, every entry names a unit of the index and
      every file's .debug_str ends in NUL. */
  predicate IndexOk(x: Index)
  {
    && (forall k :: 0 <= k < |x.cus| ==> Indexable(x.files, x.cus[k]))
    && (forall j :: 0 <= j < |x.files| ==> Terminated(x.files[j].str))
    && Good(x.table)
    && (forall j :: 0 <= j < DieHash.DIE_HASH_SIZE && x.table[j].Some? ==> x.table[j].value.cu < |x.cus|)
  }

  function Empty(): (x: Index)
    ensures IndexOk(x)
  {
    Index([], [], DieHash.EmptyTable())
  }

  /** DwarfIndex_add: indexes the files whose bytes are given. */
  function Add(x: Index, files: seq<seq<byte>>): (r: Result<Index>)
    ensures r.Ok? ==> |x.files| <= |r.value.files| && r.value.files[..|x.files|] == x.files
    ensures r.Ok? ==> |x.cus| <= |r.value.cus| && r.value.cus[..|x.cus|] == x.cus
  {
    var loaded :- ReadAll(files);
    if loaded == [] then Ok(x)
    else
      var secs :- RelocateAll(loaded);
      var all := x.files + secs;
      var cus :- ReadAllCus(all, |x.files|);
      var table :- IndexCus(all, cus, |x.cus|, x.table);
      Ok(Index(all, x.cus + cus, table))
  }

  lemma {:induction false} KeptNone(files: seq<seq<byte>>)
    requires forall i :: 0 <= i < |files| ==> Elf.ReadSections(files[i]) == Ok(None)
    ensures Kept(files) == []
  {
    if files != [] {
      assert forall i :: 1 <= i < |files| ==> files[i] == files[1..][i - 1];
      KeptNone(files[1..]);
    }
  }

  /** Adding files none of which has all the debug sections leaves the
      index as it was. */
  lemma AddSkipped(x: Index, files: seq<seq<byte>>)
    requires forall i :: 0 <= i < |files| ==> Elf.ReadSections(files[i]) == Ok(None)
    ensures Add(x, files) == Ok(x)
  {
    ReadAllMeaning(files);
    KeptNone(files);
  }

  /** Adding files keeps the index well formed, and it only fills empty
      slots of the table, with entries of the new units. */
  lemma AddKeeps(x: Index, files: seq<seq<byte>>)
    requires IndexOk(x)
    ensures var r := Add(x, files);
            r.Ok? ==> IndexOk(r.value) && Extends(x.table, r.value.table, |x.cus|, |r.value.cus|)
  {
    var r := Add(x, files);
    var loaded := ReadAll(files);
    if r.Ok? && loaded.value != [] {
      var secs := RelocateAll(loaded.value).value;
      var all := x.files + secs;
      var cus := ReadAllCus(all, |x.files|).value;
      IndexCusKeeps(all, cus, |x.cus|, x.table);
      var y := r.value;
      assert y == Index(all, x.cus + cus, y.table);
      forall k | 0 <= k < |y.cus|
        ensures Indexable(y.files, y.cus[k])
      {
        if k < |x.cus| {
          assert y.cus[k] == x.cus[k] && Indexable(x.files, x.cus[k]);
          assert all[x.cus[k].file] == x.files[x.cus[k].file];
        } else {
          assert y.cus[k] == cus[k - |x.cus|];
        }
      }
      forall j | 0 <= j < |y.files|
        ensures Terminated(y.files[j].str)
      {
        if j < |x.files| {
          assert y.files[j] == x.files[j];
        }
      }
      forall j | 0 <= j < DieHash.DIE_HASH_SIZE && y.table[j].Some?
        ensures y.table[j].value.cu < |y.cus|
      {
        if y.table[j] == x.table[j] {
          assert x.table[j].Some?;
        }
      }
    }
  }
}

=== FILE: elf.dfy ===
/** The ELF side of the indexer: validating the ELF64 file header and the
    section header table (System V gABI), picking out .debug_abbrev,
    .debug_info, .debug_line, .debug_str, .symtab and the SHT_RELA
    sections that relocate the debug sections, and applying the x86-64
    relocations R_X86_64_NONE, R_X86_64_64 and R_X86_64_32 (section 4.4 of
    the System V AMD64 psABI). A file is the sequence of its bytes; the
    host is little-endian. */
module Elf {
  import opened Base

  type u16 = x: nat | x < 0x1_0000
  type u32 = x: nat | x < U32_LIMIT
  type u64 = x: nat | x < U64_LIMIT

  const EI_NIDENT: nat := 16
  const EI_CLASS: nat := 4
  const EI_DATA: nat := 5
  const EI_VERSION: nat := 6
  const ELFMAG: seq<byte> := [0x7f, 0x45, 0x4c, 0x46]  // "\177ELF"
  const EV_CURRENT: byte := 1
  const ELFDATA2LSB: byte := 1
  const ELFCLASS32: byte := 1
  const ELFCLASS64: byte := 2

  /** sizeof(Elf64_Ehdr), sizeof(Elf64_Shdr), sizeof(Elf64_Rela) and
      sizeof(Elf64_Sym). */
  const EHDR_SIZE: nat := 64
  const SHDR_SIZE: nat := 64
  const RELA_SIZE: nat := 24
  const SYM_SIZE: nat := 24

  const SHN_UNDEF: nat := 0
  const SHN_XINDEX: nat := 0xffff
  const SHT_PROGBITS: nat := 1
  const SHT_SYMTAB: nat := 2
  const SHT_RELA: nat := 4

  const R_X86_64_NONE: nat := 0
  const R_X86_64_64: nat := 1
  const R_X86_64_32: nat := 10

  lemma Pow256Widths()
    ensures Pow256(2) == 0x1_0000 && Pow256(4) == U32_LIMIT && Pow256(8) == U64_LIMIT
  {
    assert Pow256(1) == 256;
    assert Pow256(2) == 0x1_0000;
    assert Pow256(3) == 0x100_0000;
    assert Pow256(4) == U32_LIMIT;
    assert Pow256(5) == 0x100_0000_0000;
    assert Pow256(6) == 0x1_0000_0000_0000;
    assert Pow256(7) == 0x100_0000_0000_0000;
  }

  /** The unsigned little-endian field of `width` bytes at `off`. */
  function Field(data: seq<byte>, off: nat, width: nat): (v: nat)
    requires off + width <= |data|
    ensures v < Pow256(width)
  {
    LittleEndian(data[off..off + width])
  }

  /** The fields of Elf64_Ehdr the indexer uses. */
  datatype Ehdr = Ehdr(shoff: u64, shnum: u16, shstrndx: u16)

  /** An ELF identification the indexer accepts: the magic number, the
      current version, little-endian data and the 64-bit class, in a file
      that holds a whole ELF header. */
  predicate Elf64Ident(file: seq<byte>)
  {
    && |file| >= EHDR_SIZE
    && file[..4] == ELFMAG
    && file[EI_VERSION] == EV_CURRENT
    && file[EI_DATA] == ELFDATA2LSB
    && file[EI_CLASS] == ELFCLASS64
  }

  /** validate_ehdr, returning the fields read_sections goes on with. The
      end of the section header table is computed in 64-bit arithmetic,
      after a check that keeps it from wrapping. */
  function ValidateEhdr(file: seq<byte>): (r: Result<Ehdr>)
    ensures r.Ok? ==> Elf64Ident(file)
    ensures r.Ok? ==> 1 <= r.value.shnum && r.value.shoff + SHDR_SIZE * r.value.shnum <= |file|
  {
    if |file| < EI_NIDENT || file[..4] != ELFMAG then Err(FormatError("not an ELF file"))
    else if file[EI_VERSION] != EV_CURRENT then Err(FormatError("ELF version is not EV_CURRENT"))
    else if file[EI_DATA] != ELFDATA2LSB then Err(NotImplemented("ELF file endianness does not match machine"))
    else if file[EI_CLASS] == ELFCLASS32 then Err(NotImplemented("32-bit ELF is not implemented"))
    else if file[EI_CLASS] != ELFCLASS64 then Err(FormatError("unknown ELF class"))
    else if |file| < EHDR_SIZE then Err(FormatError("ELF header is truncated"))
    else
      Pow256Widths();
      var shoff: u64 := Field(file, 40, 8);
      var shnum: u16 := Field(file, 60, 2);
      var shstrndx: u16 := Field(file, 62, 2);
      if shnum == 0 then Err(FormatError("ELF file has no sections"))
      else if shoff > SIZE_MAX - SHDR_SIZE * shnum || (shoff + SHDR_SIZE * shnum) % U64_LIMIT > |file| then
        Err(FormatError("ELF section header table is beyond EOF"))
      else Ok(Ehdr(shoff, shnum, shstrndx))
  }

  /** For a file whose size fits in a size_t, the header is accepted exactly
      when it is an ELF64 little-endian header of the current version with
      at least one section and the whole section header table in the file:
      the overflow check rejects nothing that fits. */
  lemma ValidateEhdrExact(file: seq<byte>)
    requires |file| <= SIZE_MAX
    ensures ValidateEhdr(file).Ok? <==>
              && Elf64Ident(file)
              && Field(file, 60, 2) != 0
              && Field(file, 40, 8) + SHDR_SIZE * Field(file, 60, 2) <= |file|
  {
    if Elf64Ident(file) {
      Pow256Widths();
      assert file[..EI_NIDENT][..4] == file[..4];
    }
  }

  /** The fields of Elf64_Shdr the indexer uses. */
  datatype Shdr = Shdr(name: u32, kind: u32, offset: u64, size: u64, link: u32, info: u32)

  function ShdrAt(file: seq<byte>, off: nat): Shdr
    requires off + SHDR_SIZE <= |file|
  {
    Pow256Widths();
    Shdr(Field(file, off, 4), Field(file, off + 4, 4), Field(file, off + 24, 8),
         Field(file, off + 32, 8), Field(file, off + 40, 4), Field(file, off + 44, 4))
  }

  /** The section header table. */
  function Headers(file: seq<byte>, e: Ehdr): (hs: seq<Shdr>)
    requires e.shoff + SHDR_SIZE * e.shnum <= |file|
    ensures |hs| == e.shnum
  {
    seq(e.shnum, i requires 0 <= i < e.shnum => ShdrAt(file, e.shoff + SHDR_SIZE * i))
  }

  /** validate_shdr: the section must end inside the file; its end is
      computed in 64-bit arithmetic after a check that keeps it from
      wrapping. */
  function ValidateShdr(fileSize: nat, h: Shdr): (r: Result<()>)
    ensures r.Ok? ==> h.offset + h.size <= fileSize
    ensures r.Err? ==> r.error == FormatError("ELF section is beyond EOF")
  {
    if h.offset > SIZE_MAX - h.size || (h.offset + h.size) % U64_LIMIT > fileSize then
      Err(FormatError("ELF section is beyond EOF"))
    else Ok(())
  }

  /** For a file whose size fits in a size_t, a section is accepted exactly
      when it ends inside the file. */
  lemma ValidateShdrExact(fileSize: nat, h: Shdr)
    requires fileSize <= SIZE_MAX
    ensures ValidateShdr(fileSize, h).Ok? <==> h.offset + h.size <= fileSize
  {
  }

  /** The index of the section header string table: e_shstrndx, or for
      SHN_XINDEX the sh_link of section 0, stored into a 16-bit variable. */
  function ShstrtabIndex(e: Ehdr, hs: seq<Shdr>): (r: Result<nat>)
    requires |hs| == e.shnum >= 1
    ensures r.Ok? ==> 1 <= r.value < e.shnum
    ensures r.Ok? && e.shstrndx != SHN_XINDEX ==> r.value == e.shstrndx
    ensures r.Ok? && e.shstrndx == SHN_XINDEX ==> r.value == hs[0].link % 0x1_0000
    ensures r.Err? ==> r.error == FormatError("invalid ELF section header string table index")
  {
    var index: nat := if e.shstrndx == SHN_XINDEX then hs[0].link % 0x1_0000 else e.shstrndx;
    if index == SHN_UNDEF || index >= e.shnum then
      Err(FormatError("invalid ELF section header string table index"))
    else Ok(index)
  }

  function Ascii(s: string): (b: seq<byte>)
    requires forall i :: 0 <= i < |s| ==> s[i] as int < 256
    ensures |b| == |s|
  {
    seq(|s|, i requires 0 <= i < |s| => s[i] as int)
  }

  /** The four debug sections in the indexer's order: DEBUG_ABBREV,
      DEBUG_INFO, DEBUG_LINE, DEBUG_STR. */
  function DebugNames(): (names: seq<seq<byte>>)
    ensures |names| == NUM_DEBUG_SECTIONS
    ensures forall k :: 0 <= k < |names| ==> 0 !in names[k]
  {
    [Ascii(".debug_abbrev"), Ascii(".debug_info"), Ascii(".debug_line"), Ascii(".debug_str")]
  }

  /** The four names differ in their eighth byte. */
  lemma DebugNamesDiffer()
    ensures forall k :: 0 <= k < NUM_DEBUG_SECTIONS ==> |DebugNames()[k]| > 7
    ensures DebugNames()[0][7] == 'a' as int && DebugNames()[1][7] == 'i' as int
    ensures DebugNames()[2][7] == 'l' as int && DebugNames()[3][7] == 's' as int
  {
  }

  const NUM_DEBUG_SECTIONS: nat := 4
  /** The slot of .symtab, after the four debug sections. */
  const SYMTAB_SLOT: nat := 4

  /** Whether the NUL-terminated name at `off` in the section header
      string table is `n`, its NUL lying inside the table. */
  predicate NameIs(strtab: seq<byte>, off: nat, n: seq<byte>)
  {
    off + |n| < |strtab| && strtab[off..off + |n|] == n && strtab[off + |n|] == 0
  }

  /** A table holds one string at an offset: two names without a NUL that
      are both found there are the same. */
  lemma NameIsUnique(strtab: seq<byte>, off: nat, a: seq<byte>, b: seq<byte>)
    requires 0 !in a && 0 !in b
    requires NameIs(strtab, off, a) && NameIs(strtab, off, b)
    ensures a == b
  {
    if |a| == |b| {
      assert a == strtab[off..off + |a|] == b;
    }
  }


  /** Which slot of the file a section header fills: 0 to 3 for an
      SHT_PROGBITS section named after a debug section, SYMTAB_SLOT for the
      SHT_SYMTAB section, none for any other. A name at offset 0 or past
      the string table names nothing. */
  function SlotOf(strtab: seq<byte>, h: Shdr): (k: Option<nat>)
    ensures k.Some? ==> k.value <= SYMTAB_SLOT
    ensures k == Some(SYMTAB_SLOT) <==> h.kind == SHT_SYMTAB
  {
    if h.kind == SHT_PROGBITS then
      if h.name == 0 || h.name >= |strtab| then None
      else if NameIs(strtab, h.name, DebugNames()[0]) then Some(0)
      else if NameIs(strtab, h.name, DebugNames()[1]) then Some(1)
      else if NameIs(strtab, h.name, DebugNames()[2]) then Some(2)
      else if NameIs(strtab, h.name, DebugNames()[3]) then Some(3)
      else None
    else if h.kind == SHT_SYMTAB then Some(SYMTAB_SLOT)
    else None
  }

  /** A header fills debug slot `k` exactly when it is an SHT_PROGBITS
      section with a non-zero name offset naming debug section `k`: the
      order of the name comparisons does not matter. */
  lemma SlotOfDebug(strtab: seq<byte>, h: Shdr, k: nat)
    requires k < NUM_DEBUG_SECTIONS
    ensures SlotOf(strtab, h) == Some(k) <==>
              h.kind == SHT_PROGBITS && h.name != 0 && NameIs(strtab, h.name, DebugNames()[k])
  {
    var names := DebugNames();
    DebugNamesDiffer();
    if h.kind == SHT_PROGBITS && h.name != 0 && NameIs(strtab, h.name, names[k]) {
      forall j | 0 <= j < k && NameIs(strtab, h.name, names[j])
        ensures false
      {
        NameIsUnique(strtab, h.name, names[j], names[k]);
      }
    }
  }

  /** The last of the first `n` positions whose slot is `k`: the header
      that fills slot `k` once the loop has passed position `n`. */
  function LastOf(slots: seq<Option<nat>>, k: nat, n: nat): (r: Option<nat>)
    requires n <= |slots|
    ensures r.Some? ==> r.value < n && slots[r.value] == Some(k)
    ensures r.Some? ==> forall i :: r.value < i < n ==> slots[i] != Some(k)
    ensures r.None? ==> forall i :: 0 <= i < n ==> slots[i] != Some(k)
  {
    if n == 0 then None
    else if slots[n - 1] == Some(k) then Some(n - 1)
    else LastOf(slots, k, n - 1)
  }

  /** Where a section lies: its header index, file offset and size. */
  datatype Located = Located(index: nat, offset: nat, size: nat)

  function LocatedOf(hs: seq<Shdr>, i: nat): Located
    requires i < |hs|
  {
    Located(i, hs[i].offset, hs[i].size)
  }

  function LocatedAt(hs: seq<Shdr>, i: Option<nat>): Option<Located>
    requires i.Some? ==> i.value < |hs|
  {
    match i
    case None => None
    case Some(i) => Some(LocatedOf(hs, i))
  }

  predicate InFile(fileSize: nat, l: Located)
  {
    l.offset + l.size <= fileSize
  }

  /** The first loop of read_sections: every header that fills a slot must
      lie in the file and takes the slot over. */
  function Scan(fileSize: nat, hs: seq<Shdr>, slots: seq<Option<nat>>, i: nat, found: seq<Option<Located>>)
    : (r: Result<seq<Option<Located>>>)
    requires |slots| == |hs| && i <= |hs| && |found| == SYMTAB_SLOT + 1
    ensures r.Ok? ==> |r.value| == SYMTAB_SLOT + 1
    ensures r.Err? ==> r.error == FormatError("ELF section is beyond EOF")
    decreases |hs| - i
  {
    if i == |hs| then Ok(found)
    else match slots[i]
      case None => Scan(fileSize, hs, slots, i + 1, found)
      case Some(k) =>
        if k > SYMTAB_SLOT then Scan(fileSize, hs, slots, i + 1, found)
        else
          var _ :- ValidateShdr(fileSize, hs[i]);
          Scan(fileSize, hs, slots, i + 1, found[k := Some(LocatedOf(hs, i))])
  }

  /** The slots as a scan leaves them after position `n`: each one holds
      the last header before `n` that fills it. */
  predicate ScannedTo(hs: seq<Shdr>, slots: seq<Option<nat>>, n: nat, found: seq<Option<Located>>)
    requires |slots| == |hs| && n <= |hs|
  {
    forall k :: 0 <= k < |found| ==> found[k] == LocatedAt(hs, LastOf(slots, k, n))
  }

  /** Taking over the slot of header `i` extends what the scan has seen by
      that header. */
  lemma ScanStep(hs: seq<Shdr>, slots: seq<Option<nat>>, i: nat, found: seq<Option<Located>>)
    requires |slots| == |hs| && i < |hs| && ScannedTo(hs, slots, i, found)
    requires slots[i].Some? ==> slots[i].value < |found|
    ensures ScannedTo(hs, slots, i + 1, if slots[i].Some? then found[slots[i].value := Some(LocatedOf(hs, i))] else found)
  {
    var found' := if slots[i].Some? then found[slots[i].value := Some(LocatedOf(hs, i))] else found;
    forall k | 0 <= k < |found'|
      ensures found'[k] == LocatedAt(hs, LastOf(slots, k, i + 1))
    {
    }
  }

  /** Every filled slot holds a section that lies in the file. */
  predicate FoundInFile(fileSize: nat, found: seq<Option<Located>>)
  {
    forall k :: 0 <= k < |found| && found[k].Some? ==> InFile(fileSize, found[k].value)
  }

  /** The scan fails exactly when a header that fills a slot lies past the
      end of the file. */
  lemma {:induction false} ScanOk(fileSize: nat, hs: seq<Shdr>, slots: seq<Option<nat>>, i: nat, found: seq<Option<Located>>)
    requires |slots| == |hs| && i <= |hs| && |found| == SYMTAB_SLOT + 1
    requires forall j :: 0 <= j < |slots| && slots[j].Some? ==> slots[j].value <= SYMTAB_SLOT
    ensures Scan(fileSize, hs, slots, i, found).Ok? <==>
              forall j :: i <= j < |hs| && slots[j].Some? ==> ValidateShdr(fileSize, hs[j]).Ok?
    decreases |hs| - i
  {
    if i < |hs| {
      var found' := if slots[i].Some? then found[slots[i].value := Some(LocatedOf(hs, i))] else found;
      ScanOk(fileSize, hs, slots, i + 1, found');
    }
  }

  /** A successful scan leaves in each slot the last header that fills it,
      which lies in the file. */
  lemma {:induction false} ScanResult(fileSize: nat, hs: seq<Shdr>, slots: seq<Option<nat>>, i: nat, found: seq<Option<Located>>)
    requires |slots| == |hs| && i <= |hs| && |found| == SYMTAB_SLOT + 1 && ScannedTo(hs, slots, i, found)
    requires FoundInFile(fileSize, found)
    requires forall j :: 0 <= j < |slots| && slots[j].Some? ==> slots[j].value <= SYMTAB_SLOT
    ensures var r := Scan(fileSize, hs, slots, i, found);
            r.Ok? ==> ScannedTo(hs, slots, |hs|, r.value) && FoundInFile(fileSize, r.value)
    decreases |hs| - i
  {
    if i < |hs| {
      if slots[i].None? || ValidateShdr(fileSize, hs[i]).Ok? {
        ScanStep(hs, slots, i, found);
        var found' := if slots[i].Some? then found[slots[i].value := Some(LocatedOf(hs, i))] else found;
        assert FoundInFile(fileSize, found');
        ScanResult(fileSize, hs, slots, i + 1, found');
      }
    }
  }

  /** The slot of every header, against the section header string table. */
  function Slots(strtab: seq<byte>, hs: seq<Shdr>): (slots: seq<Option<nat>>)
    ensures |slots| == |hs|
    ensures forall j :: 0 <= j < |hs| ==> slots[j] == SlotOf(strtab, hs[j])
  {
    seq(|hs|, j requires 0 <= j < |hs| => SlotOf(strtab, hs[j]))
  }

  /** The first debug section whose header index is `info`. */
  function TargetOf(debug: seq<Located>, info: nat): (j: Option<nat>)
    ensures j.Some? ==> j.value < |debug| && debug[j.value].index == info
    ensures j.None? ==> forall k :: 0 <= k < |debug| ==> debug[k].index != info
    ensures j.Some? ==> forall k :: 0 <= k < j.value ==> debug[k].index != info
  {
    if debug == [] then None
    else if debug[0].index == info then Some(0)
    else match TargetOf(debug[1..], info)
      case None => None
      case Some(j) => Some(j + 1)
  }

  /** The debug section each header relocates, if it is an SHT_RELA
      section whose sh_info names one. */
  function RelaSlots(hs: seq<Shdr>, debug: seq<Located>): (slots: seq<Option<nat>>)
    ensures |slots| == |hs|
    ensures forall j :: 0 <= j < |hs| ==>
              slots[j] == (if hs[j].kind == SHT_RELA then TargetOf(debug, hs[j].info) else None)
  {
    seq(|hs|, j requires 0 <= j < |hs| => if hs[j].kind == SHT_RELA then TargetOf(debug, hs[j].info) else None)
  }

  /** The second loop of read_sections: every relocation section of a
      debug section must use .symtab and lie in the file, and takes over
      that section's relocation slot. */
  function ScanRela(fileSize: nat, hs: seq<Shdr>, slots: seq<Option<nat>>, symtab: Located, i: nat,
                    rela: seq<Option<Located>>)
    : (r: Result<seq<Option<Located>>>)
    requires |slots| == |hs| && i <= |hs| && |rela| == NUM_DEBUG_SECTIONS
    ensures r.Ok? ==> |r.value| == NUM_DEBUG_SECTIONS
    decreases |hs| - i
  {
    if i == |hs| then Ok(rela)
    else match slots[i]
      case None => ScanRela(fileSize, hs, slots, symtab, i + 1, rela)
      case Some(j) =>
        if j >= NUM_DEBUG_SECTIONS then ScanRela(fileSize, hs, slots, symtab, i + 1, rela)
        else if hs[i].link != symtab.index then
          Err(FormatError("relocation symbol table section is not .symtab"))
        else
          var _ :- ValidateShdr(fileSize, hs[i]);
          ScanRela(fileSize, hs, slots, symtab, i + 1, rela[j := Some(LocatedOf(hs, i))])
  }

  /** The relocation scan succeeds exactly when every relocation section of
      a debug section uses the symbol table and lies in the file, and then
      leaves in each slot the last of them. */
  lemma {:induction false} ScanRelaMeaning(fileSize: nat, hs: seq<Shdr>, slots: seq<Option<nat>>, symtab: Located, i: nat,
                                           rela: seq<Option<Located>>)
    requires |slots| == |hs| && i <= |hs| && |rela| == NUM_DEBUG_SECTIONS && ScannedTo(hs, slots, i, rela)
    requires forall j :: 0 <= j < |slots| && slots[j].Some? ==> slots[j].value < NUM_DEBUG_SECTIONS
    ensures var r := ScanRela(fileSize, hs, slots, symtab, i, rela);
            && (r.Ok? <==> forall j :: i <= j < |hs| && slots[j].Some? ==>
                             hs[j].link == symtab.index && ValidateShdr(fileSize, hs[j]).Ok?)
            && (r.Ok? ==> ScannedTo(hs, slots, |hs|, r.value))
    decreases |hs| - i
  {
    if i < |hs| {
      ScanStep(hs, slots, i, rela);
      var rela' := if slots[i].Some? then rela[slots[i].value := Some(LocatedOf(hs, i))] else rela;
      ScanRelaMeaning(fileSize, hs, slots, symtab, i + 1, rela');
    }
  }

  /** The sections of a file the indexer uses. */
  datatype Layout = Layout(symtab: Located, debug: seq<Located>, rela: seq<Option<Located>>)

  const NoSlots: seq<Option<Located>> := [None, None, None, None, None]
  const NoRela: seq<Option<Located>> := [None, None, None, None]

  /** Whether the first loop filled every slot. */
  predicate AllFound(found: seq<Option<Located>>)
    requires |found| == SYMTAB_SLOT + 1
  {
    forall k :: 0 <= k <= SYMTAB_SLOT ==> found[k].Some?
  }

  /** Everything from the section header table on, given the headers and
      the section header string table. */
  function SelectSections(fileSize: nat, hs: seq<Shdr>, strtab: seq<byte>): (r: Result<Option<Layout>>)
    ensures r.Ok? && r.value.Some? ==>
              |r.value.value.debug| == NUM_DEBUG_SECTIONS && |r.value.value.rela| == NUM_DEBUG_SECTIONS
  {
    var found :- Scan(fileSize, hs, Slots(strtab, hs), 0, NoSlots);
    if !AllFound(found) then Ok(None)
    else WithRelocations(fileSize, hs, found)
  }

  /** The second loop of read_sections, once every slot is filled. */
  function WithRelocations(fileSize: nat, hs: seq<Shdr>, found: seq<Option<Located>>): (r: Result<Option<Layout>>)
    requires |found| == SYMTAB_SLOT + 1 && AllFound(found)
    ensures r.Ok? ==> r.value.Some? && |r.value.value.debug| == NUM_DEBUG_SECTIONS
                      && |r.value.value.rela| == NUM_DEBUG_SECTIONS
    ensures r.Ok? ==> r.value.value.symtab == found[SYMTAB_SLOT].value
    ensures r.Ok? ==> forall k :: 0 <= k < NUM_DEBUG_SECTIONS ==> r.value.value.debug[k] == found[k].value
  {
    var debug := [found[0].value, found[1].value, found[2].value, found[3].value];
    var rela :- ScanRela(fileSize, hs, RelaSlots(hs, debug), found[SYMTAB_SLOT].value, 0, NoRela);
    Ok(Some(Layout(found[SYMTAB_SLOT].value, debug, rela)))
  }

  /** read_sections. `Ok(None)` is its 0: the file lacks .symtab or one of
      the four debug sections and is skipped. Everything it selects lies
      inside the file. */
  function ReadSections(file: seq<byte>): (r: Result<Option<Layout>>)
    ensures r.Ok? && r.value.Some? ==> LayoutOk(|file|, r.value.value)
  {
    var e :- ValidateEhdr(file);
    SectionsFrom(file, e)
  }

  /** read_sections once the ELF header is validated. */
  function SectionsFrom(file: seq<byte>, e: Ehdr): (r: Result<Option<Layout>>)
    requires 1 <= e.shnum && e.shoff + SHDR_SIZE * e.shnum <= |file|
    ensures r.Ok? && r.value.Some? ==> LayoutOk(|file|, r.value.value)
  {
    var hs := Headers(file, e);
    var index :- ShstrtabIndex(e, hs);
    var _ :- ValidateShdr(|file|, hs[index]);
    var strtab := file[hs[index].offset..hs[index].offset + hs[index].size];
    SelectSectionsInFile(|file|, hs, strtab);
    SelectSections(|file|, hs, strtab)
  }

  /** A file is skipped exactly when the first loop succeeds and some slot
      has no header that fills it. */
  lemma SelectSectionsSkips(fileSize: nat, hs: seq<Shdr>, strtab: seq<byte>)
    ensures var slots := Slots(strtab, hs);
            SelectSections(fileSize, hs, strtab) == Ok(None) <==>
              && Scan(fileSize, hs, slots, 0, NoSlots).Ok?
              && exists k :: 0 <= k <= SYMTAB_SLOT && LastOf(slots, k, |hs|).None?
  {
    var slots := Slots(strtab, hs);
    ScanResult(fileSize, hs, slots, 0, NoSlots);
    var found := Scan(fileSize, hs, slots, 0, NoSlots);
    if found.Ok? && !AllFound(found.value) {
      var k :| 0 <= k <= SYMTAB_SLOT && found.value[k].None?;
      assert LastOf(slots, k, |hs|).None?;
    }
    if found.Ok? && exists k :: 0 <= k <= SYMTAB_SLOT && LastOf(slots, k, |hs|).None? {
      var k :| 0 <= k <= SYMTAB_SLOT && LastOf(slots, k, |hs|).None?;
      assert found.value[k].None?;
    }
  }

  /** The relocation slots hold SHT_RELA sections that name their debug
      section in sh_info, use .symtab and lie in the file. */
  lemma WithRelocationsMeaning(fileSize: nat, hs: seq<Shdr>, found: seq<Option<Located>>)
    requires |found| == SYMTAB_SLOT + 1 && AllFound(found)
    ensures var r := WithRelocations(fileSize, hs, found);
            r.Ok? ==>
              var l := r.value.value;
              forall k :: 0 <= k < NUM_DEBUG_SECTIONS && l.rela[k].Some? ==>
                   var i := l.rela[k].value.index;
                   && i < |hs| && l.rela[k].value == LocatedOf(hs, i)
                   && hs[i].kind == SHT_RELA && hs[i].info == l.debug[k].index
                   && hs[i].link == l.symtab.index
                   && InFile(fileSize, l.rela[k].value)
  {
    var debug := [found[0].value, found[1].value, found[2].value, found[3].value];
    var rslots := RelaSlots(hs, debug);
    var symtab := found[SYMTAB_SLOT].value;
    ScanRelaMeaning(fileSize, hs, rslots, symtab, 0, NoRela);
    var rela := ScanRela(fileSize, hs, rslots, symtab, 0, NoRela);
    if rela.Ok? {
      forall k | 0 <= k < NUM_DEBUG_SECTIONS && rela.value[k].Some?
        ensures var i := rela.value[k].value.index;
                && i < |hs| && rela.value[k].value == LocatedOf(hs, i)
                && hs[i].kind == SHT_RELA && hs[i].info == debug[k].index
                && hs[i].link == symtab.index && InFile(fileSize, rela.value[k].value)
      {
        var i := LastOf(rslots, k, |hs|).value;
        assert rslots[i] == Some(k);
      }
    }
  }

  /** What a selected layout means: .symtab and each debug section are the
      last header that fills their slot and lie in the file, and the
      relocation slots are as WithRelocationsMeaning states. */
  lemma SelectSectionsFound(fileSize: nat, hs: seq<Shdr>, strtab: seq<byte>)
    ensures var r := SelectSections(fileSize, hs, strtab);
            var slots := Slots(strtab, hs);
            r.Ok? && r.value.Some? ==>
              var l := r.value.value;
              && LastOf(slots, SYMTAB_SLOT, |hs|) == Some(l.symtab.index)
              && l.symtab == LocatedOf(hs, l.symtab.index)
              && InFile(fileSize, l.symtab)
              && forall k :: 0 <= k < NUM_DEBUG_SECTIONS ==>
                   && LastOf(slots, k, |hs|) == Some(l.debug[k].index)
                   && l.debug[k] == LocatedOf(hs, l.debug[k].index)
                   && InFile(fileSize, l.debug[k])
  {
    var slots := Slots(strtab, hs);
    ScanResult(fileSize, hs, slots, 0, NoSlots);
    var found := Scan(fileSize, hs, slots, 0, NoSlots);
    if found.Ok? && AllFound(found.value) {
      var r := WithRelocations(fileSize, hs, found.value);
      assert SelectSections(fileSize, hs, strtab) == r;
      FilledSlots(fileSize, hs, slots, found.value);
      if r.Ok? {
        var l := r.value.value;
        assert l.symtab == found.value[SYMTAB_SLOT].value;
        assert forall k :: 0 <= k < NUM_DEBUG_SECTIONS ==> l.debug[k] == found.value[k].value;
      }
    }
  }

  /** Once every slot is filled, each holds the last header that fills it,
      and that section lies in the file. */
  lemma FilledSlots(fileSize: nat, hs: seq<Shdr>, slots: seq<Option<nat>>, found: seq<Option<Located>>)
    requires |slots| == |hs| && |found| == SYMTAB_SLOT + 1 && AllFound(found)
    requires ScannedTo(hs, slots, |hs|, found) && FoundInFile(fileSize, found)
    ensures forall k :: 0 <= k <= SYMTAB_SLOT ==>
              && LastOf(slots, k, |hs|) == Some(found[k].value.index)
              && found[k].value == LocatedOf(hs, found[k].value.index)
              && InFile(fileSize, found[k].value)
  {
  }

  /** The fields of Elf64_Rela. r_info packs the symbol in its high 32
      bits and the type in its low 32; the addend is kept as the 64 bits of
      the signed field, which is what adding it to a uint64_t uses. */
  datatype Rela = Rela(offset: u64, sym: u32, kind: u32, addend: u64)

  function RelaAt(rela: seq<byte>, i: nat): Rela
    requires RELA_SIZE * (i + 1) <= |rela|
  {
    Pow256Widths();
    var info := Field(rela, RELA_SIZE * i + 8, 8);
    Rela(Field(rela, RELA_SIZE * i, 8), info / U32_LIMIT, info % U32_LIMIT, Field(rela, RELA_SIZE * i + 16, 8))
  }

  /** st_value of symbol `s`. */
  function SymValue(symtab: seq<byte>, s: nat): u64
    requires SYM_SIZE * (s + 1) <= |symtab|
  {
    Pow256Widths();
    Field(symtab, SYM_SIZE * s + 8, 8)
  }

  /** How many bytes a relocation type writes. */
  function Width(kind: nat): nat
  {
    if kind == R_X86_64_32 then 4 else 8
  }

  /** Stores `v`, truncated to `width` bytes, little-endian at `off`. */
  function Store(section: seq<byte>, off: nat, width: nat, v: nat): (r: seq<byte>)
    requires off + width <= |section|
    ensures |r| == |section|
    ensures r[..off] == section[..off] && r[off + width..] == section[off + width..]
    ensures LittleEndian(r[off..off + width]) == v % Pow256(width)
  {
    var bytes := EncodeLittleEndian(v, width);
    var r := section[..off] + bytes + section[off + width..];
    assert r[off..off + width] == bytes;
    DecodeEncode(v, width);
    r
  }

  /** Whether a relocation can be applied to a section of `size` bytes
      with a symbol table of `numSyms` entries: a no-op, or a 32- or 64-bit
      relocation against an existing symbol whose target lies in the
      section. */
  predicate RelocationValid(size: nat, rel: Rela, numSyms: nat)
  {
    || rel.kind == R_X86_64_NONE
    || ((rel.kind == R_X86_64_32 || rel.kind == R_X86_64_64)
        && rel.sym < numSyms && rel.offset + Width(rel.kind) <= size)
  }

  /** apply_relocation for the decoded relocation `rel`: writes st_value +
      r_addend, wrapped to 64 bits and then truncated to the width of the
      relocation, at r_offset. */
  function ApplyRela(section: seq<byte>, rel: Rela, symtab: seq<byte>): (r: Result<seq<byte>>)
    ensures r.Ok? ==> |r.value| == |section|
  {
    if rel.kind == R_X86_64_NONE then Ok(section)
    else if rel.kind == R_X86_64_32 || rel.kind == R_X86_64_64 then
      var width := Width(rel.kind);
      if rel.sym >= |symtab| / SYM_SIZE then Err(FormatError("invalid relocation symbol"))
      else if rel.offset > SIZE_MAX - width || rel.offset + width > |section| then
        Err(FormatError("invalid relocation offset"))
      else
        Ok(Store(section, rel.offset, width, (SymValue(symtab, rel.sym) + rel.addend) % U64_LIMIT))
    else Err(NotImplemented("unimplemented relocation type"))
  }

  lemma ModOfMod(v: nat)
    ensures (v % U64_LIMIT) % U32_LIMIT == v % U32_LIMIT
  {
    var q := v / U64_LIMIT;
    var m := v % U64_LIMIT;
    assert v == U64_LIMIT * q + m;
    DivModUnique(v, U32_LIMIT, U32_LIMIT * q + m / U32_LIMIT, m % U32_LIMIT);
  }

  /** A relocation applies exactly when it is valid; a valid one of type
      NONE changes nothing, and an unknown type is not implemented. */
  lemma ApplyRelaOk(section: seq<byte>, rel: Rela, symtab: seq<byte>)
    requires |section| <= SIZE_MAX
    ensures var r := ApplyRela(section, rel, symtab);
            r.Ok? <==> RelocationValid(|section|, rel, |symtab| / SYM_SIZE)
    ensures var r := ApplyRela(section, rel, symtab);
            rel.kind != R_X86_64_NONE && rel.kind != R_X86_64_32 && rel.kind != R_X86_64_64 ==>
              r == Err(NotImplemented("unimplemented relocation type"))
    ensures var r := ApplyRela(section, rel, symtab);
            r.Ok? && rel.kind == R_X86_64_NONE ==> r.value == section
  {
  }

  /** A 32- or 64-bit relocation writes st_value + r_addend, modulo 2^32 or
      2^64, little-endian at r_offset and leaves every other byte of the
      section as it was. */
  lemma ApplyRelaWrites(section: seq<byte>, rel: Rela, symtab: seq<byte>)
    ensures var r := ApplyRela(section, rel, symtab);
            var w := Width(rel.kind);
            (r.Ok? && rel.kind != R_X86_64_NONE ==>
                  && rel.offset + w <= |section|
                  && r.value[..rel.offset] == section[..rel.offset]
                  && r.value[rel.offset + w..] == section[rel.offset + w..]
                  && LittleEndian(r.value[rel.offset..rel.offset + w])
                     == (SymValue(symtab, rel.sym) + rel.addend) % Pow256(w))
  {
    var r := ApplyRela(section, rel, symtab);
    if r.Ok? && rel.kind != R_X86_64_NONE {
      var sum := SymValue(symtab, rel.sym) + rel.addend;
      var w := Width(rel.kind);
      assert r.value == Store(section, rel.offset, w, sum % U64_LIMIT);
      Pow256Widths();
      if rel.kind == R_X86_64_32 {
        ModOfMod(sum);
        assert (sum % U64_LIMIT) % Pow256(w) == sum % Pow256(w);
      } else {
        assert Pow256(w) == U64_LIMIT;
        assert (sum % U64_LIMIT) % Pow256(w) == sum % Pow256(w);
      }
    }
  }

  /** The entries of a relocation section; a trailing partial entry is
      ignored, as the entry count is sh_size / sizeof(Elf64_Rela). */
  function Relas(rela: seq<byte>): (rels: seq<Rela>)
    ensures |rels| == |rela| / RELA_SIZE
    ensures forall k :: 0 <= k < |rels| ==> rels[k] == RelaAt(rela, k)
  {
    seq(|rela| / RELA_SIZE, k requires 0 <= k < |rela| / RELA_SIZE => RelaAt(rela, k))
  }

  /** apply_relocations for one relocation section: applies its entries to
      the debug section in order, stopping at the first that fails. */
  function ApplyRelocations(section: seq<byte>, rels: seq<Rela>, symtab: seq<byte>): (r: Result<seq<byte>>)
    ensures r.Ok? ==> |r.value| == |section|
    decreases |rels|
  {
    if rels == [] then Ok(section)
    else
      var next :- ApplyRela(section, rels[0], symtab);
      ApplyRelocations(next, rels[1..], symtab)
  }

  /** Whether a relocation section can be applied depends only on the size
      of the section it relocates: it applies exactly when each of its
      relocations is valid. */
  lemma {:induction false} ApplyRelocationsOk(section: seq<byte>, rels: seq<Rela>, symtab: seq<byte>)
    requires |section| <= SIZE_MAX
    ensures ApplyRelocations(section, rels, symtab).Ok? <==>
              forall k :: 0 <= k < |rels| ==> RelocationValid(|section|, rels[k], |symtab| / SYM_SIZE)
    decreases |rels|
  {
    if rels != [] {
      ApplyRelaOk(section, rels[0], symtab);
      var next := ApplyRela(section, rels[0], symtab);
      if next.Ok? {
        ApplyRelocationsOk(next.value, rels[1..], symtab);
      }
      assert forall k :: 1 <= k < |rels| ==> rels[k] == rels[1..][k - 1];
    }
  }

  /** Every section of a layout lies in a file of `size` bytes. */
  predicate LayoutOk(size: nat, l: Layout)
  {
    && |l.debug| == NUM_DEBUG_SECTIONS && |l.rela| == NUM_DEBUG_SECTIONS
    && InFile(size, l.symtab)
    && forall k :: 0 <= k < NUM_DEBUG_SECTIONS ==>
         InFile(size, l.debug[k]) && (l.rela[k].Some? ==> InFile(size, l.rela[k].value))
  }

  /** Everything the section selection keeps lies inside the file. */
  lemma SelectSectionsInFile(fileSize: nat, hs: seq<Shdr>, strtab: seq<byte>)
    ensures var r := SelectSections(fileSize, hs, strtab);
            r.Ok? && r.value.Some? ==> LayoutOk(fileSize, r.value.value)
  {
    SelectSectionsFound(fileSize, hs, strtab);
    var found := Scan(fileSize, hs, Slots(strtab, hs), 0, NoSlots);
    if found.Ok? && AllFound(found.value) {
      WithRelocationsMeaning(fileSize, hs, found.value);
    }
  }

  /** The bytes of a section. */
  function Bytes(file: seq<byte>, l: Located): (b: seq<byte>)
    requires InFile(|file|, l)
    ensures |b| == l.size
  {
    file[l.offset..l.offset + l.size]
  }

  /** Debug section `j` of a file with its relocations applied; a debug
      section without an SHT_RELA section has none. */
  function Relocated(file: seq<byte>, l: Layout, j: nat): (r: Result<seq<byte>>)
    requires LayoutOk(|file|, l) && j < NUM_DEBUG_SECTIONS
    ensures r.Ok? ==> |r.value| == l.debug[j].size
  {
    var rela := if l.rela[j].Some? then Bytes(file, l.rela[j].value) else [];
    ApplyRelocations(Bytes(file, l.debug[j]), Relas(rela), Bytes(file, l.symtab))
  }

  /** A debug section relocates exactly when each of its relocations is
      valid for its size and the symbol table. */
  lemma RelocatedOk(file: seq<byte>, l: Layout, j: nat)
    requires |file| <= SIZE_MAX
    requires LayoutOk(|file|, l) && j < NUM_DEBUG_SECTIONS
    ensures var rela := if l.rela[j].Some? then Bytes(file, l.rela[j].value) else [];
            Relocated(file, l, j).Ok? <==>
              forall k :: 0 <= k < |rela| / RELA_SIZE ==>
                RelocationValid(l.debug[j].size, RelaAt(rela, k), l.symtab.size / SYM_SIZE)
  {
    var rela := if l.rela[j].Some? then Bytes(file, l.rela[j].value) else [];
    ApplyRelocationsOk(Bytes(file, l.debug[j]), Relas(rela), Bytes(file, l.symtab));
  }
}

=== FILE: index_cu.dfy ===
/** The walk over the DIEs of one compilation unit (index_cu) and over all
    units of a file. Every DIE at depth 1 that has a known tag, is not a
    declaration and has a name goes into the DIE hash table, keyed by its
    name, tag and the hash of its DW_AT_decl_file; an enumerator directly
    inside an enumeration type at depth 1 is indexed too, but is recorded
    at the enumeration's offset. A DIE with DW_AT_specification borrows a
    missing name or file from the declaration it designates. */
module IndexCu {
  import opened Base
  import opened Cursor
  import opened CuHeader
  import opened Abbrev
  import opened Die
  import opened LineProgram
  import DieHash

  /** The nesting depth is an unsigned int: it wraps. */
  type Depth = d: nat | d < U32_LIMIT

  /** The sections of one file the indexer reads. */
  datatype Sections = Sections(info: seq<byte>, abbrev: seq<byte>, line: seq<byte>, str: seq<byte>)

  /** What the walk over one unit works with: the file's sections, the
      unit, its compiled abbreviation table and the unit's index. */
  datatype Ctx = Ctx(secs: Sections, unit: Unit, abbrevs: AbbrevTable, cu: nat)

  predicate CtxOk(c: Ctx)
  {
    c.unit.end <= |c.secs.info| && c.unit.strSize == |c.secs.str| && TableTerminated(c.abbrevs)
  }

  /** Where the walk stands: the cursor, the depth, the enumeration type
      whose enumerators are being indexed, the unit's file name hashes and
      the table. */
  datatype State = State(ptr: nat, depth: Depth, enumDie: Option<nat>, files: seq<FileKey>,
                         table: DieHash.Table)

  /** After one DIE the walk either ends or goes on. */
  datatype Progress = Finished(table: DieHash.Table) | Going(state: State)

  /** The tag and the two flags of the byte after a declaration's
      commands. */
  function TagOf(flags: byte): nat { flags % 0x40 }

  predicate IsDeclaration(flags: byte) { flags % 0x80 >= 0x40 }

  predicate HasChildren(flags: byte) { flags >= 0x80 }

  /** The bytes of the NUL-terminated string at `offset`, as strcmp and
      name_hash see them; where no NUL follows, the rest of the section. */
  function CString(data: seq<byte>, offset: nat): seq<byte>
  {
    if offset >= |data| then []
    else
      match FindNul(data, offset, |data|)
      case Some(nul) => data[offset..nul]
      case None => data[offset..]
  }

  function NameBytes(secs: Sections, name: NameRef): seq<byte>
  {
    match name
    case InInfo(offset) => CString(secs.info, offset)
    case InStr(offset) => CString(secs.str, offset)
  }

  /** .debug_str must end in NUL before any of the file's units is read. */
  function CheckDebugStr(str: seq<byte>): (r: Result<()>)
    ensures r.Err? ==> r.error == FormatError(".debug_str is not null terminated")
    ensures r.Ok? ==> forall offset :: 0 <= offset < |str| ==> !NoNul(str, offset, |str|)
  {
    if |str| == 0 || str[|str| - 1] != 0 then Err(FormatError(".debug_str is not null terminated"))
    else
      assert forall offset :: 0 <= offset < |str| ==> !NoNul(str, offset, |str|) by {
        forall offset | 0 <= offset < |str|
          ensures !NoNul(str, offset, |str|)
        {
          assert str[|str| - 1] == 0;
        }
      }
      Ok(())
  }

  /** A DIE with DW_AT_specification that lacks a name or a file takes it
      from the DIE the specification designates, read with every attribute
      zero. */
  function Complete(c: Ctx, die: DieAttrs): (r: Result<DieAttrs>)
    requires CtxOk(c)
    ensures r.Ok? ==> r.value.sibling == die.sibling && r.value.flags == die.flags
    ensures r.Ok? && die.name.Some? ==> r.value.name == die.name
    ensures r.Ok? && die.declFile != 0 ==> r.value.declFile == die.declFile
    ensures die.specification.None? || (die.name.Some? && die.declFile != 0) ==> r == Ok(die)
  {
    if die.specification.Some? && (die.name.None? || die.declFile == 0) then
      var decl :- ReadDie(c.secs.info, c.unit, c.abbrevs, die.specification.value, NoAttributes(0));
      match decl
      case NullEntry(_) => Ok(die)
      case Entry(d, _) =>
        Ok(die.(name := if die.name.None? then d.name else die.name,
                declFile := if die.declFile == 0 then d.declFile else die.declFile))
    else Ok(die)
  }

  /** The hash of file `declFile` of the unit's file name table; 0 means no
      file. */
  function FileNameHash(files: seq<FileKey>, declFile: nat): (r: Result<FileKey>)
    ensures r.Err? ==> r.error == FormatError("invalid DW_AT_decl_file")
  {
    if declFile > |files| then Err(FormatError("invalid DW_AT_decl_file"))
    else if declFile == 0 then Ok(NoFile)
    else Ok(files[declFile - 1])
  }

  /** The entry a named DIE gets in the table. */
  function EntryOf(c: Ctx, die: DieAttrs, tag: nat, key: FileKey, diePtr: nat): DieHash.Entry
    requires die.name.Some?
  {
    DieHash.Entry(NameBytes(c.secs, die.name.value), tag, key, c.cu, diePtr)
  }

  /** Adds a DIE to the table if it has a name. */
  function AddNamed(c: Ctx, files: seq<FileKey>, t: DieHash.Table, die: DieAttrs, tag: nat, diePtr: nat)
    : (r: Result<DieHash.Table>)
    ensures r.Err? ==> r.error in {FormatError("invalid DW_AT_decl_file"), OutOfMemory}
  {
    if die.name.None? then Ok(t)
    else
      var key :- FileNameHash(files, die.declFile);
      DieHash.AddDieHashEntry(t, EntryOf(c, die, tag, key, diePtr))
  }

  /** Completes a DIE and indexes it at `diePtr`. */
  function Insert(c: Ctx, s: State, die: DieAttrs, tag: nat, diePtr: nat): (r: Result<State>)
    requires CtxOk(c)
    ensures r.Ok? ==> r.value == s.(table := r.value.table)
  {
    var full :- Complete(c, die);
    var t :- AddNamed(c, s.files, s.table, full, tag, diePtr);
    Ok(s.(table := t))
  }

  /** Whether a DIE with this tag at this depth is indexed at the offset of
      the enumeration type it lies in. */
  predicate Redirected(s: State, tag: nat)
  {
    s.depth == 2 && tag == DW_TAG_enumerator && s.enumDie.Some?
  }

  /** What a DIE with attributes contributes: a unit DIE at depth 0 brings
      the file name table of its line number program; a DIE with a known
      tag that is not a declaration is indexed when it lies at depth 1, or
      is an enumerator of the current enumeration type. */
  function IndexEntry(c: Ctx, s: State, die: DieAttrs): (r: Result<State>)
    requires CtxOk(c)
    ensures r.Ok? ==> r.value.ptr == s.ptr && r.value.depth == s.depth
  {
    var tag := TagOf(die.flags);
    if tag == DW_TAG_compile_unit then
      if s.depth == 0 && die.stmtList != SIZE_MAX then
        var more :- ReadFileNameTable(c.secs.line, die.stmtList);
        Ok(s.(files := s.files + more))
      else Ok(s)
    else if tag != 0 && !IsDeclaration(die.flags) then
      if s.depth == 1 && tag == DW_TAG_enumeration_type then Insert(c, s.(enumDie := Some(s.ptr)), die, tag, s.ptr)
      else if Redirected(s, tag) then Insert(c, s, die, tag, s.enumDie.value)
      else if s.depth != 1 then Ok(s)
      else Insert(c, s, die, tag, s.ptr)
    else Ok(s)
  }

  /** After a DIE with attributes: into its children, or over them to its
      sibling when it names one; a childless DIE at depth 0 ends the
      walk. */
  function Visit(c: Ctx, s: State, die: DieAttrs, next: nat): (r: Result<Progress>)
    requires CtxOk(c)
    requires next <= c.unit.end && (die.sibling.Some? ==> die.sibling.value <= c.unit.end)
    ensures r.Ok? && r.value.Going? ==> r.value.state.ptr <= c.unit.end
    ensures r.Ok? && r.value.Going? && r.value.state.ptr != next ==>
              HasChildren(die.flags) && die.sibling == Some(r.value.state.ptr)
  {
    var s1 :- IndexEntry(c, s, die);
    if HasChildren(die.flags) then
      if die.sibling.Some? then Ok(Going(s1.(ptr := die.sibling.value)))
      else Ok(Going(s1.(ptr := next, depth := (s.depth + 1) % U32_LIMIT)))
    else if s.depth == 0 then Ok(Finished(s1.table))
    else Ok(Going(s1.(ptr := next)))
  }

  /** After a null entry: one level up; back at depth 1 the enumeration
      type is forgotten, and back at depth 0 the walk ends. */
  function Ascend(s: State, next: nat): (p: Progress)
    ensures p.Going? ==> p.state.ptr == next && p.state.table == s.table
    ensures p.Finished? ==> p.table == s.table
  {
    var depth: Depth := if s.depth == 0 then U32_LIMIT - 1 else s.depth - 1;
    if depth == 1 then Going(s.(ptr := next, depth := depth, enumDie := None))
    else if depth == 0 then Finished(s.table)
    else Going(s.(ptr := next, depth := depth))
  }

  /** One turn of index_cu's loop: reads the DIE at the cursor. */
  function IndexStep(c: Ctx, s: State): (r: Result<Progress>)
    requires CtxOk(c)
    ensures r.Ok? && r.value.Going? ==> s.ptr < c.unit.end && r.value.state.ptr <= c.unit.end
  {
    var read :- ReadDie(c.secs.info, c.unit, c.abbrevs, s.ptr, NoAttributes(SIZE_MAX));
    match read
    case NullEntry(next) => Ok(Ascend(s, next))
    case Entry(die, next) =>
      ReadDiePlaced(c.secs.info, c.unit, c.abbrevs, s.ptr, NoAttributes(SIZE_MAX));
      Visit(c, s, die, next)
  }

  const SiblingBackwards: Error := FormatError("DW_AT_sibling does not point past the DIE")

  /** The loop of index_cu, with a DW_AT_sibling that does not lead past
      the DIE rejected, so that every turn moves the cursor forward. */
  function WalkDies(c: Ctx, s: State): (r: Result<DieHash.Table>)
    requires CtxOk(c)
    decreases c.unit.end - s.ptr
  {
    var p :- IndexStep(c, s);
    match p
    case Finished(t) => Ok(t)
    case Going(s') => if s'.ptr <= s.ptr then Err(SiblingBackwards) else WalkDies(c, s')
  }

  /** How a bounded run of the loop as written ends: with the table, with
      an error, or still running when the fuel is spent. */
  datatype Outcome = Done(table: DieHash.Table) | Failed(error: Error) | Unfinished

  /** The loop of index_cu as written, for at most `fuel` turns: it follows
      every DW_AT_sibling, wherever it points. */
  function WalkDiesAsWritten(c: Ctx, s: State, fuel: nat): Outcome
    requires CtxOk(c)
    decreases fuel
  {
    if fuel == 0 then Unfinished
    else
      match IndexStep(c, s)
      case Err(e) => Failed(e)
      case Ok(Finished(t)) => Done(t)
      case Ok(Going(s')) => WalkDiesAsWritten(c, s', fuel - 1)
  }

  function Lift(r: Result<DieHash.Table>): Outcome
  {
    match r
    case Ok(t) => Done(t)
    case Err(e) => Failed(e)
  }

  /** The walk over one unit's DIEs starts after the header with an empty
      file name table; `strp` is the string offset check its DIE reader
      applies. */
  function UnitCtx(secs: Sections, cu: CompilationUnit, abbrevs: AbbrevTable, index: nat, strp: StrpCheck): Ctx
  {
    Ctx(secs, Unit(cu.offset, UnitEnd(cu), |secs.str|, strp), abbrevs, index)
  }

  function Start(cu: CompilationUnit, t: DieHash.Table): State
  {
    State(DiesStart(cu), 0, None, [], t)
  }

  /** Indexes the unit `cu`, number `index`: compiles its abbreviation
      table, then walks its DIEs with the corrected loop and string offset
      check. */
  function IndexCu(secs: Sections, cu: CompilationUnit, index: nat, t: DieHash.Table): (r: Result<DieHash.Table>)
    requires ValidHeader(cu.header) && UnitEnd(cu) <= |secs.info|
  {
    var h := cu.header;
    var abbrevs :- ReadAbbrevTable(secs.abbrev, h.abbrevOffset, |secs.abbrev|, h.is64, h.addressSize);
    ReadAbbrevTableOk(secs.abbrev, h.abbrevOffset, |secs.abbrev|, h.is64, h.addressSize);
    WalkDies(UnitCtx(secs, cu, abbrevs, index, StrpCorrected), Start(cu, t))
  }

  /** index_cu as written, for at most `fuel` turns of its loop, with the
      string offset check as written. */
  function IndexCuAsWritten(secs: Sections, cu: CompilationUnit, index: nat, t: DieHash.Table, fuel: nat): Outcome
    requires ValidHeader(cu.header) && UnitEnd(cu) <= |secs.info|
  {
    var h := cu.header;
    match ReadAbbrevTable(secs.abbrev, h.abbrevOffset, |secs.abbrev|, h.is64, h.addressSize)
    case Err(e) => Failed(e)
    case Ok(abbrevs) =>
      ReadAbbrevTableOk(secs.abbrev, h.abbrevOffset, |secs.abbrev|, h.is64, h.addressSize);
      WalkDiesAsWritten(UnitCtx(secs, cu, abbrevs, index, StrpAsWritten), Start(cu, t), fuel)
  }

  /** A unit as the unit walk leaves it: its header is valid and it ends
      inside its file's .debug_info. */
  predicate Indexable(files: seq<Sections>, cu: CompilationUnit)
  {
    cu.file < |files| && ValidHeader(cu.header) && UnitEnd(cu) <= |files[cu.file].info|
  }

  /** Indexes the units one after the other, numbering them from `first`. */
  function IndexCus(files: seq<Sections>, cus: seq<CompilationUnit>, first: nat, t: DieHash.Table)
    : (r: Result<DieHash.Table>)
    requires forall i :: 0 <= i < |cus| ==> Indexable(files, cus[i])
    decreases |cus|
  {
    if cus == [] then Ok(t)
    else
      assert Indexable(files, cus[0]);
      var t1 :- IndexCu(files[cus[0].file], cus[0], first, t);
      IndexCus(files, cus[1..], first + 1, t1)
  }

  /** The table invariants of the DIE hash table. */
  predicate Good(t: DieHash.Table)
  {
    DieHash.ChainOk(t) && DieHash.Unique(t)
  }

  /** `u` keeps every entry of `t`; any slot that changed was empty and now
      holds an entry of a unit numbered from `lo` up to `hi`. */
  predicate Extends(t: DieHash.Table, u: DieHash.Table, lo: nat, hi: nat)
  {
    forall j :: 0 <= j < DieHash.DIE_HASH_SIZE && u[j] != t[j] ==>
      t[j].None? && u[j].Some? && lo <= u[j].value.cu < hi
  }

  /** Moreover every new entry is recorded at `diePtr`. */
  predicate AddsAt(t: DieHash.Table, u: DieHash.Table, cu: nat, diePtr: nat)
  {
    forall j :: 0 <= j < DieHash.DIE_HASH_SIZE && u[j] != t[j] ==>
      t[j].None? && u[j].Some? && u[j].value.cu == cu && u[j].value.diePtr == diePtr
  }

  /** Two extensions in a row make one, over the units of both. */
  lemma ExtendsTrans(t: DieHash.Table, u: DieHash.Table, v: DieHash.Table,
                     lo1: nat, hi1: nat, lo2: nat, hi2: nat, lo: nat, hi: nat)
    requires Extends(t, u, lo1, hi1) && Extends(u, v, lo2, hi2)
    requires lo <= lo1 && lo <= lo2 && hi1 <= hi && hi2 <= hi
    ensures Extends(t, v, lo, hi)
  {
    forall j | 0 <= j < DieHash.DIE_HASH_SIZE && v[j] != t[j]
      ensures t[j].None? && v[j].Some? && lo <= v[j].value.cu < hi
    {
      if u[j] != t[j] {
        assert u[j].Some?;
        assert v[j] == u[j];
      }
    }
  }

  /** Where a NUL follows `offset`, CString is the string read there. */
  lemma CStringIsString(data: seq<byte>, offset: nat)
    requires offset < |data| && !NoNul(data, offset, |data|)
    ensures ReadString(data, offset, |data|) == Ok(Decoded(CString(data, offset), offset + |CString(data, offset)| + 1))
  {
  }

  /** The name of a DIE read with the corrected string offset check from a
      unit of a file whose .debug_str passed the check is a NUL-terminated
      string inside its section: hashing and comparing it stay inside the
      section. With the check as written this fails (Die.StrpReadersDiffer). */
  lemma NameResolves(c: Ctx, die: DieAttrs, limit: nat)
    requires CtxOk(c) && c.unit.strp == StrpCorrected
    requires limit <= |c.secs.info| && WellPlaced(c.secs.info, c.unit, die, limit)
    requires CheckDebugStr(c.secs.str).Ok? && die.name.Some?
    ensures match die.name.value
            case InInfo(o) =>
              ReadString(c.secs.info, o, |c.secs.info|) == Ok(Decoded(NameBytes(c.secs, die.name.value), o + |NameBytes(c.secs, die.name.value)| + 1))
            case InStr(o) =>
              ReadString(c.secs.str, o, |c.secs.str|) == Ok(Decoded(NameBytes(c.secs, die.name.value), o + |NameBytes(c.secs, die.name.value)| + 1))
  {
    match die.name.value
    case InInfo(o) =>
      var z := FindNul(c.secs.info, o, limit).value;
      assert c.secs.info[z] == 0;
      CStringIsString(c.secs.info, o);
    case InStr(o) =>
      CStringIsString(c.secs.str, o);
  }

  /** A named DIE is rejected for its DW_AT_decl_file exactly when the
      index lies past the unit's file name table. */
  lemma DeclFileChecked(c: Ctx, files: seq<FileKey>, t: DieHash.Table, die: DieAttrs, tag: nat, diePtr: nat)
    ensures AddNamed(c, files, t, die, tag, diePtr) == Err(FormatError("invalid DW_AT_decl_file"))
            <==> die.name.Some? && die.declFile > |files|
  {
  }

  /** Adding a named DIE keeps the table invariants, puts an entry with its
      key in the table, and changes only empty slots, to entries of this
      unit at `diePtr`. */
  lemma AddNamedPlaces(c: Ctx, files: seq<FileKey>, t: DieHash.Table, die: DieAttrs, tag: nat, diePtr: nat)
    requires Good(t)
    ensures var r := AddNamed(c, files, t, die, tag, diePtr);
            r.Ok? ==>
              && Good(r.value)
              && AddsAt(t, r.value, c.cu, diePtr)
              && (die.name.Some? ==>
                    DieHash.HasKey(r.value, EntryOf(c, die, tag, FileNameHash(files, die.declFile).value, diePtr)))
  {
    var r := AddNamed(c, files, t, die, tag, diePtr);
    if r.Ok? && die.name.Some? {
      var e := EntryOf(c, die, tag, FileNameHash(files, die.declFile).value, diePtr);
      DieHash.AddDieHashEntryOk(t, e);
      DieHash.AddDieHashEntryChanges(t, e);
    }
  }

  /** The completed DIE, once named, has its entry in the table. */
  predicate Recorded(c: Ctx, files: seq<FileKey>, t: DieHash.Table, die: DieAttrs, tag: nat, diePtr: nat)
    requires CtxOk(c)
  {
    var full := Complete(c, die);
    && full.Ok?
    && (full.value.name.Some? ==>
          var key := FileNameHash(files, full.value.declFile);
          key.Ok? && DieHash.HasKey(t, EntryOf(c, full.value, tag, key.value, diePtr)))
  }

  /** Completing and adding a DIE keeps the invariants, adds only entries
      of this unit at `diePtr`, and leaves the completed DIE, when it has a
      name, in the table. */
  lemma InsertPlaces(c: Ctx, s: State, die: DieAttrs, tag: nat, diePtr: nat)
    requires CtxOk(c) && Good(s.table)
    ensures var r := Insert(c, s, die, tag, diePtr);
            r.Ok? ==>
              && Good(r.value.table)
              && AddsAt(s.table, r.value.table, c.cu, diePtr)
              && Recorded(c, s.files, r.value.table, die, tag, diePtr)
  {
    var full := Complete(c, die);
    if full.Ok? {
      AddNamedPlaces(c, s.files, s.table, full.value, tag, diePtr);
    }
  }

  /** The DIEs index_cu records: a known tag that is not a declaration, at
      depth 1 or an enumerator of the current enumeration type. */
  predicate Eligible(s: State, die: DieAttrs)
  {
    var tag := TagOf(die.flags);
    tag != 0 && tag != DW_TAG_compile_unit && !IsDeclaration(die.flags) && (s.depth == 1 || Redirected(s, tag))
  }

  /** What indexing one DIE does to the table: only an eligible DIE can add
      entries; they keep the invariants, belong to this unit and are
      recorded at the DIE's own offset, or at the enumeration type's for an
      enumerator. Conversely an eligible DIE, completed from its
      specification, is in the table afterwards when it has a name. */
  lemma IndexEntryPlaces(c: Ctx, s: State, die: DieAttrs)
    requires CtxOk(c) && Good(s.table)
    ensures var r := IndexEntry(c, s, die);
            var tag := TagOf(die.flags);
            var at := if Redirected(s, tag) then s.enumDie.value else s.ptr;
            r.Ok? ==>
              && Good(r.value.table)
              && AddsAt(s.table, r.value.table, c.cu, at)
              && (!Eligible(s, die) ==> r.value.table == s.table)
              && (Eligible(s, die) ==> Recorded(c, s.files, r.value.table, die, tag, at))
  {
    var tag := TagOf(die.flags);
    if tag != DW_TAG_compile_unit && tag != 0 && !IsDeclaration(die.flags) {
      if s.depth == 1 && tag == DW_TAG_enumeration_type {
        InsertPlaces(c, s.(enumDie := Some(s.ptr)), die, tag, s.ptr);
      } else if Redirected(s, tag) {
        InsertPlaces(c, s, die, tag, s.enumDie.value);
      } else if s.depth == 1 {
        InsertPlaces(c, s, die, tag, s.ptr);
      }
    }
  }

  /** One turn of the loop keeps the invariants and adds only entries of
      this unit. */
  lemma IndexStepKeeps(c: Ctx, s: State)
    requires CtxOk(c) && Good(s.table)
    ensures var r := IndexStep(c, s);
            && (r.Ok? && r.value.Going? ==>
                  Good(r.value.state.table) && Extends(s.table, r.value.state.table, c.cu, c.cu + 1))
            && (r.Ok? && r.value.Finished? ==>
                  Good(r.value.table) && Extends(s.table, r.value.table, c.cu, c.cu + 1))
  {
    var read := ReadDie(c.secs.info, c.unit, c.abbrevs, s.ptr, NoAttributes(SIZE_MAX));
    if read.Ok? && read.value.Entry? {
      IndexEntryPlaces(c, s, read.value.die);
    }
  }

  /** The walk over a unit keeps the invariants and adds only entries of
      this unit. */
  lemma {:induction false} WalkDiesKeeps(c: Ctx, s: State)
    requires CtxOk(c) && Good(s.table)
    ensures var r := WalkDies(c, s);
            r.Ok? ==> Good(r.value) && Extends(s.table, r.value, c.cu, c.cu + 1)
    decreases c.unit.end - s.ptr
  {
    IndexStepKeeps(c, s);
    var p := IndexStep(c, s);
    if p.Ok? && p.value.Going? && p.value.state.ptr > s.ptr {
      var s' := p.value.state;
      WalkDiesKeeps(c, s');
      var r := WalkDies(c, s');
      if r.Ok? {
        ExtendsTrans(s.table, s'.table, r.value, c.cu, c.cu + 1, c.cu, c.cu + 1, c.cu, c.cu + 1);
      }
    }
  }

  /** Indexing a unit keeps the invariants of the table and adds only
      entries recorded for that unit. */
  lemma IndexCuKeeps(secs: Sections, cu: CompilationUnit, index: nat, t: DieHash.Table)
    requires ValidHeader(cu.header) && UnitEnd(cu) <= |secs.info|
    requires Good(t)
    ensures var r := IndexCu(secs, cu, index, t);
            r.Ok? ==> Good(r.value) && Extends(t, r.value, index, index + 1)
  {
    var h := cu.header;
    var abbrevs := ReadAbbrevTable(secs.abbrev, h.abbrevOffset, |secs.abbrev|, h.is64, h.addressSize);
    if abbrevs.Ok? {
      ReadAbbrevTableOk(secs.abbrev, h.abbrevOffset, |secs.abbrev|, h.is64, h.addressSize);
      WalkDiesKeeps(UnitCtx(secs, cu, abbrevs.value, index, StrpCorrected), Start(cu, t));
    }
  }

  /** Indexing units numbered from `first` keeps the invariants and adds
      only entries recorded for those units. */
  lemma {:induction false} IndexCusKeeps(files: seq<Sections>, cus: seq<CompilationUnit>, first: nat, t: DieHash.Table)
    requires forall i :: 0 <= i < |cus| ==> Indexable(files, cus[i])
    requires Good(t)
    ensures var r := IndexCus(files, cus, first, t);
            r.Ok? ==> Good(r.value) && Extends(t, r.value, first, first + |cus|)
    decreases |cus|
  {
    if cus != [] {
      assert Indexable(files, cus[0]);
      var t1 := IndexCu(files[cus[0].file], cus[0], first, t);
      IndexCuKeeps(files[cus[0].file], cus[0], first, t);
      if t1.Ok? {
        IndexCusKeeps(files, cus[1..], first + 1, t1.value);
        CusStep(t, t1.value, IndexCus(files, cus[1..], first + 1, t1.value), first, |cus|);
      }
    }
  }

  /** Indexing one unit, then the rest, extends over all of them. */
  lemma CusStep(t: DieHash.Table, t1: DieHash.Table, r: Result<DieHash.Table>, first: nat, n: nat)
    requires 1 <= n && Extends(t, t1, first, first + 1)
    requires r.Ok? ==> Good(r.value) && Extends(t1, r.value, first + 1, first + n)
    ensures r.Ok? ==> Good(r.value) && Extends(t, r.value, first, first + n)
  {
    if r.Ok? {
      ExtendsTrans(t, t1, r.value, first, first + 1, first + 1, first + n, first, first + n);
    }
  }

  /** Unless the checked walk rejects a backward sibling, the walk as
      written, given a turn for every byte left, ends exactly as the checked
      one does. */
  lemma {:induction false} WalkAsWrittenAgrees(c: Ctx, s: State, fuel: nat)
    requires CtxOk(c)
    requires fuel > 0 && fuel > c.unit.end - s.ptr
    requires WalkDies(c, s) != Err(SiblingBackwards)
    ensures WalkDiesAsWritten(c, s, fuel) == Lift(WalkDies(c, s))
    decreases c.unit.end - s.ptr
  {
    var p := IndexStep(c, s);
    if p.Ok? && p.value.Going? {
      WalkAsWrittenAgrees(c, p.value.state, fuel - 1);
    }
  }

  /** index_cu as written ends as the checked walk with the string offset
      check as written does, once its fuel covers every byte of the unit
      and no DW_AT_sibling fails to move forward; an abbreviation table
      that does not compile fails both the same way. */
  lemma IndexCuAsWrittenAgrees(secs: Sections, cu: CompilationUnit, index: nat, t: DieHash.Table, fuel: nat)
    requires ValidHeader(cu.header) && UnitEnd(cu) <= |secs.info|
    requires fuel > UnitEnd(cu)
    ensures var h := cu.header;
            var abbrevs := ReadAbbrevTable(secs.abbrev, h.abbrevOffset, |secs.abbrev|, h.is64, h.addressSize);
            && (abbrevs.Err? ==>
                  IndexCuAsWritten(secs, cu, index, t, fuel) == Failed(abbrevs.error)
                  && IndexCu(secs, cu, index, t) == Err(abbrevs.error))
            && (abbrevs.Ok? ==>
                  && TableTerminated(abbrevs.value)
                  && var c := UnitCtx(secs, cu, abbrevs.value, index, StrpAsWritten);
                     WalkDies(c, Start(cu, t)) != Err(SiblingBackwards) ==>
                       IndexCuAsWritten(secs, cu, index, t, fuel) == Lift(WalkDies(c, Start(cu, t))))
  {
    var h := cu.header;
    var abbrevs := ReadAbbrevTable(secs.abbrev, h.abbrevOffset, |secs.abbrev|, h.is64, h.addressSize);
    if abbrevs.Ok? {
      ReadAbbrevTableOk(secs.abbrev, h.abbrevOffset, |secs.abbrev|, h.is64, h.addressSize);
      var c := UnitCtx(secs, cu, abbrevs.value, index, StrpAsWritten);
      if WalkDies(c, Start(cu, t)) != Err(SiblingBackwards) {
        WalkAsWrittenAgrees(c, Start(cu, t), fuel);
      }
    }
  }

  /** A turn that comes back to the state it started from makes the loop
      as written run forever. */
  lemma {:induction false} FixedPointDiverges(c: Ctx, s: State, fuel: nat)
    requires CtxOk(c) && IndexStep(c, s) == Ok(Going(s))
    ensures WalkDiesAsWritten(c, s, fuel) == Unfinished
    decreases fuel
  {
    if fuel > 0 {
      FixedPointDiverges(c, s, fuel - 1);
    }
  }

  /** A unit of two DIE bytes after an 11-byte header: abbreviation code 1,
      whose only attribute is a one-byte DW_AT_sibling with value 11, the
      offset of the DIE itself, and which has children. */
  function LoopInfo(): seq<byte>
  {
    [9, 0, 0, 0, 4, 0, 0, 0, 0, 0, 8, 1, 11]
  }

  function LoopCtx(): Ctx
  {
    Ctx(Sections(LoopInfo(), [], [], []), Unit(0, 13, 0, StrpCorrected),
        AbbrevTable([0], [ATTRIB_SIBLING_REF1, 0, 0x80]), 0)
  }

  lemma LoopCtxOk()
    ensures CtxOk(LoopCtx())
  {
    var cmds: seq<byte> := [ATTRIB_SIBLING_REF1, 0, 0x80];
    assert FindNul(cmds, 1, 3) == Some(1);
    assert FindNul(cmds, 0, 3) == Some(1);
  }

  lemma LoopDieRead()
    ensures CtxOk(LoopCtx())
    ensures ReadDie(LoopInfo(), Unit(0, 13, 0, StrpCorrected), LoopCtx().abbrevs, 11, NoAttributes(SIZE_MAX))
         == Ok(Entry(NoAttributes(SIZE_MAX).(sibling := Some(11), flags := 0x80), 13))
  {
    LoopCtxOk();
    var info := LoopInfo();
    var unit := Unit(0, 13, 0, StrpCorrected);
    var cmds := LoopCtx().abbrevs.cmds;
    assert ReadUlebFrom(info, 11, 13, 0, 0) == Ok(Decoded(1, 12));
    assert info[12..13] == [11];
    assert ReadUnsigned(info, 12, 13, 1) == Ok(Decoded(11, 13));
    var init := NoAttributes(SIZE_MAX);
    var die := init.(sibling := Some(11));
    assert RunCmd(info, unit, ATTRIB_SIBLING_REF1, 12, init) == Ok(Step(die, 13));
    assert RunCmds(info, unit, cmds, 1, 13, die) == Ok(Step(die.(flags := 0x80), 13));
  }

  /** At the DIE whose sibling is itself, a turn of the loop comes back to
      the state it started from, whatever the table holds. */
  lemma LoopStep(t: DieHash.Table)
    ensures CtxOk(LoopCtx())
    ensures IndexStep(LoopCtx(), State(11, 0, None, [], t)) == Ok(Going(State(11, 0, None, [], t)))
  {
    LoopDieRead();
  }

  /** The loop as written never finishes on this unit, while the checked
      walk rejects it. */
  lemma SiblingLoopExample(t: DieHash.Table, fuel: nat)
    ensures CtxOk(LoopCtx())
    ensures WalkDiesAsWritten(LoopCtx(), State(11, 0, None, [], t), fuel) == Unfinished
    ensures WalkDies(LoopCtx(), State(11, 0, None, [], t)) == Err(SiblingBackwards)
  {
    LoopStep(t);
    FixedPointDiverges(LoopCtx(), State(11, 0, None, [], t), fuel);
  }
}

=== FILE: line_program.dfy ===
/** The line number program header (section 6.2.4 of DWARF Version 4) as
    far as the indexer reads it: it skips the fixed fields, hashes every
    include directory in canonical form, and hashes every file name
    together with its directory. A hash is the sequence of bytes fed to
    SipHash (see FileKey). */
module LineProgram {
  import opened Base
  import opened Cursor
  import opened CuHeader

  const SLASH: byte := 0x2f
  const DOT: byte := 0x2e

  /** The bytes of "../". */
  function DotDots(n: nat): (r: seq<byte>)
    ensures |r| == 3 * n
  {
    if n == 0 then [] else [DOT, DOT, SLASH] + DotDots(n - 1)
  }

  /** The start of the path component that ends at `n`: just after the
      nearest slash before `n`, or 0. */
  function ComponentStart(s: seq<byte>, n: nat): (st: nat)
    requires n <= |s|
    ensures st <= n
    ensures st == 0 || s[st - 1] == SLASH
    ensures forall k :: st <= k < n ==> s[k] != SLASH
  {
    if n == 0 || s[n - 1] == SLASH then n else ComponentStart(s, n - 1)
  }

  datatype Walked = Walked(out: seq<byte>, dotDot: nat)

  /** One turn of hash_directory's loop over the first |s| bytes of a
      path: either the loop stops with `dotDot` pending "..", or it goes on
      with the first `cut` bytes, `dotDot` pending "..", after feeding
      `fed`. */
  datatype Turn = Stop(dotDot: nat) | Continue(cut: nat, dotDot: nat, fed: seq<byte>)

  /** A trailing slash is dropped; a "." component is skipped; a ".."
      component is counted; any other component is cancelled by a pending
      "..", or else fed followed by a slash. A "." or ".." at the very
      start ends the loop. */
  function WalkTurn(s: seq<byte>, dotDot: nat): (t: Turn)
    requires |s| > 0
    ensures t.Continue? ==> t.cut < |s|
  {
    var n := |s|;
    if s[n - 1] == SLASH then Continue(n - 1, dotDot, [])
    else if n == 1 && s[0] == DOT then Stop(dotDot)
    else if n >= 2 && s[n - 2] == SLASH && s[n - 1] == DOT then Continue(n - 2, dotDot, [])
    else if n == 2 && s[0] == DOT && s[1] == DOT then Stop(dotDot + 1)
    else if n >= 3 && s[n - 3] == SLASH && s[n - 2] == DOT && s[n - 1] == DOT then Continue(n - 3, dotDot + 1, [])
    else
      var st := ComponentStart(s, n);
      if dotDot > 0 then Continue(st, dotDot - 1, [])
      else Continue(st, 0, s[st..] + [SLASH])
  }

  /** The loop of hash_directory over the first |s| bytes of a path, from
      the right; the loop also ends when no bytes are left. */
  function Walk(s: seq<byte>, dotDot: nat): Walked
    decreases |s|
  {
    if |s| == 0 then Walked([], dotDot)
    else
      match WalkTurn(s, dotDot)
      case Stop(d) => Walked([], d)
      case Continue(cut, d, fed) =>
        var rest := Walk(s[..cut], d);
        Walked(fed + rest.out, rest.dotDot)
  }

  /** The bytes hash_directory feeds to the hash for a directory path: the
      walk's output, then a slash for an absolute path or one "../" per
      leftover ".." for a relative one. */
  function HashDirectory(path: seq<byte>): seq<byte>
  {
    if path == [] then []
    else
      var w := Walk(path, 0);
      w.out + (if path[0] == SLASH then [SLASH] else DotDots(w.dotDot))
  }

  /** The components of a path, left to right: the maximal runs of bytes
      without a slash. */
  function Components(s: seq<byte>): seq<seq<byte>>
    decreases |s|
  {
    if s == [] then []
    else if s[|s| - 1] == SLASH then Components(s[..|s| - 1])
    else
      var st := ComponentStart(s, |s|);
      Components(s[..st]) + [s[st..]]
  }

  /** A path in canonical form: the directories kept, outermost first, and
      how many levels it climbs above its starting directory. */
  datatype Canonical = Canonical(kept: seq<seq<byte>>, up: nat)

  /** ".." leaves the innermost kept directory, or else climbs a level. */
  function Leave(c: Canonical): Canonical
  {
    if |c.kept| > 0 then Canonical(c.kept[..|c.kept| - 1], c.up) else Canonical([], c.up + 1)
  }

  /** Any other name enters a directory. */
  function Enter(c: Canonical, x: seq<byte>): Canonical
  {
    Canonical(c.kept + [x], c.up)
  }

  /** Canonicalizes components left to right; "." stays put. */
  function Canon(cs: seq<seq<byte>>): Canonical
  {
    if cs == [] then Canonical([], 0)
    else
      var c := Canon(cs[..|cs| - 1]);
      var x := cs[|cs| - 1];
      if x == [DOT] then c
      else if x == [DOT, DOT] then Leave(c)
      else Enter(c, x)
  }

  /** The kept directories innermost first, each followed by a slash. */
  function EmitReversed(k: seq<seq<byte>>): seq<byte>
  {
    if k == [] then [] else k[|k| - 1] + [SLASH] + EmitReversed(k[..|k| - 1])
  }

  /** The canonical path reversed: kept directories innermost first, then
      "/" for an absolute path or one "../" per level climbed. */
  function ReversedCanonicalPath(path: seq<byte>): seq<byte>
  {
    if path == [] then []
    else
      var c := Canon(Components(path));
      EmitReversed(c.kept) + (if path[0] == SLASH then [SLASH] else DotDots(c.up))
  }

  /** The walk over components, from the right, with `dotDot` pending "..". */
  function WalkComponents(cs: seq<seq<byte>>, dotDot: nat): Walked
  {
    if cs == [] then Walked([], dotDot)
    else
      var x := cs[|cs| - 1];
      var rest := cs[..|cs| - 1];
      if x == [DOT] then WalkComponents(rest, dotDot)
      else if x == [DOT, DOT] then WalkComponents(rest, dotDot + 1)
      else if dotDot > 0 then WalkComponents(rest, dotDot - 1)
      else
        var r := WalkComponents(rest, 0);
        Walked(x + [SLASH] + r.out, r.dotDot)
  }

  /** A path ending in "/." has the components of what precedes the
      slash, then ".". */
  lemma ComponentsDot(s: seq<byte>)
    requires |s| >= 2 && s[|s| - 2] == SLASH && s[|s| - 1] == DOT
    ensures Components(s) == Components(s[..|s| - 2]) + [[DOT]]
  {
    var n := |s|;
    assert ComponentStart(s, n) == n - 1;
    assert s[n - 1..] == [DOT];
    assert Components(s) == Components(s[..n - 1]) + [[DOT]];
    var t := s[..n - 1];
    assert |t| == n - 1 && t[|t| - 1] == SLASH && t[..|t| - 1] == s[..n - 2];
    assert Components(t) == Components(s[..n - 2]);
  }

  /** A path ending in "/.." has the components of what precedes the
      slash, then "..". */
  lemma ComponentsDotDot(s: seq<byte>)
    requires |s| >= 3 && s[|s| - 3] == SLASH && s[|s| - 2] == DOT && s[|s| - 1] == DOT
    ensures Components(s) == Components(s[..|s| - 3]) + [[DOT, DOT]]
  {
    var n := |s|;
    assert ComponentStart(s, n) == n - 2;
    assert s[n - 2..] == [DOT, DOT];
    assert Components(s) == Components(s[..n - 2]) + [[DOT, DOT]];
    var t := s[..n - 2];
    assert |t| == n - 2 && t[|t| - 1] == SLASH && t[..|t| - 1] == s[..n - 3];
    assert Components(t) == Components(s[..n - 3]);
  }

  /** The walk over a path's bytes is the walk over its components. */
  lemma {:induction false} WalkIsWalkComponents(s: seq<byte>, dotDot: nat)
    ensures Walk(s, dotDot) == WalkComponents(Components(s), dotDot)
    decreases |s|
  {
    var n := |s|;
    if n == 0 {
    } else if s[n - 1] == SLASH {
      WalkIsWalkComponents(s[..n - 1], dotDot);
      WalkSlash(s, dotDot);
    } else if n == 1 && s[0] == DOT {
      WalkLeadingDot(s, dotDot);
    } else if n >= 2 && s[n - 2] == SLASH && s[n - 1] == DOT {
      WalkIsWalkComponents(s[..n - 2], dotDot);
      WalkDot(s, dotDot);
    } else if n == 2 && s[0] == DOT && s[1] == DOT {
      WalkLeadingDotDot(s, dotDot);
    } else if n >= 3 && s[n - 3] == SLASH && s[n - 2] == DOT && s[n - 1] == DOT {
      WalkIsWalkComponents(s[..n - 3], dotDot + 1);
      WalkDotDot(s, dotDot);
    } else {
      var st := ComponentStart(s, n);
      RegularComponent(s, st);
      WalkIsWalkComponents(s[..st], if dotDot > 0 then dotDot - 1 else 0);
      WalkName(s, dotDot);
    }
  }

  lemma WalkSlash(s: seq<byte>, dotDot: nat)
    requires |s| > 0 && s[|s| - 1] == SLASH
    requires Walk(s[..|s| - 1], dotDot) == WalkComponents(Components(s[..|s| - 1]), dotDot)
    ensures Walk(s, dotDot) == WalkComponents(Components(s), dotDot)
  {
    var n := |s|;
    assert WalkTurn(s, dotDot) == Continue(n - 1, dotDot, []);
    assert Walk(s, dotDot) == Walk(s[..n - 1], dotDot);
  }

  lemma WalkLeadingDot(s: seq<byte>, dotDot: nat)
    requires |s| == 1 && s[0] == DOT
    ensures Walk(s, dotDot) == WalkComponents(Components(s), dotDot)
  {
    assert ComponentStart(s, 1) == 0 && s[0..] == [DOT];
    assert Components(s) == [] + [[DOT]];
  }

  lemma WalkLeadingDotDot(s: seq<byte>, dotDot: nat)
    requires |s| == 2 && s[0] == DOT && s[1] == DOT
    ensures Walk(s, dotDot) == WalkComponents(Components(s), dotDot)
  {
    assert ComponentStart(s, 2) == 0 && s[0..] == [DOT, DOT];
    assert Components(s) == [] + [[DOT, DOT]];
  }

  lemma WalkDot(s: seq<byte>, dotDot: nat)
    requires |s| >= 2 && s[|s| - 2] == SLASH && s[|s| - 1] == DOT
    requires Walk(s[..|s| - 2], dotDot) == WalkComponents(Components(s[..|s| - 2]), dotDot)
    ensures Walk(s, dotDot) == WalkComponents(Components(s), dotDot)
  {
    var n := |s|;
    ComponentsDot(s);
    var cs := Components(s[..n - 2]);
    assert (cs + [[DOT]])[..|cs|] == cs;
    assert WalkTurn(s, dotDot) == Continue(n - 2, dotDot, []);
    assert Walk(s, dotDot) == Walk(s[..n - 2], dotDot);
  }

  lemma WalkDotDot(s: seq<byte>, dotDot: nat)
    requires |s| >= 3 && s[|s| - 3] == SLASH && s[|s| - 2] == DOT && s[|s| - 1] == DOT
    requires Walk(s[..|s| - 3], dotDot + 1) == WalkComponents(Components(s[..|s| - 3]), dotDot + 1)
    ensures Walk(s, dotDot) == WalkComponents(Components(s), dotDot)
  {
    var n := |s|;
    ComponentsDotDot(s);
    var cs := Components(s[..n - 3]);
    assert (cs + [[DOT, DOT]])[..|cs|] == cs;
    assert WalkTurn(s, dotDot) == Continue(n - 3, dotDot + 1, []);
    assert Walk(s, dotDot) == Walk(s[..n - 3], dotDot + 1);
  }

  lemma WalkName(s: seq<byte>, dotDot: nat)
    requires |s| > 0 && s[|s| - 1] != SLASH
    requires !(|s| == 1 && s[0] == DOT)
    requires !(|s| >= 2 && s[|s| - 2] == SLASH && s[|s| - 1] == DOT)
    requires !(|s| == 2 && s[0] == DOT && s[1] == DOT)
    requires !(|s| >= 3 && s[|s| - 3] == SLASH && s[|s| - 2] == DOT && s[|s| - 1] == DOT)
    requires var st := ComponentStart(s, |s|);
             var d := if dotDot > 0 then dotDot - 1 else 0;
             Walk(s[..st], d) == WalkComponents(Components(s[..st]), d)
    ensures Walk(s, dotDot) == WalkComponents(Components(s), dotDot)
  {
    var n := |s|;
    var st := ComponentStart(s, n);
    var x := s[st..];
    RegularComponent(s, st);
    var cs := Components(s[..st]);
    assert Components(s) == cs + [x];
    assert (cs + [x])[..|cs|] == cs && (cs + [x])[|cs|] == x;
    if dotDot > 0 {
      assert WalkTurn(s, dotDot) == Continue(st, dotDot - 1, []);
      assert Walk(s, dotDot) == Walk(s[..st], dotDot - 1);
    } else {
      assert WalkTurn(s, dotDot) == Continue(st, 0, x + [SLASH]);
    }
  }

  /** A component the walk emits or cancels is neither "." nor "..". */
  lemma RegularComponent(s: seq<byte>, st: nat)
    requires |s| > 0 && s[|s| - 1] != SLASH
    requires st == ComponentStart(s, |s|)
    requires !(|s| == 1 && s[0] == DOT)
    requires !(|s| >= 2 && s[|s| - 2] == SLASH && s[|s| - 1] == DOT)
    requires !(|s| == 2 && s[0] == DOT && s[1] == DOT)
    requires !(|s| >= 3 && s[|s| - 3] == SLASH && s[|s| - 2] == DOT && s[|s| - 1] == DOT)
    ensures st < |s| && s[st..] != [DOT] && s[st..] != [DOT, DOT]
  {
    var n := |s|;
    assert st < n;
    assert |s[st..]| == 1 ==> st == n - 1;
    assert |s[st..]| == 2 ==> st == n - 2;
  }

  function Min(a: nat, b: nat): nat { if a <= b then a else b }

  /** What a walk from the right sees of a canonical path when `d` ".."
      are still pending: they cancel the innermost `d` kept directories,
      and whatever they do not cancel climbs further up. */
  function Seen(c: Canonical, d: nat): Walked
  {
    Walked(EmitReversed(c.kept[..|c.kept| - Min(d, |c.kept|)]),
           c.up + (if d > |c.kept| then d - |c.kept| else 0))
  }

  lemma SeenLeave(c: Canonical, d: nat)
    ensures Seen(Leave(c), d) == Seen(c, d + 1)
  {
    var k := c.kept;
    if |k| > 0 {
      var k' := k[..|k| - 1];
      assert k'[..|k'| - Min(d, |k'|)] == k[..|k| - Min(d + 1, |k|)];
    }
  }

  lemma SeenEnterCancelled(c: Canonical, x: seq<byte>, d: nat)
    requires d > 0
    ensures Seen(Enter(c, x), d) == Seen(c, d - 1)
  {
    var k := c.kept;
    var k' := k + [x];
    assert k'[..|k'| - Min(d, |k'|)] == k[..|k| - Min(d - 1, |k|)];
  }

  lemma SeenEnterEmitted(c: Canonical, x: seq<byte>)
    ensures Seen(Enter(c, x), 0) == Walked(x + [SLASH] + Seen(c, 0).out, Seen(c, 0).dotDot)
  {
    var k := c.kept;
    var k' := k + [x];
    assert k'[..|k'|] == k';
    assert k[..|k|] == k;
    assert k'[|k'| - 1] == x && k'[..|k'| - 1] == k;
  }

  /** The right-to-left walk over components agrees with left-to-right
      canonicalization. */
  lemma {:induction false} WalkComponentsIsCanon(cs: seq<seq<byte>>, d: nat)
    ensures WalkComponents(cs, d) == Seen(Canon(cs), d)
  {
    if cs != [] {
      var x := cs[|cs| - 1];
      var rest := cs[..|cs| - 1];
      var c := Canon(rest);
      if x == [DOT] {
        assert WalkComponents(cs, d) == WalkComponents(rest, d);
        assert Canon(cs) == c;
        WalkComponentsIsCanon(rest, d);
      } else if x == [DOT, DOT] {
        assert WalkComponents(cs, d) == WalkComponents(rest, d + 1);
        assert Canon(cs) == Leave(c);
        WalkComponentsIsCanon(rest, d + 1);
        SeenLeave(c, d);
      } else if d > 0 {
        assert WalkComponents(cs, d) == WalkComponents(rest, d - 1);
        assert Canon(cs) == Enter(c, x);
        WalkComponentsIsCanon(rest, d - 1);
        SeenEnterCancelled(c, x, d);
      } else {
        var r := WalkComponents(rest, 0);
        assert WalkComponents(cs, d) == Walked(x + [SLASH] + r.out, r.dotDot);
        assert Canon(cs) == Enter(c, x);
        WalkComponentsIsCanon(rest, 0);
        SeenEnterEmitted(c, x);
      }
    }
  }

  /** hash_directory feeds the hash the reversed canonical path: each kept
      directory innermost first and followed by "/", "." dropped, every
      ".." cancelling the nearest directory before it, then "/" for an
      absolute path or one "../" per leftover ".." for a relative one. */
  lemma HashDirectoryIsCanonical(path: seq<byte>)
    ensures HashDirectory(path) == ReversedCanonicalPath(path)
  {
    if path != [] {
      var c := Canon(Components(path));
      WalkIsWalkComponents(path, 0);
      WalkComponentsIsCanon(Components(path), 0);
      assert c.kept[..|c.kept| - Min(0, |c.kept|)] == c.kept;
      assert Walk(path, 0) == Walked(EmitReversed(c.kept), c.up);
    }
  }

  /** The walk over "a/b". */
  lemma WalkTwoNames()
    ensures Walk([0x61, SLASH, 0x62], 0) == Walked([0x62, SLASH, 0x61, SLASH], 0)
  {
    var a, b: byte := 0x61, 0x62;
    assert ComponentStart([a], 1) == 0 && [a][..0] == [] && [a][0..] == [a];
    assert Walk([a], 0) == Walked([a, SLASH], 0);
    var sa := [a, SLASH];
    assert sa[..1] == [a];
    assert Walk(sa, 0) == Walked([a, SLASH], 0);
    var sab := [a, SLASH, b];
    assert ComponentStart(sab, 3) == 2 && sab[..2] == sa && sab[2..] == [b];
  }

  /** The walk over "a/b/". */
  lemma WalkTwoNamesSlash()
    ensures Walk([0x61, SLASH, 0x62, SLASH], 0) == Walked([0x62, SLASH, 0x61, SLASH], 0)
  {
    var a, b: byte := 0x61, 0x62;
    WalkTwoNames();
    var sab' := [a, SLASH, b, SLASH];
    assert sab'[..3] == [a, SLASH, b];
    assert WalkTurn(sab', 0) == Continue(3, 0, []);
  }

  /** The walk over "a/b/c". */
  lemma WalkThreeNames()
    ensures Walk([0x61, SLASH, 0x62, SLASH, 0x63], 0) == Walked([0x63, SLASH, 0x62, SLASH, 0x61, SLASH], 0)
  {
    var a, b, c: byte := 0x61, 0x62, 0x63;
    WalkTwoNamesSlash();
    var p := [a, SLASH, b, SLASH, c];
    assert ComponentStart(p, 5) == 4 && p[..4] == [a, SLASH, b, SLASH] && p[4..] == [c];
    assert WalkTurn(p, 0) == Continue(4, 0, [c, SLASH]);
  }

  /** The first example of hash_directory's documentation: the relative
      path "a/b/c" is fed as "c/b/a/". */
  lemma HashDirectoryRelativeExample()
    ensures HashDirectory([0x61, SLASH, 0x62, SLASH, 0x63]) == [0x63, SLASH, 0x62, SLASH, 0x61, SLASH]
  {
    WalkThreeNames();
    assert DotDots(0) == [];
  }

  /** The second example of hash_directory's documentation: the absolute
      path "/a/b" is fed as "b/a//". */
  lemma HashDirectoryAbsoluteExample()
    ensures HashDirectory([SLASH, 0x61, SLASH, 0x62]) == [0x62, SLASH, 0x61, SLASH, SLASH]
  {
    var a, b: byte := 0x61, 0x62;
    assert Walk([SLASH], 0) == Walked([], 0);
    var sa := [SLASH, a];
    assert ComponentStart(sa, 2) == 1 && sa[..1] == [SLASH] && sa[1..] == [a];
    assert Walk(sa, 0) == Walked([a, SLASH], 0);
    var sa' := [SLASH, a, SLASH];
    assert sa'[..2] == sa;
    assert Walk(sa', 0) == Walked([a, SLASH], 0);
    var sab := [SLASH, a, SLASH, b];
    assert ComponentStart(sab, 4) == 3 && sab[..3] == sa' && sab[3..] == [b];
    assert Walk(sab, 0) == Walked([b, SLASH, a, SLASH], 0);
  }

  /** Skips the header of the line number program at `ptr` up to its
      include directories. Only the unit length, the version and
      opcode_base are read; the other fixed fields and the
      standard_opcode_lengths array are stepped over without a bounds
      check, so the result may lie past `end`, and an opcode_base of 0
      steps back one byte. */
  function SkipLnpHeader(data: seq<byte>, ptr: nat, end: nat): (r: Result<nat>)
    requires end <= |data|
    ensures r.Err? ==> r.error == EndOfFile || r.error == FormatError("unknown DWARF version")
  {
    var initial :- ReadUnsigned(data, ptr, end, 4);
    var is64 := initial.value == DWARF64_ESCAPE;
    var version :- ReadUnsigned(data, if is64 then initial.next + 8 else initial.next, end, 2);
    if !KnownVersion(version.value) then Err(FormatError("unknown DWARF version"))
    else
      var fixed := (if is64 then 8 else 4) + 4 + (if version.value >= 4 then 1 else 0);
      var opcodeBase :- ReadUnsigned(data, version.next + fixed, end, 1);
      Ok(opcodeBase.next + opcodeBase.value - 1)
  }

  /** The fields of a line number program header up to its include
      directories: `fields` are minimum_instruction_length,
      maximum_operations_per_instruction (version 4 only), default_is_stmt,
      line_base and line_range; opcode_base is one more than the number of
      standard opcode lengths. */
  datatype LnpHeader = LnpHeader(unitLength: nat, is64: bool, version: nat, headerLength: nat,
                                 fields: seq<byte>, opcodeLengths: seq<byte>)

  predicate ValidLnpHeader(h: LnpHeader)
  {
    && KnownVersion(h.version)
    && |h.fields| == (if h.version >= 4 then 5 else 4)
    && |h.opcodeLengths| < 255
    && (if h.is64 then h.unitLength < U64_LIMIT && h.headerLength < U64_LIMIT
        else h.unitLength < DWARF64_ESCAPE && h.headerLength < U32_LIMIT)
  }

  /** The initial length field: the escape and an 8-byte length in the
      64-bit format, a 4-byte length otherwise. */
  function EncodeUnitLength(h: LnpHeader): (s: seq<byte>)
    ensures |s| == LengthSize(h.is64)
  {
    if h.is64 then EncodeLittleEndian(DWARF64_ESCAPE, 4) + EncodeLittleEndian(h.unitLength, 8)
    else EncodeLittleEndian(h.unitLength, 4)
  }

  /** The header bytes of `h`, as a producer writes them. */
  function EncodeLnpHeader(h: LnpHeader): seq<byte>
  {
    EncodeUnitLength(h) + EncodeLittleEndian(h.version, 2)
    + EncodeLittleEndian(h.headerLength, if h.is64 then 8 else 4)
    + h.fields + EncodeLittleEndian(|h.opcodeLengths| + 1, 1) + h.opcodeLengths
  }

  /** Where the fields the skip reads lie in a written header. */
  lemma LnpLayout(h: LnpHeader)
    requires ValidLnpHeader(h)
    ensures var e := EncodeLnpHeader(h);
            var l := LengthSize(h.is64);
            var w := if h.is64 then 8 else 4;
            var f := |h.fields|;
            && |e| == l + 2 + w + f + 1 + |h.opcodeLengths|
            && e[..4] == (if h.is64 then EncodeLittleEndian(DWARF64_ESCAPE, 4) else EncodeLittleEndian(h.unitLength, 4))
            && e[l..l + 2] == EncodeLittleEndian(h.version, 2)
            && e[l + 2 + w + f..l + 2 + w + f + 1] == EncodeLittleEndian(|h.opcodeLengths| + 1, 1)
  {
    var u := EncodeUnitLength(h);
    var l := LengthSize(h.is64);
    assert u[..4] == (if h.is64 then EncodeLittleEndian(DWARF64_ESCAPE, 4) else EncodeLittleEndian(h.unitLength, 4));
  }

  /** A slice of `e` where `e` lies in `data` at `ptr`. */
  lemma SubSlice(data: seq<byte>, ptr: nat, e: seq<byte>, x: nat, y: nat)
    requires ptr + |e| <= |data| && data[ptr..ptr + |e|] == e
    requires x <= y <= |e|
    ensures data[ptr + x..ptr + y] == e[x..y]
  {
    var a := data[ptr..ptr + |e|][x..y];
    var b := data[ptr + x..ptr + y];
    forall k | 0 <= k < |a|
      ensures a[k] == b[k]
    {
      assert a[k] == data[ptr + x + k];
    }
    assert a == b;
  }

  /** Reading a field of `e`, where `e` lies in `data` at `ptr`. */
  lemma ReadField(data: seq<byte>, ptr: nat, e: seq<byte>, x: nat, width: nat, v: nat)
    requires Occurs(data, ptr, e)
    requires x + width <= |e| && v < Pow256(width)
    requires e[x..x + width] == EncodeLittleEndian(v, width)
    ensures ReadUnsigned(data, ptr + x, |data|, width) == Ok(Decoded(v, ptr + x + width))
  {
    OccursSlice(data, ptr, e);
    SubSlice(data, ptr, e, x, x + width);
    ReadUnsignedAt(data, ptr + x, |data|, width, v);
  }

  /** Skipping a written header lands exactly on the byte after it, the
      first include directory, whatever surrounds it. */
  lemma SkipEncodedLnpHeader(data: seq<byte>, ptr: nat, h: LnpHeader)
    requires ValidLnpHeader(h)
    requires Occurs(data, ptr, EncodeLnpHeader(h))
    ensures SkipLnpHeader(data, ptr, |data|) == Ok(ptr + |EncodeLnpHeader(h)|)
  {
    var v := LengthSize(h.is64);
    var ob := v + 2 + (if h.is64 then 8 else 4) + |h.fields|;
    HeaderReads(data, ptr, h, v, ob);
    SkipFromReads(data, ptr, if h.is64 then DWARF64_ESCAPE else h.unitLength, ptr + v, h.version, ptr + ob,
                  |h.opcodeLengths| + 1, ptr + |EncodeLnpHeader(h)|);
  }

  /** What the three reads of SkipLnpHeader find in a written header: the
      initial length (the escape in the 64-bit format), the version at `v`
      and opcode_base at `ob`. */
  lemma HeaderReads(data: seq<byte>, ptr: nat, h: LnpHeader, v: nat, ob: nat)
    requires ValidLnpHeader(h)
    requires Occurs(data, ptr, EncodeLnpHeader(h))
    requires v == LengthSize(h.is64) && ob == v + 2 + (if h.is64 then 8 else 4) + |h.fields|
    ensures |EncodeLnpHeader(h)| == ob + |h.opcodeLengths| + 1
    ensures ReadUnsigned(data, ptr, |data|, 4)
              == Ok(Decoded(if h.is64 then DWARF64_ESCAPE else h.unitLength, ptr + 4))
    ensures ReadUnsigned(data, ptr + v, |data|, 2) == Ok(Decoded(h.version, ptr + v + 2))
    ensures ReadUnsigned(data, ptr + ob, |data|, 1) == Ok(Decoded(|h.opcodeLengths| + 1, ptr + ob + 1))
  {
    var e := EncodeLnpHeader(h);
    LnpLayout(h);
    assert ReadUnsigned(data, ptr, |data|, 4)
             == Ok(Decoded(if h.is64 then DWARF64_ESCAPE else h.unitLength, ptr + 4)) by {
      Pow256Values();
      ReadField(data, ptr, e, 0, 4, if h.is64 then DWARF64_ESCAPE else h.unitLength);
    }
    assert ReadUnsigned(data, ptr + v, |data|, 2) == Ok(Decoded(h.version, ptr + v + 2)) by {
      Pow256Values();
      ReadField(data, ptr, e, v, 2, h.version);
    }
    Pow256Values();
    ReadField(data, ptr, e, ob, 1, |h.opcodeLengths| + 1);
  }

  /** Given the three reads SkipLnpHeader makes, where it lands: just past
      opcode_base - 1 opcode lengths after opcode_base. */
  lemma SkipFromReads(data: seq<byte>, ptr: nat, initial: nat, vptr: nat, version: nat, obptr: nat, count: nat, end: nat)
    requires ReadUnsigned(data, ptr, |data|, 4) == Ok(Decoded(initial, ptr + 4))
    requires vptr == if initial == DWARF64_ESCAPE then ptr + 12 else ptr + 4
    requires ReadUnsigned(data, vptr, |data|, 2) == Ok(Decoded(version, vptr + 2)) && KnownVersion(version)
    requires obptr == vptr + 2 + (if initial == DWARF64_ESCAPE then 8 else 4) + 4 + (if version >= 4 then 1 else 0)
    requires ReadUnsigned(data, obptr, |data|, 1) == Ok(Decoded(count, obptr + 1))
    requires end == obptr + count
    ensures SkipLnpHeader(data, ptr, |data|) == Ok(end)
  {
  }

  /** Reads the include_directories list from `ptr`: strings up to an
      empty one. */
  function ReadDirectories(data: seq<byte>, ptr: nat, end: nat, dirs: seq<seq<byte>>)
    : (r: Result<Decoded<seq<seq<byte>>>>)
    requires end <= |data|
    ensures r.Err? ==> r.error == EndOfFile
    decreases end - ptr
  {
    var path :- ReadString(data, ptr, end);
    if path.value == [] then Ok(Decoded(dirs, path.next))
    else ReadDirectories(data, path.next, end, dirs + [path.value])
  }

  /** The hash of a file name: the directory's hash state, or a fresh one
      for index 0, updated with the name. */
  function FileKeyOf(dirs: seq<seq<byte>>, index: nat, name: seq<byte>): FileKey
    requires index <= |dirs|
  {
    Digest((if index > 0 then dirs[index - 1] else []) + name)
  }

  /** Reads the file_names list from `ptr`: entries up to an empty name,
      each a name, a directory index and the modification time and size,
      which are skipped. An index past the directories is an error, which
      is noticed only once the whole entry has been read. */
  function ReadFiles(data: seq<byte>, ptr: nat, end: nat, dirs: seq<seq<byte>>, files: seq<FileKey>)
    : (r: Result<seq<FileKey>>)
    requires end <= |data|
    ensures r.Err? ==> r.error in {EndOfFile, Overflow, FormatError("directory index is invalid")}
    decreases end - ptr
  {
    var path :- ReadString(data, ptr, end);
    if path.value == [] then Ok(files)
    else
      var index :- ReadUleb128(data, path.next, end);
      var mtime :- SkipLeb128(data, index.next, end);
      var size :- SkipLeb128(data, mtime, end);
      if index.value > |dirs| then Err(FormatError("directory index is invalid"))
      else ReadFiles(data, size, end, dirs, files + [FileKeyOf(dirs, index.value, path.value)])
  }

  /** The file name table of the line number program at `stmtList` in
      .debug_line: one hash per file, in order, so that DW_AT_decl_file
      value i names entry i - 1. Each directory's hash state is its
      canonical path (hashing cannot fail, so hashing the directories once
      all are read feeds the same bytes as hashing each as it is read). */
  function ReadFileNameTable(line: seq<byte>, stmtList: nat): (r: Result<seq<FileKey>>)
    ensures r.Err? ==> r.error in {EndOfFile, Overflow, FormatError("unknown DWARF version"),
                                   FormatError("directory index is invalid")}
  {
    var ptr :- SkipLnpHeader(line, stmtList, |line|);
    ReadTables(line, ptr)
  }

  /** include_directories and then file_names, from `ptr` on. */
  function ReadTables(line: seq<byte>, ptr: nat): (r: Result<seq<FileKey>>)
    ensures r.Err? ==> r.error in {EndOfFile, Overflow, FormatError("directory index is invalid")}
  {
    var dirs :- ReadDirectories(line, ptr, |line|, []);
    ReadFiles(line, dirs.next, |line|, HashAll(dirs.value), [])
  }

  /** The directories read from `ptr` on to the end of `data`. */
  function DirectoriesFrom(data: seq<byte>, ptr: nat, acc: seq<seq<byte>>): Result<Decoded<seq<seq<byte>>>>
  {
    ReadDirectories(data, ptr, |data|, acc)
  }

  /** The file keys read from `ptr` on to the end of `data`. */
  function FilesFrom(data: seq<byte>, ptr: nat, dirs: seq<seq<byte>>, acc: seq<FileKey>): Result<seq<FileKey>>
  {
    ReadFiles(data, ptr, |data|, dirs, acc)
  }

  /** An entry of file_names as a producer writes it. */
  datatype FileEntry = FileEntry(name: seq<byte>, dirIndex: nat, mtime: nat, size: nat)

  /** Names are non-empty strings and the numbers fit in 64 bits. */
  predicate WritableFile(f: FileEntry)
  {
    f.name != [] && 0 !in f.name && f.dirIndex < U64_LIMIT && f.mtime < U64_LIMIT && f.size < U64_LIMIT
  }

  /** Directory paths are non-empty strings. */
  predicate WritablePaths(dirs: seq<seq<byte>>)
  {
    dirs == [] || (dirs[0] != [] && 0 !in dirs[0] && WritablePaths(dirs[1..]))
  }

  /** The canonical hash of every directory. */
  function HashAll(dirs: seq<seq<byte>>): (r: seq<seq<byte>>)
    ensures |r| == |dirs|
  {
    seq(|dirs|, i requires 0 <= i < |dirs| => HashDirectory(dirs[i]))
  }

  /** Entry i of HashAll is the canonical path of directory i, reversed. */
  lemma HashAllAt(dirs: seq<seq<byte>>, i: nat)
    requires i < |dirs|
    ensures HashAll(dirs)[i] == ReversedCanonicalPath(dirs[i])
  {
    HashDirectoryIsCanonical(dirs[i]);
  }

  function EncodeDirectories(dirs: seq<seq<byte>>): seq<byte>
  {
    if dirs == [] then [0] else dirs[0] + [0] + EncodeDirectories(dirs[1..])
  }

  function EncodeFile(f: FileEntry): seq<byte>
  {
    f.name + [0] + EncodeUleb(f.dirIndex) + EncodeUleb(f.mtime) + EncodeUleb(f.size)
  }

  function EncodeFiles(files: seq<FileEntry>): seq<byte>
  {
    if files == [] then [0] else EncodeFile(files[0]) + EncodeFiles(files[1..])
  }

  /** What reading the written files should give: their keys, or the
      error for the first index past the directories. */
  function ExpectedKeys(dirs: seq<seq<byte>>, files: seq<FileEntry>): Result<seq<FileKey>>
  {
    if files == [] then Ok([])
    else if files[0].dirIndex > |dirs| then Err(FormatError("directory index is invalid"))
    else
      var rest :- ExpectedKeys(dirs, files[1..]);
      Ok([FileKeyOf(dirs, files[0].dirIndex, files[0].name)] + rest)
  }

  /** Appends the already-read keys in front of an expected result. */
  function After(files: seq<FileKey>, r: Result<seq<FileKey>>): Result<seq<FileKey>>
  {
    if r.Ok? then Ok(files + r.value) else r
  }

  /** The empty string ends the directories. */
  lemma ReadDirectoriesEnd(data: seq<byte>, ptr: nat, acc: seq<seq<byte>>)
    requires Occurs(data, ptr, [0])
    ensures DirectoriesFrom(data, ptr, acc) == Ok(Decoded(acc, ptr + 1))
  {
    assert [] + [0] == [0];
    ReadStringAt(data, ptr, []);
  }

  /** A directory path is read and the read goes on past it. */
  lemma ReadDirectoriesStep(data: seq<byte>, ptr: nat, d: seq<byte>, next: nat, acc: seq<seq<byte>>)
    requires d != [] && ReadString(data, ptr, |data|) == Ok(Decoded(d, next))
    ensures DirectoriesFrom(data, ptr, acc) == DirectoriesFrom(data, next, acc + [d])
  {
  }

  /** Reading written directories gives them back and stops past the
      terminating empty string. */
  lemma {:induction false} ReadEncodedDirectories(data: seq<byte>, ptr: nat, dirs: seq<seq<byte>>, acc: seq<seq<byte>>)
    requires WritablePaths(dirs) && Occurs(data, ptr, EncodeDirectories(dirs))
    ensures DirectoriesFrom(data, ptr, acc) == Ok(Decoded(acc + dirs, ptr + |EncodeDirectories(dirs)|))
    decreases |dirs|
  {
    if dirs == [] {
      assert EncodeDirectories(dirs) == [0];
      ReadDirectoriesEnd(data, ptr, acc);
      assert acc + dirs == acc;
    } else {
      var d := dirs[0];
      var rest := EncodeDirectories(dirs[1..]);
      var next := ptr + |d| + 1;
      assert EncodeDirectories(dirs) == (d + [0]) + rest;
      OccursAppend(data, ptr, d + [0], rest);
      assert ReadString(data, ptr, |data|) == Ok(Decoded(d, next)) by {
        ReadStringAt(data, ptr, d);
      }
      ReadDirectoriesStep(data, ptr, d, next, acc);
      ReadEncodedDirectories(data, next, dirs[1..], acc + [d]);
      assert (acc + [d]) + dirs[1..] == acc + dirs;
    }
  }

  /** Every entry can be written. */
  predicate WritableFiles(files: seq<FileEntry>)
  {
    files == [] || (WritableFile(files[0]) && WritableFiles(files[1..]))
  }

  /** The empty name ends the files. */
  lemma ReadFilesEnd(data: seq<byte>, ptr: nat, dirs: seq<seq<byte>>, files: seq<FileKey>)
    requires Occurs(data, ptr, [0])
    ensures FilesFrom(data, ptr, dirs, files) == Ok(files)
  {
    assert [] + [0] == [0];
    ReadStringAt(data, ptr, []);
  }

  /** The parts of a written entry lie back to back where it lies: the
      name and its terminator at `ptr`, then the directory index at `a`,
      the modification time at `b` and the size at `c`, up to `next`. */
  lemma EntryOccurs(data: seq<byte>, ptr: nat, f: FileEntry, a: nat, b: nat, c: nat, next: nat)
    requires Occurs(data, ptr, EncodeFile(f))
    requires a == ptr + |f.name| + 1 && b == a + |EncodeUleb(f.dirIndex)| && c == b + |EncodeUleb(f.mtime)|
    requires next == ptr + |EncodeFile(f)|
    ensures Occurs(data, ptr, f.name + [0])
    ensures Occurs(data, a, EncodeUleb(f.dirIndex))
    ensures Occurs(data, b, EncodeUleb(f.mtime))
    ensures Occurs(data, c, EncodeUleb(f.size))
    ensures next == c + |EncodeUleb(f.size)|
  {
    var u1 := EncodeUleb(f.dirIndex);
    var u2 := EncodeUleb(f.mtime);
    var u3 := EncodeUleb(f.size);
    OccursAppend(data, ptr, f.name + [0] + u1 + u2, u3);
    OccursAppend(data, ptr, f.name + [0] + u1, u2);
    OccursAppend(data, ptr, f.name + [0], u1);
  }

  /** A written entry is read part by part: its name, its directory
      index, and the modification time and size, which are skipped; the
      reads end where the entry ends. */
  lemma FileReads(data: seq<byte>, ptr: nat, f: FileEntry, a: nat, b: nat, c: nat, next: nat)
    requires WritableFile(f) && Occurs(data, ptr, EncodeFile(f))
    requires a == ptr + |f.name| + 1 && b == a + |EncodeUleb(f.dirIndex)| && c == b + |EncodeUleb(f.mtime)|
    requires next == ptr + |EncodeFile(f)|
    ensures ReadString(data, ptr, |data|) == Ok(Decoded(f.name, a))
    ensures ReadUleb128(data, a, |data|) == Ok(Decoded(f.dirIndex, b))
    ensures SkipLeb128(data, b, |data|) == Ok(c)
    ensures SkipLeb128(data, c, |data|) == Ok(next)
  {
    EntryOccurs(data, ptr, f, a, b, c, next);
    ReadStringAt(data, ptr, f.name);
    ReadUlebAt(data, a, f.dirIndex);
    SkipUlebAt(data, b, f.mtime);
    SkipUlebAt(data, c, f.size);
  }

  /** An entry whose parts are read: its index is checked and its key
      appended. */
  lemma ReadFilesEntry(data: seq<byte>, ptr: nat, dirs: seq<seq<byte>>, files: seq<FileKey>,
                       name: seq<byte>, index: nat, a: nat, b: nat, c: nat, next: nat)
    requires name != []
    requires ReadString(data, ptr, |data|) == Ok(Decoded(name, a))
    requires ReadUleb128(data, a, |data|) == Ok(Decoded(index, b))
    requires SkipLeb128(data, b, |data|) == Ok(c)
    requires SkipLeb128(data, c, |data|) == Ok(next)
    ensures FilesFrom(data, ptr, dirs, files)
              == if index > |dirs| then Err(FormatError("directory index is invalid"))
                 else FilesFrom(data, next, dirs, files + [FileKeyOf(dirs, index, name)])
  {
  }

  /** Reading a written entry: its index is checked and its key appended. */
  lemma ReadFilesStep(data: seq<byte>, ptr: nat, dirs: seq<seq<byte>>, files: seq<FileKey>, f: FileEntry, next: nat)
    requires WritableFile(f) && Occurs(data, ptr, EncodeFile(f)) && next == ptr + |EncodeFile(f)|
    ensures FilesFrom(data, ptr, dirs, files)
              == if f.dirIndex > |dirs| then Err(FormatError("directory index is invalid"))
                 else FilesFrom(data, next, dirs, files + [FileKeyOf(dirs, f.dirIndex, f.name)])
  {
    var a := ptr + |f.name| + 1;
    var b := a + |EncodeUleb(f.dirIndex)|;
    var c := b + |EncodeUleb(f.mtime)|;
    FileReads(data, ptr, f, a, b, c, next);
    ReadFilesEntry(data, ptr, dirs, files, f.name, f.dirIndex, a, b, c, next);
  }

  /** Reading written entries gives their keys, or the error for the first
      entry whose directory index is past the directories. */
  lemma {:induction false} ReadEncodedFiles(data: seq<byte>, ptr: nat, dirs: seq<seq<byte>>, files: seq<FileEntry>, acc: seq<FileKey>)
    requires WritableFiles(files) && Occurs(data, ptr, EncodeFiles(files))
    ensures FilesFrom(data, ptr, dirs, acc) == After(acc, ExpectedKeys(dirs, files))
    decreases |files|
  {
    if files == [] {
      assert EncodeFiles(files) == [0];
      ReadFilesEnd(data, ptr, dirs, acc);
      assert acc + [] == acc;
    } else {
      var f := files[0];
      var tail := files[1..];
      var next := ptr + |EncodeFile(f)|;
      assert EncodeFiles(files) == EncodeFile(f) + EncodeFiles(tail);
      OccursAppend(data, ptr, EncodeFile(f), EncodeFiles(tail));
      assert WritableFile(f) && WritableFiles(tail);
      assert f.dirIndex <= |dirs| ==>
               var key := FileKeyOf(dirs, f.dirIndex, f.name);
               FilesFrom(data, next, dirs, acc + [key]) == After(acc + [key], ExpectedKeys(dirs, tail)) by {
        if f.dirIndex <= |dirs| {
          ReadEncodedFiles(data, next, dirs, tail, acc + [FileKeyOf(dirs, f.dirIndex, f.name)]);
        }
      }
      ReadEncodedFilesCons(data, ptr, dirs, acc, f, tail, next);
      assert files == [f] + tail;
    }
  }

  /** The inductive step of ReadEncodedFiles, given the rest of the files. */
  lemma ReadEncodedFilesCons(data: seq<byte>, ptr: nat, dirs: seq<seq<byte>>, acc: seq<FileKey>,
                             f: FileEntry, tail: seq<FileEntry>, next: nat)
    requires WritableFile(f) && Occurs(data, ptr, EncodeFile(f)) && next == ptr + |EncodeFile(f)|
    requires f.dirIndex <= |dirs| ==>
               var key := FileKeyOf(dirs, f.dirIndex, f.name);
               FilesFrom(data, next, dirs, acc + [key]) == After(acc + [key], ExpectedKeys(dirs, tail))
    ensures FilesFrom(data, ptr, dirs, acc) == After(acc, ExpectedKeys(dirs, [f] + tail))
  {
    assert ExpectedKeys(dirs, [f] + tail)
             == if f.dirIndex > |dirs| then Err(FormatError("directory index is invalid"))
                else After([FileKeyOf(dirs, f.dirIndex, f.name)], ExpectedKeys(dirs, tail)) by {
      ExpectedKeysCons(dirs, f, tail);
    }
    ReadFilesStep(data, ptr, dirs, acc, f, next);
    if f.dirIndex <= |dirs| {
      AfterAfter(acc, [FileKeyOf(dirs, f.dirIndex, f.name)], ExpectedKeys(dirs, tail));
    }
  }

  /** ExpectedKeys of a non-empty list of files. */
  lemma ExpectedKeysCons(dirs: seq<seq<byte>>, f: FileEntry, tail: seq<FileEntry>)
    ensures ExpectedKeys(dirs, [f] + tail)
              == if f.dirIndex > |dirs| then Err(FormatError("directory index is invalid"))
                 else After([FileKeyOf(dirs, f.dirIndex, f.name)], ExpectedKeys(dirs, tail))
  {
    var files := [f] + tail;
    assert files[0] == f && files[1..] == tail;
  }

  /** Prepending keys twice is prepending their concatenation. */
  lemma AfterAfter(a: seq<FileKey>, b: seq<FileKey>, r: Result<seq<FileKey>>)
    ensures After(a + b, r) == After(a, After(b, r))
  {
    if r.Ok? {
      assert a + b + r.value == a + (b + r.value);
    }
  }

  /** The include_directories and file_names tables as a producer writes
      them. */
  function EncodeTables(dirs: seq<seq<byte>>, files: seq<FileEntry>): seq<byte>
  {
    EncodeDirectories(dirs) + EncodeFiles(files)
  }

  /** Written tables found in `line` at `ptr` are read back. */
  lemma TablesAt(line: seq<byte>, ptr: nat, dirs: seq<seq<byte>>, files: seq<FileEntry>)
    requires WritablePaths(dirs) && WritableFiles(files)
    requires Occurs(line, ptr, EncodeTables(dirs, files))
    ensures ReadTables(line, ptr) == ExpectedKeys(HashAll(dirs), files)
  {
    var next := ptr + |EncodeDirectories(dirs)|;
    OccursAppend(line, ptr, EncodeDirectories(dirs), EncodeFiles(files));
    DirectoriesAt(line, ptr, dirs);
    ReadEncodedFiles(line, next, HashAll(dirs), files, []);
    ReadTablesParts(line, ptr, dirs, next, ExpectedKeys(HashAll(dirs), files));
  }

  /** Written directories found in `data` at `ptr` are read back. */
  lemma DirectoriesAt(data: seq<byte>, ptr: nat, dirs: seq<seq<byte>>)
    requires WritablePaths(dirs) && Occurs(data, ptr, EncodeDirectories(dirs))
    ensures DirectoriesFrom(data, ptr, []) == Ok(Decoded(dirs, ptr + |EncodeDirectories(dirs)|))
  {
    ReadEncodedDirectories(data, ptr, dirs, []);
    assert [] + dirs == dirs;
  }

  /** The two tables, put together. */
  lemma ReadTablesParts(line: seq<byte>, start: nat, dirs: seq<seq<byte>>, next: nat, x: Result<seq<FileKey>>)
    requires DirectoriesFrom(line, start, []) == Ok(Decoded(dirs, next))
    requires FilesFrom(line, next, HashAll(dirs), []) == After([], x)
    ensures ReadTables(line, start) == x
  {
    if x.Ok? {
      assert [] + x.value == x.value;
    }
  }

  /** The header is skipped and then the tables are read. */
  lemma HeaderThenTables(line: seq<byte>, ptr: nat, start: nat)
    requires SkipLnpHeader(line, ptr, |line|) == Ok(start)
    ensures ReadFileNameTable(line, ptr) == ReadTables(line, start)
  {
  }

  /** The file name table of a line number program whose written tables
      follow a header that SkipLnpHeader steps over: one key per file, its
      directory's canonical path and then its name, or the error for the
      first file whose directory index is past the directories. */
  lemma ReadEncodedFileNameTable(line: seq<byte>, ptr: nat, start: nat, dirs: seq<seq<byte>>, files: seq<FileEntry>)
    requires SkipLnpHeader(line, ptr, |line|) == Ok(start)
    requires WritablePaths(dirs) && WritableFiles(files)
    requires Occurs(line, start, EncodeTables(dirs, files))
    ensures ReadFileNameTable(line, ptr) == ExpectedKeys(HashAll(dirs), files)
  {
    TablesAt(line, start, dirs, files);
    HeaderThenTables(line, ptr, start);
  }

  /** A whole written line number program header and tables, wherever they
      lie in .debug_line, give the keys of the written files. */
  lemma ReadWrittenFileNameTable(line: seq<byte>, ptr: nat, h: LnpHeader, dirs: seq<seq<byte>>, files: seq<FileEntry>)
    requires ValidLnpHeader(h) && WritablePaths(dirs) && WritableFiles(files)
    requires Occurs(line, ptr, EncodeLnpHeader(h) + EncodeTables(dirs, files))
    ensures ReadFileNameTable(line, ptr) == ExpectedKeys(HashAll(dirs), files)
  {
    OccursAppend(line, ptr, EncodeLnpHeader(h), EncodeTables(dirs, files));
    SkipEncodedLnpHeader(line, ptr, h);
    ReadEncodedFileNameTable(line, ptr, ptr + |EncodeLnpHeader(h)|, dirs, files);
  }

}
